=== FILE: README.md ===
# DAP4 client controls and ncdump helpers, modelled in Dafny

This project models three pieces of the netCDF-C library and its tools.

- **DAP4 curl option resolution** (`libdap4/d4curlfunctions.c`). `set_curlflag` turns each
  requested curl flag into the `curl_easy_setopt` calls it makes. `NCD4_set_flags_perlink`
  runs the fixed per-link flag list plus the optional buffer-size and keep-alive flags.
  `NCD4_get_rcproperties` parses the `HTTP.READ.BUFFERSIZE` and `HTTP.KEEPALIVE` settings.
  `NCD4_curl_debug` turns on verbose output.
- **DAP4 session controls and lifecycle** (`libdap4/d4file.c`). The model covers:
  - URL fragment controls (`fragmentcheck`, `NCD4_applyclientfragmentcontrols`) and query
    controls (`NCD4_applyclientquerycontrols`);
  - the constrainable-protocol check and the substrate file name;
  - `makesubstrate`, and `set_curl_properties` (user agent, cookie jar, access probes);
  - `NCD4_open`, as a sequence of steps whose first failure tears the session down;
  - `freeInfo`, `resetInfoforRead`, and `NCD4_close`/`NCD4_abort`.
- **ncdump helpers** (`ncdump/ncdump.c`). The model covers:
  - `tztrim`, `name_path`, and `set_precision`/`set_sigdigs`;
  - CDL and NcML attribute-string escaping (`pr_att_string`, `pr_attx_string`);
  - `iskeyword`, `prim_type_name`, `kind_string`, `kind_string_extended`, and `pr_shape`;
  - `get_fill_info` and the `xopt_props` decision;
  - `searchgroupdim` and `searchgrouptreedim`, and the ancestor walk that decides whether a
    dimension is printed by its simple or its group-qualified name.

The project has one module per concern:

- `Basics` holds `Option` and the netCDF status codes.
- `CText` models the C library pieces the sources lean on: character classes, decimal
  rendering, `sscanf`/`strtol`/`strtoul` prefix scans, `strlcat` truncation, `strstr`, and
  `strrchr`.
- `D4Curl` covers `set_curlflag` and the passes over it.
- `D4Resolve` holds what a full per-link pass resolves to.
- `D4Controls` covers the fragment, query, naming, substrate and curl-property logic.
- `D4Session` covers open, close and teardown.
- `NcText`, `NcEscape`, `NcTypes` and `NcGroups` cover ncdump.

Some parts of the environment are passed in rather than modelled:

- **libcurl and the netCDF library.** `curl_easy_setopt`, `nc_create`, `mkstemp`, file-open
  probes and the status of each step of `NCD4_open` are parameters, as functions from a
  request to a result.
- **Header constants outside these files.** The default user agent, the version, the default
  opaque size, the default checksum state, the default-on flags, the temporary directory and
  the checksum query key are fields of an `Env` record.
- **Typed integer conversions.** 64-bit `size_t`, 32-bit `int` and the clamping of `strtol`
  are written out explicitly.

Where the code and its documentation disagree, the model follows the code:

- `NCD4_close` returns at once when the debug copy fails, so `freeInfo` is skipped.
- `set_curl_properties` returns `NC_NOERR` with no cookie jar when the temporary file cannot be
  created.
- The fragment controls rebuild the flag set from the default-on flags. This drops the
  `NCF_UNCONSTRAINABLE` flag that `NCD4_open` set just before.
- `substrate.realfile` is never set in these files, so close never unlinks the substrate.
- `NC_EVARSIZE` from the metadata build is meant to be tolerated, but the open still fails (see
  Findings).

## Model

| member | source | states |
|---|---|---|
| D4Curl.Attempt | libdap4/d4curlfunctions.c:34-52 | The setopt calls are issued in order and stop at the first one libcurl rejects. Success means every attempted call was accepted and nothing was skipped. |
| D4Curl.SetCurlFlagAsWritten | libdap4/d4curlfunctions.c:34-192 | As written, set_curlflag always returns NC_NOERR, even after libcurl rejects an option. The calls made are a prefix of the case's settings. An unknown flag makes no call and logs a warning. |
| D4Curl.SetCurlFlag | libdap4/d4curlfunctions.c:58-192 | Corrected set_curlflag returns NC_NOERR exactly when every call was accepted, and then has made exactly the case's calls. Otherwise it returns NC_ECURL after the rejected call. A successful peer-verification-off also turns host verification off (lines 131-139). |
| D4Curl.CaseWellFormed | libdap4/d4curlfunctions.c:58-192 | Every case of set_curlflag sets only options that belong to that case, each at most once, in its fixed order. |
| D4Curl.ProxyWellFormed | libdap4/d4curlfunctions.c:117-130 | The proxy case sets host and port, the proxy credentials, and the any-auth method, in that order and only within its own option band. |
| D4Curl.KeepAliveEmits | libdap4/d4curlfunctions.c:175-184 | TCP_KEEPALIVE is set iff keep-alive is active. KEEPIDLE and KEEPINTVL are set iff their values are positive. |
| D4Curl.CaseIgnoresHost | libdap4/d4curlfunctions.c:58-192 | Only the VERIFYHOST case reads the host-verification setting. |
| D4Curl.AcceptedConcat | libdap4/d4curlfunctions.c:34 | A run of calls is accepted iff both halves are. A rejection at the end of the second half ends the whole run. |
| D4Curl.PerLinkExcludes | libdap4/d4curlfunctions.c:206-227 | The per-link list never asks for COOKIEFILE, NETRC_FILE or CONNECTTIMEOUT. |
| D4Curl.PerLinkOptional | libdap4/d4curlfunctions.c:229-238 | BUFFERSIZE is requested iff libcurl supports it and the buffer size is positive. TCP_KEEPALIVE is requested iff it is supported and active. |
| D4Curl.RunFlagsAsWrittenNoErr | libdap4/d4curlfunctions.c:206-244 | As written, a chain of set_curlflag calls always reports NC_NOERR. |
| D4Curl.RunFlagsCorrectedStatus | libdap4/d4curlfunctions.c:206-244 | Corrected, the chain reports NC_NOERR iff every call it made was accepted. Otherwise it reports NC_ECURL and stops at the rejected call. |
| D4Curl.SetFlagsPerLinkAsWritten | libdap4/d4curlfunctions.c:206-244 | As written, the per-link pass reports NC_NOERR whatever libcurl does, and leaves the transport settings alone. |
| D4Curl.SetFlagsPerLink | libdap4/d4curlfunctions.c:206-244 | Corrected, the per-link pass reports NC_NOERR iff all its calls were accepted. Otherwise it reports NC_ECURL with the rejection last. |
| D4Curl.SetFlagsPerFetch | libdap4/d4curlfunctions.c:196-201 | The per-fetch pass makes no call and changes nothing. |
| D4Curl.CurlDebug | libdap4/d4curlfunctions.c:308-313 | Debugging turns verbose on and makes exactly the VERBOSE=1 and ERRORBUFFER calls. |
| D4Curl.GetRcProperties | libdap4/d4curlfunctions.c:338-373 | Without the capability, or with an absent or empty setting, the transport keeps its values. "max" (any case) selects the largest read size. A number that scans is stored as scanned, zero or negative included. A failed scan leaves whatever the unset variable held. Keep-alive "on" (any case) turns it on and leaves idle and interval as they were. Any other non-empty text also turns it on, with the "idle/interval" pair converted from unsigned long to the long fields. One warning is printed for a buffer size that fails to scan or is not positive, and one for keep-alive text that does not give both numbers; there are no others. |
| D4Curl.RcBufferSizeRoundTrip | libdap4/d4curlfunctions.c:341-351 | A decimal buffer size in 1..LONG_MAX read from the rc file becomes the transport's buffer size, with no warning. |
| D4Curl.RcKeepAliveRoundTrip | libdap4/d4curlfunctions.c:353-370 | "idle/interval" read from the rc file becomes an active keep-alive without a warning. Values up to LONG_MAX are kept; larger ones become negative in the long fields. |
| D4Curl.RcKeepAliveHugeIdleSkipped | libdap4/d4curlfunctions.c:175-184 | An idle time above LONG_MAX is stored negative, so the keep-alive case sets TCP_KEEPALIVE and KEEPINTVL but not KEEPIDLE. |
| D4Resolve.RunFlagsResolves | libdap4/d4curlfunctions.c:131-146 | When the flag list requests VERIFYPEER before VERIFYHOST and libcurl accepts everything, the corrected chain makes the calls the flags describe, with host verification coupled to peer verification. |
| D4Resolve.PerLinkEmitsResolved | libdap4/d4curlfunctions.c:206-244 | When libcurl accepts everything, the per-link pass makes exactly the resolved calls and reports NC_NOERR. |
| D4Resolve.PerLinkAppliesPrefixOfResolved | libdap4/d4curlfunctions.c:206-244 | Whatever libcurl does, the calls the per-link pass makes are a prefix of the resolved calls. |
| D4Resolve.ResolvedEmits | libdap4/d4curlfunctions.c:206-244 | An option is set by the per-link pass iff its case is in the per-link list and that case sets it. |
| D4Resolve.ResolvedMember | libdap4/d4curlfunctions.c:206-244 | A given option and value pair is set iff the case that owns it is in the per-link list and sets it. |
| D4Resolve.ResolvedCredentials | libdap4/d4curlfunctions.c:62-69 | USERNAME, PASSWORD and HTTPAUTH are set iff both user and password are known. |
| D4Resolve.ResolvedCredentialValues | libdap4/d4curlfunctions.c:62-69 | The credential calls pass the user, the password and any-auth. |
| D4Resolve.ResolvedCookies | libdap4/d4curlfunctions.c:70-76 | A cookie jar is passed as both COOKIEJAR and COOKIEFILE. Without one, neither is set. |
| D4Resolve.ResolvedNetrc | libdap4/d4curlfunctions.c:77-84 | NETRC is set to optional iff a netrc file is configured. NETRC_FILE is set iff that file's path is non-empty, and names that path. |
| D4Resolve.ResolvedProxyHost | libdap4/d4curlfunctions.c:117-120 | PROXY and PROXYPORT are set iff a proxy host is configured. |
| D4Resolve.ResolvedProxyCreds | libdap4/d4curlfunctions.c:121-124 | Proxy user and password are set iff a proxy host, user and password are all known. |
| D4Resolve.ResolvedProxyAuth | libdap4/d4curlfunctions.c:125-127 | PROXYAUTH is set iff libcurl has it and proxy credentials are set. |
| D4Resolve.ResolvedVerifyPeer | libdap4/d4curlfunctions.c:131-139 | VERIFYPEER is set iff it is configured (non-negative), with the configured value. |
| D4Resolve.ResolvedVerifyHost | libdap4/d4curlfunctions.c:131-146 | VERIFYHOST is set iff libcurl has the option and the host setting, after peer verification off has forced it to 0, is non-negative. So it is set to 0 whenever peer verification is off, even with no host setting configured. |
| D4Resolve.ResolvedRedirects | libdap4/d4curlfunctions.c:101-106 | Redirects are always followed, up to MAX_REDIRECTS. |
| D4Resolve.ResolvedErrorBuffer | libdap4/d4curlfunctions.c:107-109 | The error buffer is always installed. |
| D4Resolve.ResolvedEncoding | libdap4/d4curlfunctions.c:110-116 | ACCEPT_ENCODING is "" (all encodings) iff encoding is on, and NULL otherwise. |
| D4Resolve.ResolvedNoUseSsl | libdap4/d4curlfunctions.c:166-167 | USE_SSL is never set. |
| D4Resolve.ResolvedNoConnectTimeout | libdap4/d4curlfunctions.c:93-96 | CONNECTTIMEOUT is never set by the per-link pass, because it is not in the list. |
| D4Resolve.ResolvedVerbose | libdap4/d4curlfunctions.c:85-88 | VERBOSE=1 is set iff verbose is on. |
| D4Resolve.ResolvedTimeout | libdap4/d4curlfunctions.c:89-92 | TIMEOUT is set iff the timeout is non-zero, with that timeout. |
| D4Resolve.ResolvedUserAgent | libdap4/d4curlfunctions.c:97-100 | USERAGENT is set iff a user agent is known, with that text. |
| D4Resolve.ResolvedSslCert | libdap4/d4curlfunctions.c:147-150 | SSLCERT is set iff a certificate is configured, with its path. |
| D4Resolve.ResolvedKey | libdap4/d4curlfunctions.c:151-157 | SSLKEY is set iff a key is configured, with its path. KEYPASSWD is set iff a key password is configured, whether or not a key is. |
| D4Resolve.ResolvedCaInfo | libdap4/d4curlfunctions.c:158-161 | CAINFO is set iff configured, with its path. |
| D4Resolve.ResolvedCaPath | libdap4/d4curlfunctions.c:162-165 | CAPATH is set iff configured, with its path. |
| D4Resolve.ResolvedBufferSize | libdap4/d4curlfunctions.c:169-173 | BUFFERSIZE is set iff supported and positive, with the transport's size. |
| D4Resolve.ResolvedKeepAlive | libdap4/d4curlfunctions.c:175-184 | TCP_KEEPALIVE is set iff supported and active. |
| D4Resolve.ResolvedKeepIdle | libdap4/d4curlfunctions.c:179-180 | KEEPIDLE is set iff keep-alive is supported and active and the idle time is positive, with that time. |
| D4Resolve.ResolvedKeepInterval | libdap4/d4curlfunctions.c:181-182 | KEEPINTVL is set iff keep-alive is supported and active and the interval is positive, with that interval. |
| D4Resolve.ResolvedOrder | libdap4/d4curlfunctions.c:206-238 | The resolved per-link calls follow the list order, each option at most once. |
| D4Resolve.PerLinkPeerOffForcesHostOff | libdap4/d4curlfunctions.c:131-146 | Corrected, with peer verification off, any VERIFYHOST call the pass makes passes 0, whatever libcurl accepts. |
| D4Resolve.AsWrittenRunsEveryCase | libdap4/d4curlfunctions.c:34 | As written, every per-link case starts its calls even after an earlier call was rejected. |
| D4Resolve.AsWrittenPeerFailureLeaksHost | libdap4/d4curlfunctions.c:131-146 | As written, when libcurl rejects VERIFYPEER=0, the pass still sets VERIFYHOST to the configured non-zero value. |
| D4Controls.FragmentCheck | libdap4/d4file.c:501-515 | An absent key fails. A present key with no subkey passes. With a subkey, the check passes iff the subkey's first occurrence in the value ends the value or is followed by one of the separators '+', ',', ':' or ';'. |
| D4Controls.FragmentCheckFirstOnly | libdap4/d4file.c:505-514 | Only the first occurrence is examined: "fetchx,fetch" does not match "fetch". |
| D4Controls.FragmentCheckPrefixIgnored | libdap4/d4file.c:505-514 | An occurrence inside a longer word still matches: "prefetch" matches "fetch". |
| D4Controls.OpaqueSizeDecimal | libdap4/d4file.c:457-465 | Any decimal long long, followed by any non-digit text, is read as that value. Zero draws the "bad [opaquesize] tag" warning and keeps the default. Every other value is taken with no warning: a positive size as given, a negative size wrapped modulo 2^64. |
| D4Controls.OpaqueSizeRoundTrip | libdap4/d4file.c:457-465 | A decimal opaque size in 1..LLONG_MAX is read back unchanged, with no warning. |
| D4Controls.OpaqueSizeZero | libdap4/d4file.c:457-465 | "0" draws the "bad [opaquesize] tag" warning and keeps the default size. |
| D4Controls.OpaqueSizeNoDigits | libdap4/d4file.c:457-465 | A value with no digit fails the scan, draws the warning and keeps the default size. |
| D4Controls.OpaqueSizeNegative | libdap4/d4file.c:457-465 | A negative opaque size down to LLONG_MIN draws no warning and wraps modulo 2^64. |
| D4Controls.FragmentFlags | libdap4/d4file.c:429-470 | The flags word is rebuilt from nothing: the default-on flags, NCF_NC4, NCF_NCDAP, NCF_SHOWFETCH iff "show" lists "fetch", and NCF_FILLMISMATCH iff "fillmismatch" is present. Nothing else is set. |
| D4Controls.FragmentDebugFlags | libdap4/d4file.c:444-476 | In the debug flags, "debug=copy" adds NCF_DEBUG_COPY. "fillmismatch" clears NCF_FILLMISMATCH_FAIL. "nofillmismatch" clears NCF_FILLMISMATCH and sets NCF_FILLMISMATCH_FAIL. Every other bit is kept. |
| D4Controls.FragmentControlsNoKeys | libdap4/d4file.c:425-477 | A fragment holding none of the keys the pass reads leaves every control as it was, except the flags word and the opaque size, which go back to their defaults. |
| D4Controls.FragmentControlsSubstrateName | libdap4/d4file.c:448-450 | A given substrate name is kept as a prefix shorter than NC_MAX_NAME, and whole when it fits. |
| D4Controls.FragmentControlsDropUnconstrainable | libdap4/d4file.c:425-431 | The fragment pass clears NCF_UNCONSTRAINABLE unless it is a default-on flag. |
| D4Controls.FillMismatchAsymmetry | libdap4/d4file.c:467-476 | With both "fillmismatch" and "nofillmismatch", NCF_FILLMISMATCH stays in the flags word. The debug word has FILLMISMATCH_FAIL and not FILLMISMATCH, because each branch works on a different word. |
| D4Controls.FragmentControlsIdempotent | libdap4/d4file.c:425-477 | Applying the fragment controls twice gives the same controls as applying them once. |
| D4Controls.FragmentControlsOnlyKnownKeys | libdap4/d4file.c:425-477 | Two fragments that agree on the keys the pass reads give the same controls. |
| D4Controls.ApplyQueryControls | libdap4/d4file.c:480-495 | Only the checksum setting changes. An absent key gives the default. "false"/"true" (any case) give 0/1. Any other value logs a warning and keeps the default. |
| D4Controls.QueryControlsCaseless | libdap4/d4file.c:486-490 | "TRUE" turns checksumming on. |
| D4Controls.Constrainable | libdap4/d4file.c:324-336 | A protocol is constrainable iff it is "http" or "https". |
| D4Controls.ConflictExactly | libdap4/d4file.c:84-94 | A conflict means a constraint was given for a non-constrainable protocol. |
| D4Controls.SubstrateName | libdap4/d4file.c:100-115 | The name is the fragment's substrate name if non-empty. Otherwise it is "tmp_" followed by the pseudo ncid. It is always shorter than NC_MAX_NAME. |
| D4Controls.GeneratedNamesDistinct | libdap4/d4file.c:106-113 | Distinct pseudo ncids give distinct generated substrate names. |
| D4Controls.CreateMode | libdap4/d4file.c:554-567 | The substrate is created as NETCDF4 with CLOBBER. It is diskless iff debug=copy is off, and writable iff debug=copy is on. |
| D4Controls.MakeSubstrate | libdap4/d4file.c:548-579 | makesubstrate aborts any previous store, then creates the file with the mode above and returns the creation status. It records the new id on success and 0 ("no substrate") when the create fails. |
| D4Controls.MakeSubstrateRestoresFormat | libdap4/d4file.c:568-570 | The process-wide default format is the same afterwards as before. |
| D4Controls.MakeSubstrateOneLive | libdap4/d4file.c:553-577 | After makesubstrate the previous store is gone. On success exactly the new store is alive, and it is the one recorded. On failure no store is alive and the session records 0. |
| D4Controls.SetCurlProperties | libdap4/d4file.c:342-422 | A missing user agent becomes the default agent plus the version. A given cookie jar is kept. Otherwise a temporary jar is created, or none. The jar is probed for access, and EPERM is returned iff the probe fails. |
| D4Controls.ProbeJar | libdap4/d4file.c:395-416 | The probe opens the jar read-only first, then read-write if the jar exists or create-read-write if not. It succeeds iff that second open succeeds. |
| D4Session.FreeInfo | libdap4/d4file.c:255-287 | freeInfo releases everything the session owns except the substrate store. It unlinks the file iff it is a real file with a name and debug=copy is off. |
| D4Session.ResetInfoForRead | libdap4/d4file.c:291-311 | Resetting releases only the metadata. It unlinks the substrate file iff it is a real file with a name and debug=copy is off, and changes nothing else. |
| D4Session.ResetInfoForReadTwice | libdap4/d4file.c:291-311 | A second reset changes nothing more. |
| D4Session.FirstFailure | libdap4/d4file.c:41-212 | The open stops at the first failing step, and every earlier step succeeded. |
| D4Session.Open | libdap4/d4file.c:41-212 | A NULL path gives NC_EDAPURL. An open succeeds iff no step fails, and then holds every resource and leaks nothing. Otherwise it returns the first failing step's status. A rejected URL gives NC_EDAPURL and leaks nothing; a failed allocation gives NC_ENOMEM. A failure after makesubstrate leaks the store. |
| D4Session.StepStatus | libdap4/d4file.c:63-204 | A failed allocation (lines 64-65, 113-114, 132-133, 157-158) reports NC_ENOMEM, and a URL ncuriparse rejects reports NC_EDAPURL (lines 72-73), whatever the failure. The constraint check fails iff there is a conflict (lines 84-94). The per-fetch pass never fails, and the per-link pass as written never fails, since both return NC_NOERR (called at lines 141-143; bodies in d4curlfunctions.c). Corrected, metabuild's NC_EVARSIZE counts as success (lines 203-204). |
| D4Session.OpenRun | libdap4/d4file.c:59-211 | The steps after the path check: the first failure decides the status and what the teardown leaves. |
| D4Session.TeardownAfter | libdap4/d4file.c:206-211 | The teardown after a failure leaves the store live iff makesubstrate had already run. |
| D4Session.OpenControls | libdap4/d4file.c:80-97 | The controls of an opened session carry exactly the fragment flags: NCF_UNCONSTRAINABLE set at line 81 does not survive. |
| D4Session.OpenRejectsUrl | libdap4/d4file.c:71-73 | With NC_check_id and the info allocation succeeding, a URL ncuriparse rejects fails the open at the parse step with NC_EDAPURL, and nothing leaks. |
| D4Session.OpenRefusesConflict | libdap4/d4file.c:84-94 | A constraint on an unconstrainable protocol fails with NC_EDAPCONSTRAINT before curl is opened, leaking nothing. |
| D4Session.OpenVarSizeAsWritten | libdap4/d4file.c:203-211 | As written, NC_EVARSIZE from metabuild still fails the open and leaks the store. |
| D4Session.OpenVarSizeCorrected | libdap4/d4file.c:203-204 | Corrected, an open where only metabuild reports NC_EVARSIZE succeeds and keeps its session. |
| D4Session.OpenFailureAfterSubstrateLeaksStore | libdap4/d4file.c:151-211 | Any failure after makesubstrate leaves the store open. |
| D4Session.Close | libdap4/d4file.c:215-249 | A bad id returns its status. Under debug=copy, a failed copy returns at once with everything still held. Otherwise the store is closed (debug=copy) or aborted, freeInfo releases everything, and the store's status is returned. |
| NcText.RunEnd | ncdump/ncdump.c:238-259 | The numeric run starting at a position ends at the first character that is not a digit or '.'. |
| NcText.Trimmed | ncdump/ncdump.c:238-259 | tztrim removes exactly the trailing zeros of the number's digit run, keeps at least one character of it, and leaves any exponent suffix. |
| NcText.TzTrim | ncdump/ncdump.c:238-259 | The in-place trimming loop computes the trimmed text. |
| NcText.TrimmedIdempotent | ncdump/ncdump.c:238-259 | Trimming a trimmed number changes nothing. |
| NcText.TrimmedKeepsExponent | ncdump/ncdump.c:238-259 | "1.500e+01" trims to "1.5e+01". |
| NcText.TrimmedKeepsPoint | ncdump/ncdump.c:238-259 | "-3.000" trims to "-3.", keeping the point. |
| NcText.StemUnique | ncdump/ncdump.c:157-188 | A path has only one CDL name: its last component, up to the last '.' of that component. |
| NcText.FileStem | ncdump/ncdump.c:157-188 | The computed name is that unique stem. |
| NcText.NamePath | ncdump/ncdump.c:157-188 | No path gives no name. A DAP URL gives the URL's base name. Otherwise the name is the path's stem. |
| NcText.NamePathDropsLastExtension | ncdump/ncdump.c:157-188 | "a/b.c.nc" names the unit "b.c". |
| NcText.SetPrecision | ncdump/ncdump.c:2171-2227 | Accepted digit counts are in 1..20, and a double count is only given with a float count. Missing counts keep the defaults. The float count is the strtol value of the argument cut to int: it is rejected iff it lies outside 1..20, and otherwise it is the count set. |
| NcText.DoubleCount | ncdump/ncdump.c:2218-2226 | After an accepted float count, text not starting with ',' keeps the double default. An accepted result keeps the float count and has a double count in 1..20, and a rejection is always about the double count. |
| NcText.SetPrecisionRejectsFloat | ncdump/ncdump.c:2209-2217 | A decimal float count in the long range whose int image lies outside 1..20 is reported with that image. |
| NcText.SetPrecisionRejectsDouble | ncdump/ncdump.c:2218-2224 | After an accepted float count and a comma, a double count whose int image lies outside 1..20 is reported with that image. |
| NcText.SetPrecisionRejectsMissingDouble | ncdump/ncdump.c:2218-2224 | After an accepted float count, a comma followed by no number is reported as a double count of 0. |
| NcText.SetPrecisionRoundTrip | ncdump/ncdump.c:2202-2227 | "F,D" with both in range sets both counts. |
| NcText.SetPrecisionFloatOnly | ncdump/ncdump.c:2202-2227 | "F" sets only the float count. |
| NcText.SetPrecisionWraps | ncdump/ncdump.c:2202-2227 | The long-to-int conversion wraps: F+2^32 is taken as F. |
| NcEscape.TrimNuls | ncdump/ncdump.c:424-428 | Only trailing NULs are dropped. |
| NcEscape.PrAttString | ncdump/ncdump.c:413-476 | The CDL string is quoted, with each character escaped by the CDL rules. |
| NcEscape.CdlRoundTrip | ncdump/ncdump.c:429-473 | Reading the CDL escapes back recovers the string exactly. |
| NcEscape.PrAttStringRoundTrip | ncdump/ncdump.c:413-476 | The printed attribute is quoted, and unescaping its inside gives the attribute without trailing NULs. |
| NcEscape.PrAttxString | ncdump/ncdump.c:483-538 | The NcML string is quoted and escaped. It warns once iff the text still holds a NUL. |
| NcEscape.XmlRoundTrip | ncdump/ncdump.c:501-535 | Decoding the XML character references recovers the string exactly. |
| NcEscape.PrAttxStringRoundTrip | ncdump/ncdump.c:483-538 | Decoding the printed NcML attribute gives the attribute without trailing NULs. |
| NcEscape.XmlBodyNoMarkup | ncdump/ncdump.c:501-535 | The escaped text never contains '<' or '"', so it cannot end the attribute. |
| NcTypes.PrimTypeName | ncdump/ncdump.c:192-229 | error() is called iff the type has no CDL name, and exactly then the name is "bogus". |
| NcTypes.PrimTypeNamesDistinct | ncdump/ncdump.c:192-229 | Distinct primitive types get distinct CDL names, none of them "bogus". |
| NcTypes.KindString | ncdump/ncdump.c:264-281 | error() is called iff the kind is unknown, and an unknown kind is labelled "unrecognized". |
| NcTypes.KindStringsDistinct | ncdump/ncdump.c:264-281 | Distinct known kinds get distinct labels, none of them "unrecognized". |
| NcTypes.Hex8RoundTrip | ncdump/ncdump.c:286-322 | The eight hex digits printed for the mode read back as the mode modulo 2^32. |
| NcTypes.KindStringExtended | ncdump/ncdump.c:286-322 | The extended label picks "64-bit data", "64-bit offset" or "classic" by the mode bits, appends " mode=" and eight hex digits, and stays within the 1024-byte buffer. |
| NcTypes.IsKeyword | ncdump/ncdump.c:64-84 | A name is a keyword iff it is one of variables, dimensions, data, group or types. |
| NcTypes.GetFillInfo | ncdump/ncdump.c:1504-1584 | A _FillValue attribute of the variable's type and length 1 is used. Otherwise the type's default fill value is used. Byte, ubyte and user-defined types have none. |
| NcTypes.XoptProps | ncdump/ncdump.c:2410-2418 | Properties are shown iff special attributes are on and -Xp was not given. |
| NcTypes.ShapeNamesRoundTrip | ncdump/ncdump.c:1308-1328 | Splitting the shape text at its spaces gives back the variable's dimension names in order, when no name holds a space. |
| NcTypes.PrShape | ncdump/ncdump.c:1308-1328 | A scalar prints nothing. Otherwise the shape attribute holds the names of the variable's dimensions, in order, joined by single spaces, and strlcat cuts nothing off. |
| NcTypes.SplitJoin | ncdump/ncdump.c:1318-1325 | Splitting the shape text at spaces gives back the dimension names, when they have no spaces. |
| NcGroups.SearchGroupDimAsWritten | ncdump/ncdump.c:2529-2552 | As written, the per-group check succeeds iff the group has any dimension at all. |
| NcGroups.SearchGroupDim | ncdump/ncdump.c:2529-2552 | Corrected, the check succeeds iff the group holds the dimension, and gives NC_EBADDIM iff it does not. |
| NcGroups.SearchFindsIff | ncdump/ncdump.c:2560-2603 | On healthy groups, the breadth-first search does not fail. It finds nothing iff no queued tree has a group the per-group check accepts, and the group it names is accepted. Corrected, the check accepts a group listing the dimension; as written, any group with a dimension. |
| NcGroups.FirstQueuedWins | ncdump/ncdump.c:2560-2603 | The search returns the first group in breadth-first order that holds the dimension. |
| NcGroups.SearchGroupTreeDim | ncdump/ncdump.c:2560-2603 | Searching from the root finds the dimension iff the tree holds it, and names a group that holds it. |
| NcGroups.SearchGroupTreeDimAsWritten | ncdump/ncdump.c:2560-2603 | As written, a root with any dimension is returned for every dimension id. On a healthy tree the search finds nothing iff no group has any dimension, and otherwise names a group that has one. |
| NcGroups.SearchAsWrittenNamesWrongGroup | ncdump/ncdump.c:2540-2545 | A root with dimension 1 and a child with dimension 7: as written, the search for 7 names the root; corrected, it names the child. |
| NcGroups.QualifyDim | ncdump/ncdump.c:1815-1861 | The simple name is used iff the first matching ancestor holds the dimension and no nearer namesake exists. A nearer namesake forces the qualified name. Without a match, the tree search of the chosen mode decides the qualifier, and the walk is fatal iff no group passes that search's check. As written, a root with any dimension then qualifies the name. |
| NcGroups.QualifiedDimNameSplit | ncdump/ncdump.c:1862-1875 | The last '/' of a qualified dimension name separates the group's full name from the dimension's name. |

## Left out

- In `NCD4_open`, the allocations that can fail (the info record, the substrate name's `strdup`, the curl record, `NCD4_newmeta`) are fallible steps reporting NC_ENOMEM. The other allocations are not modelled: `ncbytesnew` for the curl packet in `NCD4_open`, `emalloc` in ncdump.c, which exits the program, and the `malloc(0)` of a leaf group's id list in ncdump.c.
- The `log` fragment in `NCD4_open` (lines 118-121) only turns on logging, and the `CURLOPT_VERBOSE` environment variable (lines 124-125) only forces the verbose curl flag on. Neither is modelled: the model has no process environment.
- Output functions (`printf`, `print_name`, `fputs`) are not modelled. The helpers return the text they would print. How `print_name` escapes names lives in another file that is not part of this model.
- libcurl, the netCDF API, `mkstemp`, `NC_open` probes and URL parsing are parameters or oracles rather than code.
- `set_curl_options`, `cvt` and `NCD4_set_curlstate` in d4curlfunctions.c are compiled out by `#if 0`.
- `NCD4_curl_protocols`, `curl_printerror` and `reportcurlerror` only query or print, and are not modelled.
- `NCD4_get_substrate` is a pointer indirection with no logic of its own.
- `getfragment` and `getquery` are map lookups; fragments and queries are modelled as maps.
- NC_check_id failing in `NCD4_open` leaves `nc` uninitialised but still used. The model treats it as an ordinary first-step failure.
- The `NCD4_open` step oracle gives each step a status; the contents of the DMR, the protocol inference and the data read are not modelled.
- NcText.TzTrim: defined only for text whose leading run of digits and '.' holds a '.'. That point is the only thing that stops the backward walk over zeros. The `snprintf` formats of the callers are defined outside ncdump.c and are not part of this model.
- NcText.SetPrecision: `set_sigdigs` is the same parse without the "given" flags, so it is covered by the same member.
- FLT_DIGITS and DBL_DIGITS come from ncdump.h, which is not part of this model; they are fixed at 7 and 15.
- NcTypes.GetFillInfo: the fill values are named, not given as typed bit patterns, and the NC_STRING fill's allocation is not modelled.
- D4Curl.RcBufferSizeRoundTrip: stated only up to LONG_MAX. The model's `sscanf("%ld")` does not model what happens past the range of `long`, where C leaves the result undefined.
- D4Controls.OpaqueSizeRoundTrip: stated only up to LLONG_MAX, for the same reason with `sscanf("%lld")`. The same holds for every scan in the model: `CText.ScanInteger` reads an unbounded integer, and only `strtol` clamps to LONG_MIN..LONG_MAX.
- NcTypes.KindStringExtended: the `snprintf` truncation at 1024 bytes is stated as a bound, since every label fits.

## Findings

| source | as written | input that shows it | evidently intended | confidence | as-written member | corrected member |
|---|---|---|---|---|---|---|
| libdap4/d4curlfunctions.c:34 | `SETCURLOPT` jumps to `done` on a failed setopt, but `ret` is still NC_NOERR, so set_curlflag and the per-link pass report success. | libcurl rejects SSL_VERIFYPEER=0, with verifyhost configured as 2. | The failure is reported as NC_ECURL and the pass stops, so host verification is never left on alone. | not executed | D4Resolve.AsWrittenPeerFailureLeaksHost | D4Resolve.PerLinkPeerOffForcesHostOff |
| ncdump/ncdump.c:2540-2545 | searchgroupdim leaves `ret` as NC_NOERR both when the id is found and when the loop runs out. Any group with at least one dimension "holds" every id, and the dimension walk at line 1860 then qualifies a name with that group (NcGroups.QualifyDim with `asWritten`). | Root with dimension 1, child with dimension 7; search for 7. | NC_EBADDIM when the id is not in the group, so the tree search names the child. | not executed | NcGroups.SearchAsWrittenNamesWrongGroup | NcGroups.SearchGroupTreeDim |
| libdap4/d4file.c:203-211 | NC_EVARSIZE from metabuild skips `goto done`, but the `done:` label right after tests `ret` again and tears the session down. | Every step succeeds except metabuild, which returns NC_EVARSIZE. | The open tolerates NC_EVARSIZE and keeps the session. | not executed | D4Session.OpenVarSizeAsWritten | D4Session.Open |

=== FILE: basics.dfy ===
/**
 * Shared vocabulary: the Option type that stands for a C pointer that may be
 * NULL, and the netCDF status codes that the modelled code returns.
 */
module Basics {

  /** A value that may be absent; `None` plays the role of a NULL pointer. */
  datatype Option<+T> = None | Some(value: T)
  {
    function GetOr(default: T): T
    {
      match this
      case Some(v) => v
      case None => default
    }
  }

  /** The netCDF status codes that appear in the modelled code (NC_NOERR, NC_E...). */
  datatype NcErr =
    | NoErr           // NC_NOERR
    | EBadId          // NC_EBADID
    | ENoMem          // NC_ENOMEM
    | EPerm           // NC_EPERM
    | EBadDim         // NC_EBADDIM
    | EVarSize        // NC_EVARSIZE
    | ECurl           // NC_ECURL
    | EDapUrl         // NC_EDAPURL
    | EDapConstraint  // NC_EDAPCONSTRAINT
    | OtherErr(code: int)
}

=== FILE: ctext.dfy ===
/**
 * The C-library string behaviour the modelled code relies on, in the C locale:
 * character classes, decimal text, the integer conversions of sscanf("%ld")
 * and strtol, and the bounded copies strlcat, strncpy and snprintf.
 * A C `char` is modelled as a Dafny `char`; every classification below is the
 * C-locale one.
 */
module CText {
  import opened Basics

  predicate IsDigit(c: char) { '0' <= c <= '9' }

  /** isspace in the C locale: space, \t, \n, \v, \f, \r. */
  predicate IsSpace(c: char)
  {
    c == ' ' || c == '\t' || c == '\n' || c == (11 as char) || c == (12 as char) || c == '\r'
  }

  /** iscntrl in the C locale: the codes below 32, and DEL. */
  predicate IsCntrl(c: char) { (c as int) < 32 || (c as int) == 127 }

  function DigitValue(c: char): nat
    requires IsDigit(c)
  {
    (c as int) - ('0' as int)
  }

  function DigitChar(d: nat): (c: char)
    requires d < 10
    ensures IsDigit(c) && DigitValue(c) == d
  {
    (('0' as int) + d) as char
  }

  /** tolower on ASCII letters, as strcasecmp applies it. */
  function Lower(c: char): char
  {
    if 'A' <= c <= 'Z' then ((c as int) + 32) as char else c
  }

  /** strcasecmp(a, b) == 0 */
  predicate EqualsIgnoreCase(a: string, b: string)
  {
    |a| == |b| && forall i :: 0 <= i < |a| ==> Lower(a[i]) == Lower(b[i])
  }

  predicate AllDigits(s: string)
  {
    forall i :: 0 <= i < |s| ==> IsDigit(s[i])
  }

  /** The decimal text of a natural number, without leading zeros, as printf("%d") writes it. */
  function NatToDecimal(n: nat): (r: string)
    ensures 1 <= |r| && AllDigits(r)
    decreases n
  {
    if n < 10 then [DigitChar(n)] else NatToDecimal(n / 10) + [DigitChar(n % 10)]
  }

  /** printf("%d") of a signed value. */
  function IntToDecimal(n: int): string
  {
    if n < 0 then "-" + NatToDecimal(-n) else NatToDecimal(n)
  }

  function Pow10(k: nat): (r: nat)
    ensures 0 < r
  {
    if k == 0 then 1 else 10 * Pow10(k - 1)
  }

  /** A number below 10^k takes at most k digits. */
  lemma {:induction false} DecimalLengthBound(n: nat, k: nat)
    requires 0 < k && n < Pow10(k)
    ensures |NatToDecimal(n)| <= k
    decreases k
  {
    if n >= 10 {
      assert k > 1;
      assert n / 10 < Pow10(k - 1);
      DecimalLengthBound(n / 10, k - 1);
    }
  }

  /** printf("%d") of a 32-bit int takes at most 11 characters. */
  lemma Int32DecimalLength(n: int)
    requires -0x8000_0000 <= n < 0x8000_0000
    ensures |IntToDecimal(n)| <= 11
  {
    assert Pow10(10) == 10_000_000_000;
    if n < 0 {
      DecimalLengthBound(-n, 10);
    } else {
      DecimalLengthBound(n, 10);
    }
  }

  /** The value of a run of decimal digits. */
  function DigitsValue(ds: string): nat
    requires AllDigits(ds)
    decreases |ds|
  {
    if |ds| == 0 then 0 else DigitsValue(ds[..|ds| - 1]) * 10 + DigitValue(ds[|ds| - 1])
  }

  lemma {:induction false} DecimalRoundTrip(n: nat)
    ensures DigitsValue(NatToDecimal(n)) == n
    decreases n
  {
    if n >= 10 {
      DecimalRoundTrip(n / 10);
      var t := NatToDecimal(n / 10) + [DigitChar(n % 10)];
      assert t[..|t| - 1] == NatToDecimal(n / 10);
    }
  }

  /** Number of consecutive white-space characters of `s` starting at `i`. */
  function SpaceRun(s: string, i: nat): (k: nat)
    ensures i + k <= |s| || k == 0
    ensures i + k < |s| ==> !IsSpace(s[i + k])
    decreases |s| - i
  {
    if i >= |s| || !IsSpace(s[i]) then 0 else 1 + SpaceRun(s, i + 1)
  }

  /** Number of consecutive decimal digits of `s` starting at `i`. */
  function DigitRun(s: string, i: nat): (k: nat)
    ensures i + k <= |s| || k == 0
    ensures i + k < |s| ==> !IsDigit(s[i + k])
    decreases |s| - i
  {
    if i >= |s| || !IsDigit(s[i]) then 0 else 1 + DigitRun(s, i + 1)
  }

  /** The characters a digit run counts are digits. */
  lemma {:induction false} DigitRunDigits(s: string, i: nat)
    requires i <= |s|
    ensures AllDigits(s[i..i + DigitRun(s, i)])
    decreases |s| - i
  {
    if i < |s| && IsDigit(s[i]) {
      DigitRunDigits(s, i + 1);
      var k := DigitRun(s, i + 1);
      assert s[i..i + 1 + k] == [s[i]] + s[i + 1..i + 1 + k];
    }
  }

  /** The last character a non-empty digit run counts is a digit. */
  lemma {:induction false} DigitRunLast(s: string, i: nat)
    requires DigitRun(s, i) > 0
    ensures IsDigit(s[i + DigitRun(s, i) - 1])
    decreases |s| - i
  {
    if DigitRun(s, i + 1) > 0 {
      DigitRunLast(s, i + 1);
    }
  }

  /** The value of the run of digits of `s` that starts at `i`. */
  function RunValue(s: string, i: nat): nat
    requires i <= |s|
  {
    DigitRunDigits(s, i);
    DigitsValue(s[i..i + DigitRun(s, i)])
  }

  /** A converted integer and the index just after its last digit. */
  datatype Scan = Scan(value: int, end: nat)

  /**
   * The integer conversion shared by sscanf("%ld"), sscanf("%lld") and strtol:
   * optional white space, an optional sign, then at least one digit.
   * None when no digit follows. Overflow beyond the C type is not modelled.
   */
  function ScanInteger(s: string): (r: Option<Scan>)
    ensures r.Some? ==> r.value.end <= |s| && 0 < r.value.end
    ensures r.Some? ==> IsDigit(s[r.value.end - 1])
    ensures r.Some? && r.value.end < |s| ==> !IsDigit(s[r.value.end])
  {
    ScanSigned(s, SpaceRun(s, 0))
  }

  /** The sign and digits of an integer conversion, once the white space before `i` is skipped. */
  function ScanSigned(s: string, i: nat): (r: Option<Scan>)
    requires i <= |s|
    ensures r.Some? ==> r.value.end <= |s| && i < r.value.end
    ensures r.Some? ==> IsDigit(s[r.value.end - 1])
    ensures r.Some? && r.value.end < |s| ==> !IsDigit(s[r.value.end])
  {
    var signed := i < |s| && (s[i] == '-' || s[i] == '+');
    var j := if signed then i + 1 else i;
    var k := DigitRun(s, j);
    if k == 0 then None
    else
      DigitRunLast(s, j);
      var v: int := RunValue(s, j);
      Some(Scan(if signed && s[i] == '-' then -v else v, j + k))
  }

  lemma DigitRunOfDecimal(d: string, rest: string, i: nat)
    requires AllDigits(d) && i <= |d|
    requires |rest| == 0 || !IsDigit(rest[0])
    ensures DigitRun(d + rest, i) == |d| - i
    decreases |d| - i
  {
    if i < |d| {
      DigitRunOfDecimal(d, rest, i + 1);
    } else if |rest| > 0 {
      assert (d + rest)[i] == rest[0];
    }
  }

  /** Scanning the decimal text of `n` gives `n` back and stops right after it. */
  lemma ScanDecimalRoundTrip(n: int, rest: string)
    requires |rest| == 0 || !IsDigit(rest[0])
    ensures ScanInteger(IntToDecimal(n) + rest) == Some(Scan(n, |IntToDecimal(n)|))
  {
    if n < 0 {
      ScanNegativeRoundTrip(n, rest);
    } else {
      ScanNaturalRoundTrip(n, rest);
    }
  }

  /** Different integers print differently. */
  lemma DecimalInjective(a: int, b: int)
    requires IntToDecimal(a) == IntToDecimal(b)
    ensures a == b
  {
    assert IntToDecimal(a) + "" == IntToDecimal(a);
    assert IntToDecimal(b) + "" == IntToDecimal(b);
    ScanDecimalRoundTrip(a, "");
    ScanDecimalRoundTrip(b, "");
  }

  lemma ScanNaturalRoundTrip(n: nat, rest: string)
    requires |rest| == 0 || !IsDigit(rest[0])
    ensures ScanInteger(NatToDecimal(n) + rest) == Some(Scan(n, |NatToDecimal(n)|))
  {
    var d := NatToDecimal(n);
    var t := d + rest;
    DigitRunOfDecimal(d, rest, 0);
    assert t[0] == d[0] && SpaceRun(t, 0) == 0;
    assert t[0..|d|] == d;
    DecimalRoundTrip(n);
  }

  lemma ScanNegativeRoundTrip(n: int, rest: string)
    requires n < 0
    requires |rest| == 0 || !IsDigit(rest[0])
    ensures ScanInteger(IntToDecimal(n) + rest) == Some(Scan(n, |IntToDecimal(n)|))
  {
    var d := NatToDecimal(-n);
    var u := d + rest;
    assert IntToDecimal(n) + rest == "-" + u;
    RunOfDecimal(d, rest);
    DecimalRoundTrip(-n);
    assert RunValue(u, 0) == -n && DigitRun(u, 0) == |d|;
    ScanMinus(u);
  }

  /** The digit run at the start of a decimal text followed by a non-digit is that text. */
  lemma RunOfDecimal(d: string, rest: string)
    requires AllDigits(d)
    requires |rest| == 0 || !IsDigit(rest[0])
    ensures DigitRun(d + rest, 0) == |d| && RunValue(d + rest, 0) == DigitsValue(d)
  {
    DigitRunOfDecimal(d, rest, 0);
    assert (d + rest)[0..|d|] == d;
  }

  /** A minus sign followed by digits scans as the negated run. */
  lemma ScanMinus(u: string)
    requires DigitRun(u, 0) > 0
    ensures ScanInteger("-" + u) == Some(Scan(-(RunValue(u, 0) as int), 1 + DigitRun(u, 0)))
  {
    MinusShift(u);
    assert ("-" + u)[0] == '-';
    assert SpaceRun("-" + u, 0) == 0;
  }

  /** After a leading minus sign, the digit run and its value are those of the rest. */
  lemma MinusShift(u: string)
    ensures DigitRun("-" + u, 1) == DigitRun(u, 0)
    ensures RunValue("-" + u, 1) == RunValue(u, 0)
  {
    DigitRunShift(u, 0);
    var k := DigitRun(u, 0);
    assert ("-" + u)[1..1 + k] == u[0..k];
  }

  lemma {:induction false} DigitRunShift(s: string, i: nat)
    ensures DigitRun("-" + s, i + 1) == DigitRun(s, i)
    decreases |s| - i
  {
    if i < |s| {
      assert ("-" + s)[i + 1] == s[i];
      if IsDigit(s[i]) {
        DigitRunShift(s, i + 1);
      }
    }
  }

  const LONG_MIN: int := -0x8000_0000_0000_0000
  const LONG_MAX: int := 0x7FFF_FFFF_FFFF_FFFF

  /**
   * strtol(s, &end, 10): the converted value, clamped to the range of a 64-bit
   * long, and the end index; with no digits the value is 0 and the end is 0
   * (the end pointer is left at the start of the text).
   */
  function Strtol(s: string): (r: Scan)
    ensures LONG_MIN <= r.value <= LONG_MAX
    ensures r.end <= |s|
    ensures ScanInteger(s).None? ==> r == Scan(0, 0)
    ensures ScanInteger(s).Some? ==> r.end == ScanInteger(s).value.end
  {
    match ScanInteger(s)
    case None => Scan(0, 0)
    case Some(sc) =>
      Scan(if sc.value < LONG_MIN then LONG_MIN else if sc.value > LONG_MAX then LONG_MAX else sc.value, sc.end)
  }

  /** The (int) cast of a long on a two's-complement 32-bit int. */
  function ToInt32(v: int): (r: int)
    ensures -0x8000_0000 <= r < 0x8000_0000
    ensures -0x8000_0000 <= v < 0x8000_0000 ==> r == v
  {
    (v + 0x8000_0000) % 0x1_0000_0000 - 0x8000_0000
  }

  /** The cast of a signed value to a 64-bit size_t. */
  function ToSize(v: int): (r: nat)
    ensures r < 0x1_0000_0000_0000_0000
    ensures 0 <= v < 0x1_0000_0000_0000_0000 ==> r == v
    ensures -0x1_0000_0000_0000_0000 <= v < 0 ==> r == v + 0x1_0000_0000_0000_0000
  {
    v % 0x1_0000_0000_0000_0000
  }

  /** The conversion of an unsigned long to a 64-bit two's-complement long. */
  function ToLong(v: int): (r: int)
    ensures LONG_MIN <= r <= LONG_MAX
    ensures LONG_MIN <= v <= LONG_MAX ==> r == v
    ensures LONG_MAX < v < 0x1_0000_0000_0000_0000 ==> r == v - 0x1_0000_0000_0000_0000
  {
    (v + 0x8000_0000_0000_0000) % 0x1_0000_0000_0000_0000 - 0x8000_0000_0000_0000
  }

  function Min(a: int, b: int): int { if a <= b then a else b }

  /**
   * strlcat(dst, src, size): appends as much of `src` as fits in a buffer of
   * `size` bytes including the terminating NUL; nothing if `dst` already fills it.
   */
  function Strlcat(dst: string, src: string, size: nat): (r: string)
    ensures |dst| <= |r| && r[..|dst|] == dst
    ensures |dst| < size ==> |r| < size
    ensures |dst| + |src| < size ==> r == dst + src
  {
    if size <= |dst| then dst else dst + src[..Min(|src|, size - |dst| - 1)]
  }

  /** The first `n` characters of `s` (strncpy into an n-byte field, snprintf into n+1 bytes). */
  function Truncate(s: string, n: nat): (r: string)
    ensures |r| <= n && |r| <= |s| && r == s[..|r|]
    ensures |s| <= n ==> r == s
  {
    if |s| <= n then s else s[..n]
  }

  predicate OccursAt(hay: string, needle: string, j: nat)
  {
    j + |needle| <= |hay| && hay[j..j + |needle|] == needle
  }

  /** strstr: the first index at or after `i` where `needle` occurs in `hay`. */
  function FindFrom(hay: string, needle: string, i: nat): (r: Option<nat>)
    ensures r.Some? ==> i <= r.value && OccursAt(hay, needle, r.value)
    ensures r.Some? ==> forall j :: i <= j < r.value ==> !OccursAt(hay, needle, j)
    ensures r.None? ==> forall j :: i <= j ==> !OccursAt(hay, needle, j)
    decreases |hay| - i
  {
    if i + |needle| > |hay| then None
    else if hay[i..i + |needle|] == needle then Some(i)
    else FindFrom(hay, needle, i + 1)
  }

  /** strrchr: the last index of `c` in `s`. */
  function LastIndexOf(s: string, c: char): (r: Option<nat>)
    ensures r.Some? ==> r.value < |s| && s[r.value] == c
    ensures r.Some? ==> forall j :: r.value < j < |s| ==> s[j] != c
    ensures r.None? ==> forall j :: 0 <= j < |s| ==> s[j] != c
    decreases |s|
  {
    if |s| == 0 then None
    else if s[|s| - 1] == c then Some(|s| - 1)
    else LastIndexOf(s[..|s| - 1], c)
  }
}

=== FILE: d4controls.dfy ===
/**
 * The client controls of a DAP4 session (libdap4/d4file.c): the URL fragment
 * and query keys that switch features on, the allow-list of constrainable
 * protocols, the name and creation mode of the metadata substrate, and the
 * defaults set_curl_properties fills in before the transport is configured.
 *
 * The URL's fragment and query are maps from key to value (ncurifragmentlookup
 * and ncuriquerylookup); a presence-only key maps to some value. Strings are C
 * strings and hold no NUL. Values that come from headers outside d4file.c are
 * fields of `Env`.
 */
module D4Controls {
  import opened Basics
  import opened CText
  import opened D4Curl

  /** The NCF_* bits of the `flags` and `debugflags` words. */
  datatype Flag =
    | NC4               // NCF_NC4
    | NCDAP             // NCF_NCDAP
    | ShowFetch         // NCF_SHOWFETCH
    | Unconstrainable   // NCF_UNCONSTRAINABLE
    | FillMismatch      // NCF_FILLMISMATCH
    | FillMismatchFail  // NCF_FILLMISMATCH_FAIL
    | DebugCopy         // NCF_DEBUG_COPY
    | OtherFlag(bit: nat)

  datatype Translation = TransNone | TransNc4

  /** Build-time values from headers that d4file.c only names. */
  datatype Env = Env(
    defaultOnFlags: set<Flag>,  // DFALT_ON_FLAGS
    defaultOpaqueSize: nat,     // DFALTOPAQUESIZE
    defaultChecksum: int,       // DEFAULT_CHECKSUM_STATE
    checksumKey: string,        // DAP4CSUM
    userAgent: string,          // DFALTUSERAGENT
    version: string,            // VERSION
    tempDir: string)            // the global state's tempdir

  /** A parsed fragment or query: key to value. */
  type Params = map<string, string>

  /**
   * info->controls, plus the two switches d4file.c keeps in info->data:
   * checksumignore (the hyrax fragment) and querychecksumming.
   */
  datatype Controls = Controls(
    flags: set<Flag>,
    debugFlags: set<Flag>,
    translation: Translation,
    substrateName: string,
    opaqueSize: nat,
    checksumIgnore: bool,
    queryChecksumming: int)

  const CHECK_SEPS: string := "+,:;"
  const NC_MAX_NAME: nat := 256
  /** The query key of a constraint expression. */
  const DAP4_CE: string := "dap4.ce"

  // ---------------------------------------------------------------------------
  // fragmentcheck

  /** `sk` first occurs in `v` at `j`. */
  predicate FirstAt(v: string, sk: string, j: nat)
  {
    OccursAt(v, sk, j) && forall i :: 0 <= i < j ==> !OccursAt(v, sk, i)
  }

  /** Index `e` of `v` is the end of the string or one of the separators "+,:;". */
  predicate Terminated(v: string, e: nat)
  {
    e <= |v| && (e == |v| || v[e] in CHECK_SEPS)
  }

  /**
   * fragmentcheck(info, key, subkey): false without the key, true when there is
   * no subkey, and otherwise whether the FIRST occurrence of the subkey in the
   * value ends the value or is followed by a separator. Later occurrences and
   * the character before the occurrence play no part.
   */
  function FragmentCheck(frag: Params, key: string, subkey: Option<string>): (r: bool)
    ensures key !in frag ==> !r
    ensures key in frag && subkey.None? ==> r
    ensures key in frag && subkey.Some? ==>
      (r <==> exists j: nat :: FirstAt(frag[key], subkey.value, j) && Terminated(frag[key], j + |subkey.value|))
  {
    if key !in frag then false
    else
      match subkey
      case None => true
      case Some(sk) =>
        var v := frag[key];
        FindFirst(v, sk);
        match FindFrom(v, sk, 0)
        case None => false
        case Some(j) => j + |sk| == |v| || v[j + |sk|] in CHECK_SEPS
  }

  /** strstr from the start finds the first occurrence, and there is only one first occurrence. */
  lemma FindFirst(v: string, sk: string)
    ensures FindFrom(v, sk, 0).None? ==> forall j: nat :: !FirstAt(v, sk, j)
    ensures FindFrom(v, sk, 0).Some? ==>
      FirstAt(v, sk, FindFrom(v, sk, 0).value)
      && forall k: nat :: FirstAt(v, sk, k) ==> k == FindFrom(v, sk, 0).value
  {
  }

  /** "fetchx,fetch" does not select "fetch": only the first occurrence counts. */
  lemma FragmentCheckFirstOnly()
    ensures var v := "fetchx,fetch";
      && OccursAt(v, "fetch", 7) && Terminated(v, 12)
      && !FragmentCheck(map["show" := v], "show", Some("fetch"))
  {
    var v := "fetchx,fetch";
    assert v[0..5] == "fetch";
    assert FindFrom(v, "fetch", 0) == Some(0);
    FindFirst(v, "fetch");
    assert v[5] == 'x';
    assert v[7..12] == "fetch";
  }

  /** "prefetch" selects "fetch": what comes before the occurrence is not checked. */
  lemma FragmentCheckPrefixIgnored()
    ensures FragmentCheck(map["show" := "prefetch"], "show", Some("fetch"))
  {
    var v := "prefetch";
    assert v[0..5] != "fetch" by { assert v[0..5][0] == 'p'; }
    assert v[1..6] != "fetch" by { assert v[1..6][0] == 'r'; }
    assert v[2..7] != "fetch" by { assert v[2..7][0] == 'e'; }
    assert v[3..8] == "fetch";
    assert FirstAt(v, "fetch", 3);
    FindFirst(v, "fetch");
  }

  // ---------------------------------------------------------------------------
  // NCD4_applyclientfragmentcontrols

  /**
   * An [opaquesize] value the pass refuses, logging the "bad [opaquesize] tag"
   * warning: one that does not scan as an integer, or scans as zero.
   */
  predicate BadOpaqueSize(v: string)
  {
    ScanInteger(v).None? || ScanInteger(v).value.value == 0
  }

  /** The [opaquesize] fragment: a non-zero integer, cast to size_t; anything else keeps the default. */
  function OpaqueSize(env: Env, v: string): (r: nat)
    ensures BadOpaqueSize(v) ==> r == env.defaultOpaqueSize
    ensures ScanInteger(v).None? ==> r == env.defaultOpaqueSize
    ensures ScanInteger(v).Some? && ScanInteger(v).value.value == 0 ==> r == env.defaultOpaqueSize
    ensures ScanInteger(v).Some? && ScanInteger(v).value.value != 0 ==> r == ToSize(ScanInteger(v).value.value)
  {
    match ScanInteger(v)
    case None => env.defaultOpaqueSize
    case Some(sc) => if sc.value == 0 then env.defaultOpaqueSize else ToSize(sc.value)
  }

  /** A positive decimal size within the range of `%lld` is taken as written. */
  lemma OpaqueSizeRoundTrip(env: Env, n: nat)
    requires 0 < n <= LONG_MAX
    ensures OpaqueSize(env, IntToDecimal(n)) == n
    ensures !BadOpaqueSize(IntToDecimal(n))
  {
    ScanDecimalRoundTrip(n, "");
    assert IntToDecimal(n) + "" == IntToDecimal(n);
  }

  /** "0" is rejected with the warning and keeps the default. */
  lemma OpaqueSizeZero(env: Env)
    ensures BadOpaqueSize("0")
    ensures OpaqueSize(env, "0") == env.defaultOpaqueSize
  {
    assert IntToDecimal(0) + "" == IntToDecimal(0) == "0";
    ScanDecimalRoundTrip(0, "");
  }

  /** A value without a single digit is refused with the warning and keeps the default. */
  lemma OpaqueSizeNoDigits(env: Env, v: string)
    requires forall i :: 0 <= i < |v| ==> !IsDigit(v[i])
    ensures BadOpaqueSize(v)
    ensures OpaqueSize(env, v) == env.defaultOpaqueSize
  {
  }

  /** A negative size is not rejected and draws no warning: the cast to size_t wraps it around. */
  lemma OpaqueSizeNegative(env: Env, n: int)
    requires LONG_MIN <= n < 0
    ensures !BadOpaqueSize(IntToDecimal(n))
    ensures OpaqueSize(env, IntToDecimal(n)) == 0x1_0000_0000_0000_0000 + n
  {
    assert IntToDecimal(n) + "" == IntToDecimal(n);
    ScanDecimalRoundTrip(n, "");
  }

  /**
   * Any decimal `long long` (`%lld` is 64 bits wide, like `long`), whatever
   * non-digit text follows it: zero is refused with the warning and keeps
   * the default, and every other value is taken silently as its size_t
   * image, so a negative size wraps around.
   */
  lemma OpaqueSizeDecimal(env: Env, n: int, rest: string)
    requires LONG_MIN <= n <= LONG_MAX
    requires |rest| == 0 || !IsDigit(rest[0])
    ensures BadOpaqueSize(IntToDecimal(n) + rest) <==> n == 0
    ensures OpaqueSize(env, IntToDecimal(n) + rest) == if n == 0 then env.defaultOpaqueSize else ToSize(n)
    ensures n > 0 ==> OpaqueSize(env, IntToDecimal(n) + rest) == n
    ensures n < 0 ==> OpaqueSize(env, IntToDecimal(n) + rest) == 0x1_0000_0000_0000_0000 + n
  {
    ScanDecimalRoundTrip(n, rest);
  }

  /**
   * The `flags` word after the fragment controls: cleared, then the default-on
   * bits, NCF_NC4 and NCF_NCDAP, [show=fetch] and [fillmismatch].
   */
  function FragmentFlags(env: Env, frag: Params): (r: set<Flag>)
    ensures forall f :: f in r <==>
      || f in env.defaultOnFlags || f == NC4 || f == NCDAP
      || (f == ShowFetch && FragmentCheck(frag, "show", Some("fetch")))
      || (f == FillMismatch && "fillmismatch" in frag)
  {
    env.defaultOnFlags + {NC4, NCDAP}
    + (if FragmentCheck(frag, "show", Some("fetch")) then {ShowFetch} else {})
    + (if "fillmismatch" in frag then {FillMismatch} else {})
  }

  /**
   * The `debugflags` word after the fragment controls: [debug=copy] adds
   * NCF_DEBUG_COPY; [fillmismatch] clears NCF_FILLMISMATCH_FAIL and then
   * [nofillmismatch] clears NCF_FILLMISMATCH and sets NCF_FILLMISMATCH_FAIL.
   * Every other bit is kept.
   */
  function FragmentDebugFlags(frag: Params, d: set<Flag>): (r: set<Flag>)
    ensures DebugCopy in r <==> DebugCopy in d || FragmentCheck(frag, "debug", Some("copy"))
    ensures FillMismatchFail in r <==> "nofillmismatch" in frag || ("fillmismatch" !in frag && FillMismatchFail in d)
    ensures FillMismatch in r <==> "nofillmismatch" !in frag && FillMismatch in d
    ensures forall f :: f != DebugCopy && f != FillMismatch && f != FillMismatchFail ==> (f in r <==> f in d)
  {
    var d0 := if FragmentCheck(frag, "debug", Some("copy")) then d + {DebugCopy} else d;
    var d1 := if "fillmismatch" in frag then d0 - {FillMismatchFail} else d0;
    if "nofillmismatch" in frag then d1 - {FillMismatch} + {FillMismatchFail} else d1
  }

  /**
   * NCD4_applyclientfragmentcontrols. `flags` is rebuilt from the defaults,
   * whatever it held before; `debugflags` keeps its other bits; the name,
   * the checksum switch and the translation change only when their key is
   * present, and the opaque size is reset to the default unless given.
   */
  function ApplyFragmentControls(env: Env, frag: Params, c: Controls): (r: Controls)
    ensures r.flags == FragmentFlags(env, frag)
    ensures r.debugFlags == FragmentDebugFlags(frag, c.debugFlags)
    ensures r.translation == if FragmentCheck(frag, "translate", Some("nc4")) then TransNc4 else c.translation
    ensures r.substrateName == if "substratename" in frag then Truncate(frag["substratename"], NC_MAX_NAME - 1)
                               else c.substrateName
    ensures r.checksumIgnore <==> "hyrax" in frag || c.checksumIgnore
    ensures r.opaqueSize == if "opaquesize" in frag then OpaqueSize(env, frag["opaquesize"]) else env.defaultOpaqueSize
    ensures r.queryChecksumming == c.queryChecksumming
  {
    Controls(
      FragmentFlags(env, frag),
      FragmentDebugFlags(frag, c.debugFlags),
      if FragmentCheck(frag, "translate", Some("nc4")) then TransNc4 else c.translation,
      if "substratename" in frag then Truncate(frag["substratename"], NC_MAX_NAME - 1) else c.substrateName,
      if "opaquesize" in frag then OpaqueSize(env, frag["opaquesize"]) else env.defaultOpaqueSize,
      "hyrax" in frag || c.checksumIgnore,
      c.queryChecksumming)
  }

  /** The NCF_UNCONSTRAINABLE bit set before the fragment controls does not survive them. */
  lemma FragmentControlsDropUnconstrainable(env: Env, frag: Params, c: Controls)
    requires Unconstrainable !in env.defaultOnFlags
    ensures Unconstrainable !in ApplyFragmentControls(env, frag, c).flags
  {
  }

  /**
   * With both fill-mismatch fragments, `flags` keeps NCF_FILLMISMATCH: the
   * nofillmismatch branch clears it in `debugflags` only.
   */
  lemma FillMismatchAsymmetry(env: Env, frag: Params, c: Controls)
    requires "fillmismatch" in frag && "nofillmismatch" in frag
    ensures var r := ApplyFragmentControls(env, frag, c);
      FillMismatch in r.flags && FillMismatchFail in r.debugFlags && FillMismatch !in r.debugFlags
  {
  }

  /** Applying the fragment controls a second time changes nothing. */
  lemma FragmentControlsIdempotent(env: Env, frag: Params, c: Controls)
    ensures var r := ApplyFragmentControls(env, frag, c);
      ApplyFragmentControls(env, frag, r) == r
  {
    var r := ApplyFragmentControls(env, frag, c);
    var r2 := ApplyFragmentControls(env, frag, r);
    assert r2.debugFlags == r.debugFlags;
  }

  /** `a` and `b` agree on key `k`: both lack it or both map it to the same value. */
  predicate SameKey(a: Params, b: Params, k: string)
  {
    (k in a <==> k in b) && (k in a ==> a[k] == b[k])
  }

  /** `a` and `b` agree on every key the fragment controls read. */
  predicate SameControlKeys(a: Params, b: Params)
  {
    && SameKey(a, b, "show") && SameKey(a, b, "translate") && SameKey(a, b, "debug")
    && SameKey(a, b, "substratename") && SameKey(a, b, "hyrax") && SameKey(a, b, "opaquesize")
    && SameKey(a, b, "fillmismatch") && SameKey(a, b, "nofillmismatch")
  }

  /** Keys other than the recognised ones have no effect. */
  lemma FragmentControlsOnlyKnownKeys(env: Env, a: Params, b: Params, c: Controls)
    requires SameControlKeys(a, b)
    ensures ApplyFragmentControls(env, a, c) == ApplyFragmentControls(env, b, c)
  {
    SameKeyCheck(a, b, "show", Some("fetch"));
    SameKeyCheck(a, b, "translate", Some("nc4"));
    SameKeyCheck(a, b, "debug", Some("copy"));
  }

  /**
   * A fragment with none of the keys the pass reads leaves the controls as
   * they were, except that the flags word and the opaque size go back to
   * their defaults.
   */
  lemma FragmentControlsNoKeys(env: Env, frag: Params, c: Controls)
    requires SameControlKeys(frag, map[])
    ensures ApplyFragmentControls(env, frag, c) == c.(flags := env.defaultOnFlags + {NC4, NCDAP}, opaqueSize := env.defaultOpaqueSize)
  {
    FragmentControlsOnlyKnownKeys(env, frag, map[], c);
    var r := ApplyFragmentControls(env, map[], c);
    assert r.flags == env.defaultOnFlags + {NC4, NCDAP};
    assert r.debugFlags == c.debugFlags;
  }

  /**
   * A [substratename] in the fragment becomes the substrate name, cut to
   * fit NC_MAX_NAME with its terminator: the name kept is a prefix of the
   * one given, and all of it when it fits.
   */
  lemma FragmentControlsSubstrateName(env: Env, frag: Params, c: Controls)
    requires "substratename" in frag
    ensures var r := ApplyFragmentControls(env, frag, c);
      && |r.substrateName| < NC_MAX_NAME
      && r.substrateName <= frag["substratename"]
      && (|frag["substratename"]| < NC_MAX_NAME ==> r.substrateName == frag["substratename"])
  {
  }

  lemma SameKeyCheck(a: Params, b: Params, k: string, sk: Option<string>)
    requires SameKey(a, b, k)
    ensures FragmentCheck(a, k, sk) == FragmentCheck(b, k, sk)
  {
  }

  // ---------------------------------------------------------------------------
  // NCD4_applyclientquerycontrols

  datatype QueryResult = QueryResult(controls: Controls, warned: bool)

  /**
   * The checksum query key: "false" gives 0 and "true" gives 1, compared without
   * case; absent gives the default, and any other value the default with a warning.
   */
  function ApplyQueryControls(env: Env, query: Params, c: Controls): (r: QueryResult)
    ensures r.controls == c.(queryChecksumming := r.controls.queryChecksumming)
    ensures env.checksumKey !in query ==> r.controls.queryChecksumming == env.defaultChecksum && !r.warned
    ensures env.checksumKey in query && EqualsIgnoreCase(query[env.checksumKey], "false") ==>
      r.controls.queryChecksumming == 0 && !r.warned
    ensures env.checksumKey in query && EqualsIgnoreCase(query[env.checksumKey], "true") ==>
      r.controls.queryChecksumming == 1 && !r.warned
    ensures r.warned <==> env.checksumKey in query && !EqualsIgnoreCase(query[env.checksumKey], "false")
                          && !EqualsIgnoreCase(query[env.checksumKey], "true")
    ensures r.warned ==> r.controls.queryChecksumming == env.defaultChecksum
  {
    if env.checksumKey !in query then QueryResult(c.(queryChecksumming := env.defaultChecksum), false)
    else
      var v := query[env.checksumKey];
      if EqualsIgnoreCase(v, "false") then QueryResult(c.(queryChecksumming := 0), false)
      else if EqualsIgnoreCase(v, "true") then QueryResult(c.(queryChecksumming := 1), false)
      else QueryResult(c.(queryChecksumming := env.defaultChecksum), true)
  }

  /** A bogus value such as "bogus" falls back to the default, with a warning. */
  lemma QueryControlsBogus(env: Env, c: Controls)
    ensures var r := ApplyQueryControls(env, map[env.checksumKey := "bogus"], c);
      r.warned && r.controls.queryChecksumming == env.defaultChecksum
  {
    assert Lower("bogus"[0]) != Lower("false"[0]);
    assert !EqualsIgnoreCase("bogus", "true");
  }

  /** "TRUE" in any case switches checksumming on. */
  lemma QueryControlsCaseless(env: Env, c: Controls)
    ensures ApplyQueryControls(env, map[env.checksumKey := "TRUE"], c).controls.queryChecksumming == 1
  {
    assert !EqualsIgnoreCase("TRUE", "false");
    assert EqualsIgnoreCase("TRUE", "true");
  }

  // ---------------------------------------------------------------------------
  // constrainable

  const CONSTRAINABLE_PROTOCOLS: seq<string> := ["http", "https"]

  /** constrainable(): scans the allow-list for the URL's protocol. */
  method Constrainable(protocol: string) returns (r: bool)
    ensures r <==> protocol == "http" || protocol == "https"
  {
    assert CONSTRAINABLE_PROTOCOLS[0] == "http" && CONSTRAINABLE_PROTOCOLS[1] == "https";
    var i := 0;
    while i < |CONSTRAINABLE_PROTOCOLS|
      invariant 0 <= i <= |CONSTRAINABLE_PROTOCOLS|
      invariant forall j :: 0 <= j < i ==> CONSTRAINABLE_PROTOCOLS[j] != protocol
    {
      if CONSTRAINABLE_PROTOCOLS[i] == protocol {
        return true;
      }
      i := i + 1;
    }
    return false;
  }

  predicate IsConstrainable(protocol: string)
  {
    protocol in CONSTRAINABLE_PROTOCOLS
  }

  /** The constraint conflict NCD4_open rejects with NC_EDAPCONSTRAINT. */
  predicate ConstraintConflict(protocol: string, query: Params)
  {
    !IsConstrainable(protocol) && DAP4_CE in query
  }

  lemma ConflictExactly(protocol: string, query: Params)
    ensures ConstraintConflict(protocol, query) <==> protocol != "http" && protocol != "https" && DAP4_CE in query
  {
  }

  // ---------------------------------------------------------------------------
  // The substrate

  /**
   * The substrate file name NCD4_open computes: the substratename control when
   * it is not empty, else "tmp_<int_ncid>", printed into an NC_MAX_NAME buffer.
   */
  function SubstrateName(name: string, intNcid: int): (r: string)
    requires -0x8000_0000 <= intNcid < 0x8000_0000
    ensures |r| < NC_MAX_NAME
    ensures |name| > 0 ==> r == Truncate(name, NC_MAX_NAME - 1)
    ensures |name| == 0 ==> r == "tmp_" + IntToDecimal(intNcid)
  {
    Int32DecimalLength(intNcid);
    Truncate(if |name| > 0 then name else "tmp_" + IntToDecimal(intNcid), NC_MAX_NAME - 1)
  }

  /** The generated names of two sessions with different ids differ. */
  lemma GeneratedNamesDistinct(a: int, b: int)
    requires -0x8000_0000 <= a < 0x8000_0000 && -0x8000_0000 <= b < 0x8000_0000
    requires a != b
    ensures SubstrateName("", a) != SubstrateName("", b)
  {
    if SubstrateName("", a) == SubstrateName("", b) {
      var x := "tmp_" + IntToDecimal(a);
      var y := "tmp_" + IntToDecimal(b);
      assert x[4..] == IntToDecimal(a) && y[4..] == IntToDecimal(b);
      DecimalInjective(a, b);
    }
  }

  /** The mode bits of nc_create. */
  datatype ModeFlag = NetCDF4 | Clobber | Diskless | Write

  /** NC_NETCDF4 as the format passed to nc_set_default_format. */
  const NC_NETCDF4: int := 0x1000

  /** The calls makesubstrate makes on the substrate store. */
  datatype StoreCall =
    | AbortStore(id: int)
    | SetDefaultFormat(format: int)
    | CreateStore(path: string, mode: set<ModeFlag>)
    | SetNoFill(id: int)

  /** nc_create as an oracle: its status and the id it hands back. */
  datatype Created = Created(ret: NcErr, id: int)

  datatype SubstrateResult = SubstrateResult(calls: seq<StoreCall>, nc4id: int, ret: NcErr)

  /** The nc_create mode: in memory normally, a real writable file under debug=copy. */
  function CreateMode(debugFlags: set<Flag>): (m: set<ModeFlag>)
    ensures NetCDF4 in m && Clobber in m
    ensures Diskless in m <==> DebugCopy !in debugFlags
    ensures Write in m <==> DebugCopy in debugFlags
  {
    if DebugCopy in debugFlags then {NetCDF4, Clobber, Write} else {NetCDF4, Clobber, Diskless}
  }

  /**
   * makesubstrate: aborts and forgets a previous substrate, creates the new one
   * with the default format forced to netCDF-4 and then put back to
   * `savedFormat` (the format in force before, which nc_set_default_format
   * hands back), and switches fill off. nc_create writes the id only when it
   * succeeds, so after a failed create the session records 0, "no substrate".
   */
  function MakeSubstrate(nc4id: int, debugFlags: set<Flag>, filename: string, savedFormat: int,
                         create: (string, set<ModeFlag>) -> Created): (r: SubstrateResult)
    ensures var made := create(filename, CreateMode(debugFlags));
      && r.ret == made.ret
      && (made.ret == NoErr ==> r.nc4id == made.id)
      && (made.ret != NoErr ==> r.nc4id == 0)
      && |r.calls| > 0
      && (r.calls[0] == AbortStore(nc4id) <==> nc4id != 0)
      && (forall i :: 0 <= i < |r.calls| && r.calls[i].AbortStore? ==> r.calls[i].id == nc4id)
      && (exists i :: 0 <= i < |r.calls| && r.calls[i] == CreateStore(filename, CreateMode(debugFlags))
                      && FormatAfter(r.calls[..i], savedFormat) == NC_NETCDF4)
  {
    var reset := ResetCalls(nc4id);
    var made := create(filename, CreateMode(debugFlags));
    var id := CreatedId(made);
    var calls := reset + CreateCalls(filename, CreateMode(debugFlags), savedFormat, id);
    assert calls[..|reset| + 1] == reset + [SetDefaultFormat(NC_NETCDF4)];
    FormatAfterConcat(reset, [SetDefaultFormat(NC_NETCDF4)], savedFormat);
    assert calls[|reset| + 1] == CreateStore(filename, CreateMode(debugFlags));
    SubstrateResult(calls, id, made.ret)
  }

  /** The id the caller's `ncid` holds after nc_create: the new store's on success, still 0 otherwise. */
  function CreatedId(made: Created): int
  {
    if made.ret == NoErr then made.id else 0
  }

  /** The abort of the previous substrate, when there is one. */
  function ResetCalls(nc4id: int): seq<StoreCall>
  {
    if nc4id != 0 then [AbortStore(nc4id)] else []
  }

  /** The create under a forced netCDF-4 default format, the restore, and the no-fill switch. */
  function CreateCalls(filename: string, mode: set<ModeFlag>, savedFormat: int, id: int): seq<StoreCall>
  {
    [SetDefaultFormat(NC_NETCDF4), CreateStore(filename, mode), SetDefaultFormat(savedFormat), SetNoFill(id)]
  }

  /** The default format after a sequence of store calls, starting from `f`. */
  function FormatAfter(calls: seq<StoreCall>, f: int): int
    decreases |calls|
  {
    if |calls| == 0 then f
    else FormatAfter(calls[1..], if calls[0].SetDefaultFormat? then calls[0].format else f)
  }

  lemma {:induction false} FormatAfterConcat(a: seq<StoreCall>, b: seq<StoreCall>, f: int)
    ensures FormatAfter(a + b, f) == FormatAfter(b, FormatAfter(a, f))
    decreases |a|
  {
    if |a| > 0 {
      assert (a + b)[0] == a[0];
      assert (a + b)[1..] == a[1..] + b;
      FormatAfterConcat(a[1..], b, if a[0].SetDefaultFormat? then a[0].format else f);
    } else {
      assert a + b == b;
    }
  }

  /** The live stores after one store call whose create has the outcome `created`: a failed create opens nothing. */
  function LiveStep(c: StoreCall, live: set<int>, created: Created): set<int>
  {
    match c
    case AbortStore(id) => live - {id}
    case CreateStore(_, _) => if created.ret == NoErr then live + {created.id} else live
    case _ => live
  }

  /** The stores left open by a sequence of store calls whose create has the outcome `created`, starting from `live`. */
  function LiveAfter(calls: seq<StoreCall>, live: set<int>, created: Created): set<int>
    decreases |calls|
  {
    if |calls| == 0 then live else LiveAfter(calls[1..], LiveStep(calls[0], live, created), created)
  }

  lemma {:induction false} LiveAfterConcat(a: seq<StoreCall>, b: seq<StoreCall>, live: set<int>, created: Created)
    ensures LiveAfter(a + b, live, created) == LiveAfter(b, LiveAfter(a, live, created), created)
    decreases |a|
  {
    if |a| > 0 {
      assert (a + b)[0] == a[0];
      assert (a + b)[1..] == a[1..] + b;
      LiveAfterConcat(a[1..], b, LiveStep(a[0], live, created), created);
    } else {
      assert a + b == b;
    }
  }

  lemma CreateCallsFormat(filename: string, mode: set<ModeFlag>, savedFormat: int, id: int, f: int)
    ensures FormatAfter(CreateCalls(filename, mode, savedFormat, id), f) == savedFormat
  {
    var t3 := [SetNoFill(id)];
    var t2 := [SetDefaultFormat(savedFormat), SetNoFill(id)];
    var t1 := [CreateStore(filename, mode), SetDefaultFormat(savedFormat), SetNoFill(id)];
    assert t3[1..] == [] && t2[1..] == t3 && t1[1..] == t2 && CreateCalls(filename, mode, savedFormat, id)[1..] == t1;
    assert FormatAfter(t3, savedFormat) == savedFormat;
    assert FormatAfter(t1, NC_NETCDF4) == savedFormat;
  }

  lemma CreateCallsLive(filename: string, mode: set<ModeFlag>, savedFormat: int, id: int, live: set<int>, made: Created)
    ensures made.ret == NoErr ==> LiveAfter(CreateCalls(filename, mode, savedFormat, id), live, made) == live + {made.id}
    ensures made.ret != NoErr ==> LiveAfter(CreateCalls(filename, mode, savedFormat, id), live, made) == live
  {
    var after := if made.ret == NoErr then live + {made.id} else live;
    var t3 := [SetNoFill(id)];
    var t2 := [SetDefaultFormat(savedFormat), SetNoFill(id)];
    var t1 := [CreateStore(filename, mode), SetDefaultFormat(savedFormat), SetNoFill(id)];
    assert t3[1..] == [] && t2[1..] == t3 && t1[1..] == t2 && CreateCalls(filename, mode, savedFormat, id)[1..] == t1;
    assert LiveAfter(t3, after, made) == after;
    assert LiveAfter(t1, live, made) == after;
  }

  /** The user's default format is back in force after makesubstrate. */
  lemma MakeSubstrateRestoresFormat(nc4id: int, debugFlags: set<Flag>, filename: string, savedFormat: int,
                                    create: (string, set<ModeFlag>) -> Created)
    ensures var r := MakeSubstrate(nc4id, debugFlags, filename, savedFormat, create);
      FormatAfter(r.calls, savedFormat) == savedFormat
  {
    var id := CreatedId(create(filename, CreateMode(debugFlags)));
    FormatAfterConcat(ResetCalls(nc4id), CreateCalls(filename, CreateMode(debugFlags), savedFormat, id), savedFormat);
    CreateCallsFormat(filename, CreateMode(debugFlags), savedFormat, id, FormatAfter(ResetCalls(nc4id), savedFormat));
  }

  /**
   * After makesubstrate the previous store is gone. A successful create leaves
   * exactly the new store alive, and it is the one the session records; a
   * failed create leaves nothing alive and the session records no substrate.
   */
  lemma MakeSubstrateOneLive(nc4id: int, debugFlags: set<Flag>, filename: string, savedFormat: int,
                             create: (string, set<ModeFlag>) -> Created)
    ensures var made := create(filename, CreateMode(debugFlags));
      var r := MakeSubstrate(nc4id, debugFlags, filename, savedFormat, create);
      var live := LiveAfter(r.calls, if nc4id != 0 then {nc4id} else {}, made);
      && (r.ret == NoErr ==> live == {r.nc4id})
      && (r.ret != NoErr ==> live == {} && r.nc4id == 0)
  {
    var made := create(filename, CreateMode(debugFlags));
    var id := CreatedId(made);
    var live := if nc4id != 0 then {nc4id} else {};
    LiveAfterConcat(ResetCalls(nc4id), CreateCalls(filename, CreateMode(debugFlags), savedFormat, id), live, made);
    assert LiveAfter(ResetCalls(nc4id), live, made) == {};
    CreateCallsLive(filename, CreateMode(debugFlags), savedFormat, id, {}, made);
  }

  // ---------------------------------------------------------------------------
  // set_curl_properties

  /** How NCfopen opens the cookie jar: "r", "w+" or "r+". */
  datatype OpenMode = ReadOnly | CreateReadWrite | ReadWrite

  datatype PropsResult = PropsResult(flags: CurlFlags, ret: NcErr, probes: seq<OpenMode>)

  /** The cookie file template: tempdir "/nc4cookies", written into a buffer one byte short of the name's length. */
  function CookieTemplate(tempDir: string): (r: string)
    ensures r == tempDir + "/nc4cookies"
  {
    var len := |tempDir| + 1 + |"ncd4cookies"|;
    Truncate(tempDir + "/nc4cookies", len - 1)
  }

  /**
   * set_curl_properties: the default user agent, an empty cookie jar turned into
   * none and then into a fresh temporary file (NC_mktmp, an oracle), and the
   * probes that the jar can be read and written (NCfopen, an oracle).
   */
  function SetCurlProperties(env: Env, cf: CurlFlags, mktmp: string -> Option<string>,
                             canOpen: (string, OpenMode) -> bool): (r: PropsResult)
    ensures cf.userAgent.None? ==> r.flags.userAgent == Some(env.userAgent + env.version)
    ensures cf.userAgent.Some? ==> r.flags.userAgent == cf.userAgent
    ensures r.ret == NoErr || r.ret == EPerm
    ensures r.flags.cookieJar != Some("") || mktmp(CookieTemplate(env.tempDir)) == Some("")
    ensures cf.cookieJar.Some? && cf.cookieJar != Some("") ==>
      r.flags.cookieJar == cf.cookieJar && r.flags.cookieJarCreated == cf.cookieJarCreated
    ensures (cf.cookieJar.None? || cf.cookieJar == Some("")) ==>
      r.flags.cookieJar == mktmp(CookieTemplate(env.tempDir))
      && (r.flags.cookieJar.Some? ==> r.flags.cookieJarCreated)
    ensures r.flags.cookieJar.None? ==> r.ret == NoErr && r.probes == []
    ensures r.flags.cookieJar.Some? ==>
      (r.ret == NoErr <==> if canOpen(r.flags.cookieJar.value, ReadOnly) then canOpen(r.flags.cookieJar.value, ReadWrite)
                           else canOpen(r.flags.cookieJar.value, CreateReadWrite))
    ensures r.flags == cf.(userAgent := r.flags.userAgent, cookieJar := r.flags.cookieJar,
                           cookieJarCreated := r.flags.cookieJarCreated)
  {
    var agent := if cf.userAgent.None? then
        var len := |env.userAgent| + |env.version| + 1;
        Some(Strlcat(Truncate(env.userAgent, len), env.version, len))
      else cf.userAgent;
    var jar := if cf.cookieJar == Some("") then None else cf.cookieJar;
    var cf1 := cf.(userAgent := agent, cookieJar := jar);
    if jar.None? then
      match mktmp(CookieTemplate(env.tempDir))
      case None => PropsResult(cf1, NoErr, [])
      case Some(p) =>
        var cf2 := cf1.(cookieJar := Some(p), cookieJarCreated := true);
        ProbeJar(cf2, p, canOpen)
    else ProbeJar(cf1, jar.value, canOpen)
  }

  /** The read/write probes of the cookie jar; NC_EPERM when the jar cannot be read and written. */
  function ProbeJar(cf: CurlFlags, fname: string, canOpen: (string, OpenMode) -> bool): (r: PropsResult)
    ensures r.flags == cf
    ensures r.ret == NoErr <==> if canOpen(fname, ReadOnly) then canOpen(fname, ReadWrite) else canOpen(fname, CreateReadWrite)
    ensures r.ret == NoErr || r.ret == EPerm
    ensures r.probes == [ReadOnly, if canOpen(fname, ReadOnly) then ReadWrite else CreateReadWrite]
  {
    if !canOpen(fname, ReadOnly) then
      PropsResult(cf, if canOpen(fname, CreateReadWrite) then NoErr else EPerm, [ReadOnly, CreateReadWrite])
    else
      PropsResult(cf, if canOpen(fname, ReadWrite) then NoErr else EPerm, [ReadOnly, ReadWrite])
  }
}

=== FILE: d4curl.dfy ===
/**
 * The DAP4 transport-option resolver of libdap4/d4curlfunctions.c.
 *
 * `set_curlflag` is modelled as a pure function that returns the ordered list of
 * (CURLOPT, value) pairs it hands to curl_easy_setopt, and the configuration
 * after the call (the VERIFYPEER case may switch VERIFYHOST off).
 * curl_easy_setopt itself is an oracle `Setopt` that accepts or rejects each pair.
 *
 * The source's SETCURLOPT macro leaves `ret` untouched when a setopt fails, so
 * every failure is swallowed. The model keeps both readings: `AsWritten`, which
 * is what the code does, and `Corrected`, where a failed setopt makes the case
 * return NC_ECURL and stops the per-link pass.
 */
module D4Curl {
  import opened Basics
  import opened CText

  /** Build-time libcurl capabilities that the source tests with #ifdef. */
  datatype Caps = Caps(
    verifyHost: bool,  // HAVE_LIBCURL_766: the SSL_VERIFYHOST case is compiled in
    bufferSize: bool,  // HAVE_CURLOPT_BUFFERSIZE
    keepAlive: bool,   // HAVE_CURLOPT_KEEPALIVE
    proxyAuth: bool)   // #ifdef CURLOPT_PROXYAUTH

  datatype Creds = Creds(user: Option<string>, pwd: Option<string>)

  datatype CurlFlags = CurlFlags(
    encode: bool,
    verbose: bool,
    timeout: int,
    connectTimeout: int,
    userAgent: Option<string>,
    cookieJar: Option<string>,
    cookieJarCreated: bool,
    netrc: Option<string>)

  datatype ProxyInfo = ProxyInfo(host: Option<string>, port: int, user: Option<string>, pwd: Option<string>)

  /** TLS settings; verifyPeer and verifyHost are signed tri-states: below 0 leaves curl's default. */
  datatype SslInfo = SslInfo(
    verifyPeer: int,
    verifyHost: int,
    certificate: Option<string>,
    key: Option<string>,
    keyPasswd: Option<string>,
    caInfo: Option<string>,
    caPath: Option<string>)

  /** The rc-file and credential state of a link (NCauth). */
  datatype Auth = Auth(creds: Creds, curlFlags: CurlFlags, proxy: ProxyInfo, ssl: SslInfo)

  datatype KeepAlive = KeepAlive(active: int, idle: int, interval: int)

  /** The per-connection transport state (the buffersize and keepalive fields of NCD4curl). */
  datatype Transport = Transport(bufferSize: int, keepAlive: KeepAlive)

  datatype Config = Config(auth: Auth, transport: Transport)

  /** The CURLOPT_* identifiers the resolver mentions. */
  datatype CurlOpt =
    | UserPwd | UserName | Password | HttpAuth
    | CookieJar | CookieFile | Netrc | NetrcFile
    | Verbose | Timeout | ConnectTimeout | UserAgent
    | FollowLocation | MaxRedirs | ErrorBuffer | AcceptEncoding
    | Proxy | ProxyPort | ProxyUserName | ProxyPassword | ProxyAuth
    | SslVerifyPeer | SslVerifyHost | SslCert | SslKey | SslKeyPasswd
    | CaInfo | CaPath | UseSsl
    | BufferSize | TcpKeepAlive | TcpKeepIdle | TcpKeepIntvl

  /** The argument of a setopt call: a string, a long, NULL, CURLAUTH_ANY, CURL_NETRC_OPTIONAL or the error buffer. */
  datatype OptValue = Text(text: string) | Long(n: int) | NullPtr | AuthAny | NetrcOptional | ErrorBuf

  datatype Setting = Setting(opt: CurlOpt, value: OptValue)

  /** curl_easy_setopt as an oracle: true when it returns CURLE_OK. */
  type Setopt = Setting -> bool

  const MAX_REDIRECTS: int := 20
  const CURL_MAX_READ_SIZE: int := 512 * 1024

  function AcceptAll(): Setopt { (s: Setting) => true }

  function WithVerifyHost(c: Config, h: int): Config
  {
    c.(auth := c.auth.(ssl := c.auth.ssl.(verifyHost := h)))
  }

  /** Whether the switch of set_curlflag has a case for `flag`; the others only log a warning. */
  predicate Handled(caps: Caps, flag: CurlOpt)
  {
    match flag
    case UserPwd | CookieJar | CookieFile | Netrc | NetrcFile | Verbose | Timeout
       | ConnectTimeout | UserAgent | FollowLocation | MaxRedirs | ErrorBuffer
       | AcceptEncoding | Proxy | SslVerifyPeer | SslVerifyHost | SslCert | SslKey
       | CaInfo | CaPath | UseSsl => true
    case BufferSize => caps.bufferSize
    case TcpKeepAlive => caps.keepAlive
    case _ => false
  }

  // ---------------------------------------------------------------------------
  // Which case emits which option, and the per-link order of the options.

  /** The case of set_curlflag whose setopt calls use `o`. */
  function Producer(o: CurlOpt): CurlOpt
  {
    match o
    case UserName | Password | HttpAuth => UserPwd
    case CookieFile => CookieJar
    case NetrcFile => Netrc
    case ProxyPort | ProxyUserName | ProxyPassword | ProxyAuth => Proxy
    case SslKeyPasswd => SslKey
    case TcpKeepIdle | TcpKeepIntvl => TcpKeepAlive
    case _ => o
  }

  /** The case label a flag selects: COOKIEFILE shares the COOKIEJAR case, NETRC_FILE the NETRC case. */
  function CaseOf(f: CurlOpt): CurlOpt
  {
    match f
    case CookieFile => CookieJar
    case NetrcFile => Netrc
    case _ => f
  }

  /** The position of each option in the per-link order. */
  function Rank(o: CurlOpt): nat
  {
    match o
    case AcceptEncoding => 0  case Netrc => 1  case NetrcFile => 2  case Verbose => 3
    case Timeout => 4  case UserAgent => 5  case CookieJar => 6  case CookieFile => 7
    case UserName => 8  case Password => 9  case HttpAuth => 10  case Proxy => 11
    case ProxyPort => 12  case ProxyUserName => 13  case ProxyPassword => 14  case ProxyAuth => 15
    case SslVerifyPeer => 16  case SslVerifyHost => 17  case SslCert => 18  case SslKey => 19
    case SslKeyPasswd => 20  case CaInfo => 21  case CaPath => 22  case UseSsl => 23
    case FollowLocation => 24  case MaxRedirs => 25  case ErrorBuffer => 26  case BufferSize => 27
    case TcpKeepAlive => 28  case TcpKeepIdle => 29  case TcpKeepIntvl => 30
    case ConnectTimeout => 31  case UserPwd => 32
  }

  /** The lowest and highest rank the case of a flag can emit. */
  function Lo(f: CurlOpt): nat
  {
    match f
    case UserPwd => 8
    case CookieFile => 6
    case NetrcFile => 1
    case _ => Rank(f)
  }

  function Hi(f: CurlOpt): nat
  {
    match f
    case UserPwd => 10
    case CookieJar | CookieFile => 7
    case Netrc | NetrcFile => 2
    case Proxy => 15
    case SslKey => 20
    case TcpKeepAlive => 30
    case _ => Rank(f)
  }

  predicate Increasing(ss: seq<Setting>)
  {
    forall i, j :: 0 <= i < j < |ss| ==> Rank(ss[i].opt) < Rank(ss[j].opt)
  }

  predicate Within(ss: seq<Setting>, lo: nat, hi: nat)
  {
    forall i :: 0 <= i < |ss| ==> lo <= Rank(ss[i].opt) <= hi
  }

  predicate ProducedBy(ss: seq<Setting>, f: CurlOpt)
  {
    forall i :: 0 <= i < |ss| ==> Producer(ss[i].opt) == f
  }

  /** Each option ranks below the next one. */
  predicate Chain(ss: seq<Setting>)
  {
    forall i :: 0 <= i < |ss| - 1 ==> Rank(ss[i].opt) < Rank(ss[i + 1].opt)
  }

  lemma {:induction false} ChainIncreasing(ss: seq<Setting>)
    requires Chain(ss)
    ensures Increasing(ss)
    decreases |ss|
  {
    if |ss| > 1 {
      assert Chain(ss[1..]) by {
        forall i | 0 <= i < |ss[1..]| - 1 ensures Rank(ss[1..][i].opt) < Rank(ss[1..][i + 1].opt) {
          assert ss[1..][i] == ss[i + 1] && ss[1..][i + 1] == ss[i + 2];
        }
      }
      ChainIncreasing(ss[1..]);
      forall i, j | 0 <= i < j < |ss| ensures Rank(ss[i].opt) < Rank(ss[j].opt) {
        if i > 0 {
          assert ss[i] == ss[1..][i - 1] && ss[j] == ss[1..][j - 1];
        } else if j > 1 {
          assert ss[1] == ss[1..][0] && ss[j] == ss[1..][j - 1];
        }
      }
    }
  }

  /** A case's calls are in per-link order, inside the band of the case, and all belong to it. */
  predicate WellFormedCase(ss: seq<Setting>, f: CurlOpt)
  {
    Chain(ss) && Within(ss, Lo(f), Hi(f)) && ProducedBy(ss, CaseOf(f))
  }

  // ---------------------------------------------------------------------------
  // The cases of set_curlflag.

  function IfSome(o: Option<string>, opt: CurlOpt): (r: seq<Setting>)
    ensures |r| <= 1 && (o.Some? <==> |r| == 1)
    ensures o.Some? ==> r == [Setting(opt, Text(o.value))]
  {
    if o.Some? then [Setting(opt, Text(o.value))] else []
  }

  /** USERPWD: user name, password and HTTPAUTH=ANY, only when both credentials are present. */
  function CredSettings(cr: Creds): seq<Setting>
  {
    if cr.user.Some? && cr.pwd.Some? then
      [Setting(UserName, Text(cr.user.value)), Setting(Password, Text(cr.pwd.value)), Setting(HttpAuth, AuthAny)]
    else []
  }

  /** COOKIEJAR and COOKIEFILE: the same path for reading and writing cookies. */
  function CookieSettings(jar: Option<string>): seq<Setting>
  {
    if jar.Some? then [Setting(CookieJar, Text(jar.value)), Setting(CookieFile, Text(jar.value))] else []
  }

  /** NETRC: optional netrc use, and the netrc file when its path is not empty. */
  function NetrcSettings(netrc: Option<string>): seq<Setting>
  {
    if netrc.Some? then
      if |netrc.value| > 0 then [Setting(Netrc, NetrcOptional), Setting(NetrcFile, Text(netrc.value))]
      else [Setting(Netrc, NetrcOptional)]
    else []
  }

  /** PROXY: host and port; proxy credentials when both are set, with PROXYAUTH=ANY where compiled in. */
  function ProxySettings(caps: Caps, p: ProxyInfo): seq<Setting>
  {
    if p.host.Some? then
      if p.user.Some? && p.pwd.Some? then
        if caps.proxyAuth then
          [Setting(Proxy, Text(p.host.value)), Setting(ProxyPort, Long(p.port)),
           Setting(ProxyUserName, Text(p.user.value)), Setting(ProxyPassword, Text(p.pwd.value)),
           Setting(ProxyAuth, AuthAny)]
        else
          [Setting(Proxy, Text(p.host.value)), Setting(ProxyPort, Long(p.port)),
           Setting(ProxyUserName, Text(p.user.value)), Setting(ProxyPassword, Text(p.pwd.value))]
      else [Setting(Proxy, Text(p.host.value)), Setting(ProxyPort, Long(p.port))]
    else []
  }

  lemma ProxyWellFormed(caps: Caps, p: ProxyInfo)
    ensures WellFormedCase(ProxySettings(caps, p), Proxy)
  {
    var r := ProxySettings(caps, p);
    forall i | 0 <= i < |r| ensures 11 <= Rank(r[i].opt) <= 15 && Producer(r[i].opt) == Proxy
                                 && (i < |r| - 1 ==> Rank(r[i].opt) < Rank(r[i + 1].opt)) {
      if i == 0 {
      } else if i == 1 {
      } else if i == 2 {
      } else if i == 3 {
      } else {
      }
    }
  }

  /** SSLKEY: the key file and, independently, its pass phrase. */
  function KeySettings(s: SslInfo): seq<Setting>
  {
    IfSome(s.key, SslKey) + IfSome(s.keyPasswd, SslKeyPasswd)
  }

  /** TCP_KEEPALIVE: switched on when active, idle time and interval each when positive. */
  function KeepAliveSettings(k: KeepAlive): seq<Setting>
  {
    (if k.active != 0 then [Setting(TcpKeepAlive, Long(1))] else [])
    + (if k.idle > 0 then [Setting(TcpKeepIdle, Long(k.idle))] else [])
    + (if k.interval > 0 then [Setting(TcpKeepIntvl, Long(k.interval))] else [])
  }

  lemma KeepAliveWellFormed(k: KeepAlive)
    ensures WellFormedCase(KeepAliveSettings(k), TcpKeepAlive)
  {
    KeepAliveBand(k);
    KeepAliveChain(k);
  }

  /** The position of each keep-alive call: TCP_KEEPALIVE, then TCP_KEEPIDLE, then TCP_KEEPINTVL, each when asked for. */
  function KeepAliveOptAt(k: KeepAlive, i: nat): CurlOpt
  {
    var a := if k.active != 0 then 1 else 0;
    var b := if k.idle > 0 then 1 else 0;
    if i < a then TcpKeepAlive else if i < a + b then TcpKeepIdle else TcpKeepIntvl
  }

  lemma KeepAliveAt(k: KeepAlive, i: nat)
    requires i < |KeepAliveSettings(k)|
    ensures KeepAliveSettings(k)[i].opt == KeepAliveOptAt(k, i)
  {
  }

  lemma KeepAliveBand(k: KeepAlive)
    ensures Within(KeepAliveSettings(k), Lo(TcpKeepAlive), Hi(TcpKeepAlive))
    ensures ProducedBy(KeepAliveSettings(k), TcpKeepAlive)
  {
    var r := KeepAliveSettings(k);
    forall i | 0 <= i < |r| ensures Producer(r[i].opt) == TcpKeepAlive && 28 <= Rank(r[i].opt) <= 30 {
      KeepAliveAt(k, i);
    }
  }

  lemma KeepAliveChain(k: KeepAlive)
    ensures Chain(KeepAliveSettings(k))
  {
    var r := KeepAliveSettings(k);
    forall i | 0 <= i < |r| - 1 ensures Rank(r[i].opt) < Rank(r[i + 1].opt) {
      KeepAliveAt(k, i);
      KeepAliveAt(k, i + 1);
    }
  }

  /** Each keep-alive option is emitted exactly when its setting asks for it. */
  lemma KeepAliveEmits(k: KeepAlive)
    ensures Emits(KeepAliveSettings(k), TcpKeepAlive) <==> k.active != 0
    ensures Emits(KeepAliveSettings(k), TcpKeepIdle) <==> k.idle > 0
    ensures Emits(KeepAliveSettings(k), TcpKeepIntvl) <==> k.interval > 0
  {
    var r := KeepAliveSettings(k);
    var a := if k.active != 0 then 1 else 0;
    var b := if k.idle > 0 then 1 else 0;
    assert forall i :: 0 <= i < |r| ==>
      OptAt(r, i) == (if i < a then TcpKeepAlive else if i < a + b then TcpKeepIdle else TcpKeepIntvl);
    if k.active != 0 {
      assert OptAt(r, 0) == TcpKeepAlive;
    }
    if k.idle > 0 {
      assert OptAt(r, a) == TcpKeepIdle;
    }
    if k.interval > 0 {
      assert OptAt(r, a + b) == TcpKeepIntvl;
    }
  }


  /** The setopt calls the case of `flag` issues, in order, when every one of them succeeds. */
  function CaseSettings(caps: Caps, c: Config, flag: CurlOpt): seq<Setting>
  {
    var a := c.auth;
    match flag
    case UserPwd => CredSettings(a.creds)
    case CookieJar | CookieFile => CookieSettings(a.curlFlags.cookieJar)
    case Netrc | NetrcFile => NetrcSettings(a.curlFlags.netrc)
    case Verbose => if a.curlFlags.verbose then [Setting(Verbose, Long(1))] else []
    case Timeout => if a.curlFlags.timeout != 0 then [Setting(Timeout, Long(a.curlFlags.timeout))] else []
    case ConnectTimeout =>
      if a.curlFlags.connectTimeout != 0 then [Setting(ConnectTimeout, Long(a.curlFlags.connectTimeout))] else []
    case UserAgent => IfSome(a.curlFlags.userAgent, UserAgent)
    case FollowLocation => [Setting(FollowLocation, Long(1))]
    case MaxRedirs => [Setting(MaxRedirs, Long(MAX_REDIRECTS))]
    case ErrorBuffer => [Setting(ErrorBuffer, ErrorBuf)]
    case AcceptEncoding => [Setting(AcceptEncoding, if a.curlFlags.encode then Text("") else NullPtr)]
    case Proxy => ProxySettings(caps, a.proxy)
    case SslVerifyPeer => if a.ssl.verifyPeer >= 0 then [Setting(SslVerifyPeer, Long(a.ssl.verifyPeer))] else []
    case SslVerifyHost =>
      if caps.verifyHost && a.ssl.verifyHost >= 0 then [Setting(SslVerifyHost, Long(a.ssl.verifyHost))] else []
    case SslCert => IfSome(a.ssl.certificate, SslCert)
    case SslKey => KeySettings(a.ssl)
    case CaInfo => IfSome(a.ssl.caInfo, CaInfo)
    case CaPath => IfSome(a.ssl.caPath, CaPath)
    case UseSsl => []
    case BufferSize => if caps.bufferSize then [Setting(BufferSize, Long(c.transport.bufferSize))] else []
    case TcpKeepAlive => if caps.keepAlive then KeepAliveSettings(c.transport.keepAlive) else []
    case _ => []
  }

  /** Every case emits its calls in per-link order, inside its band, and only options it owns. */
  lemma CaseWellFormed(caps: Caps, c: Config, f: CurlOpt)
    ensures WellFormedCase(CaseSettings(caps, c, f), f)
  {
    match f
    case UserPwd | CookieJar | CookieFile | Netrc | NetrcFile | Proxy => AuthCaseWellFormed(caps, c, f);
    case SslVerifyPeer | SslVerifyHost | SslCert | SslKey | CaInfo | CaPath | UseSsl => TlsCaseWellFormed(caps, c, f);
    case TcpKeepAlive => KeepAliveWellFormed(c.transport.keepAlive);
    case UserAgent | Verbose | Timeout | ConnectTimeout | FollowLocation | MaxRedirs | ErrorBuffer | AcceptEncoding
      | BufferSize => SessionCaseWellFormed(caps, c, f);
    case UserName | Password | HttpAuth | ProxyPort | ProxyUserName | ProxyPassword | ProxyAuth | SslKeyPasswd
      | TcpKeepIdle | TcpKeepIntvl => NoCaseWellFormed(caps, c, f);
  }

  lemma CredWellFormed(cr: Creds)
    ensures WellFormedCase(CredSettings(cr), UserPwd)
  {
  }

  lemma CookieWellFormed(jar: Option<string>)
    ensures WellFormedCase(CookieSettings(jar), CookieJar)
  {
  }

  lemma NetrcWellFormed(netrc: Option<string>)
    ensures WellFormedCase(NetrcSettings(netrc), Netrc)
  {
  }

  lemma KeyWellFormed(s: SslInfo)
    ensures WellFormedCase(KeySettings(s), SslKey)
  {
  }

  lemma AuthCaseWellFormed(caps: Caps, c: Config, f: CurlOpt)
    requires f == UserPwd || f == CookieJar || f == CookieFile || f == Netrc || f == NetrcFile || f == Proxy
    ensures WellFormedCase(CaseSettings(caps, c, f), f)
  {
    match f
    case UserPwd => CredWellFormed(c.auth.creds);
    case CookieJar | CookieFile => CookieWellFormed(c.auth.curlFlags.cookieJar);
    case Netrc | NetrcFile => NetrcWellFormed(c.auth.curlFlags.netrc);
    case Proxy => ProxyWellFormed(caps, c.auth.proxy);
  }

  /** A case with at most one call, to an option it owns inside its band, is well formed. */
  lemma OneWellFormed(ss: seq<Setting>, f: CurlOpt)
    requires |ss| <= 1
    requires |ss| == 1 ==> Producer(ss[0].opt) == CaseOf(f) && Lo(f) <= Rank(ss[0].opt) <= Hi(f)
    ensures WellFormedCase(ss, f)
  {
  }

  lemma TlsCaseWellFormed(caps: Caps, c: Config, f: CurlOpt)
    requires f == SslVerifyPeer || f == SslVerifyHost || f == SslCert || f == SslKey || f == CaInfo || f == CaPath || f == UseSsl
    ensures WellFormedCase(CaseSettings(caps, c, f), f)
  {
    if f == SslKey {
      KeyWellFormed(c.auth.ssl);
    } else {
      OneWellFormed(CaseSettings(caps, c, f), f);
    }
  }

  lemma SessionCaseWellFormed(caps: Caps, c: Config, f: CurlOpt)
    requires f == UserAgent || f == Verbose || f == Timeout || f == ConnectTimeout || f == FollowLocation
      || f == MaxRedirs || f == ErrorBuffer || f == AcceptEncoding || f == BufferSize
    ensures WellFormedCase(CaseSettings(caps, c, f), f)
  {
    if f == UserAgent {
      OneWellFormed(IfSome(c.auth.curlFlags.userAgent, f), f);
    } else {
      OneWellFormed(CaseSettings(caps, c, f), f);
    }
  }

  /** The options that are not flags of their own select the default case, which issues nothing. */
  lemma NoCaseWellFormed(caps: Caps, c: Config, f: CurlOpt)
    requires f == UserName || f == Password || f == HttpAuth || f == ProxyPort || f == ProxyUserName
      || f == ProxyPassword || f == ProxyAuth || f == SslKeyPasswd || f == TcpKeepIdle || f == TcpKeepIntvl
    ensures WellFormedCase(CaseSettings(caps, c, f), f)
  {
    assert CaseSettings(caps, c, f) == [];
    OneWellFormed([], f);
  }

  lemma CaseIgnoresHost(caps: Caps, c: Config, h: int, f: CurlOpt)
    requires f != SslVerifyHost
    ensures CaseSettings(caps, WithVerifyHost(c, h), f) == CaseSettings(caps, c, f)
  {
  }

  /** Some call of the list uses option `o`. */
  predicate Emits(ss: seq<Setting>, o: CurlOpt)
  {
    exists i {:trigger OptAt(ss, i)} :: 0 <= i < |ss| && OptAt(ss, i) == o
  }

  /** The option of the i-th call. */
  function OptAt(ss: seq<Setting>, i: nat): CurlOpt
    requires i < |ss|
  {
    ss[i].opt
  }

  /** curl accepted every one of the calls. */
  predicate Accepted(ss: seq<Setting>, setopt: Setopt)
  {
    forall i :: 0 <= i < |ss| ==> setopt(ss[i])
  }

  /** The last of the calls is the one curl rejected. */
  predicate FailsLast(ss: seq<Setting>, setopt: Setopt)
  {
    0 < |ss| && !setopt(ss[|ss| - 1])
  }

  lemma AcceptedConcat(a: seq<Setting>, b: seq<Setting>, setopt: Setopt)
    ensures Accepted(a + b, setopt) <==> Accepted(a, setopt) && Accepted(b, setopt)
    ensures FailsLast(b, setopt) ==> FailsLast(a + b, setopt)
  {
    assert forall i :: 0 <= i < |b| ==> (a + b)[|a| + i] == b[i];
    assert forall i :: 0 <= i < |a| ==> (a + b)[i] == a[i];
  }

  /** The calls actually made: up to and including the first rejected one. */
  datatype Attempted = Attempted(tried: seq<Setting>, ok: bool)

  function Attempt(req: seq<Setting>, setopt: Setopt): (r: Attempted)
    ensures |r.tried| <= |req| && r.tried == req[..|r.tried|]
    ensures r.ok ==> r.tried == req
    ensures r.ok <==> Accepted(r.tried, setopt)
    ensures forall i :: 0 <= i < |r.tried| - 1 ==> setopt(r.tried[i])
    ensures !r.ok ==> FailsLast(r.tried, setopt)
    ensures 0 < |req| ==> 0 < |r.tried|
    decreases |req|
  {
    if |req| == 0 then Attempted([], true)
    else if !setopt(req[0]) then Attempted([req[0]], false)
    else
      var rest := Attempt(req[1..], setopt);
      var tried := [req[0]] + rest.tried;
      assert forall i :: 0 < i < |tried| ==> tried[i] == rest.tried[i - 1];
      assert req[..|tried|] == [req[0]] + req[1..][..|rest.tried|];
      Attempted(tried, rest.ok)
  }

  datatype Mode = AsWritten | Corrected

  datatype FlagResult = FlagResult(tried: seq<Setting>, cfg: Config, ret: NcErr, warned: bool)

  /** set_curlflag under either reading of SETCURLOPT. */
  function SetCurlFlagIn(mode: Mode, caps: Caps, c: Config, flag: CurlOpt, setopt: Setopt): FlagResult
  {
    var a := Attempt(CaseSettings(caps, c, flag), setopt);
    var c' := if flag == SslVerifyPeer && a.ok && c.auth.ssl.verifyPeer == 0 then WithVerifyHost(c, 0) else c;
    FlagResult(a.tried, c', if mode == Corrected && !a.ok then ECurl else NoErr, !Handled(caps, flag))
  }

  /**
   * set_curlflag as written: a failing setopt skips the rest of its case but
   * the status stays NC_NOERR; an unknown flag only warns.
   */
  function SetCurlFlagAsWritten(caps: Caps, c: Config, flag: CurlOpt, setopt: Setopt): (r: FlagResult)
    ensures r.ret == NoErr
    ensures |r.tried| <= |CaseSettings(caps, c, flag)| && r.tried == CaseSettings(caps, c, flag)[..|r.tried|]
    ensures |CaseSettings(caps, c, flag)| > 0 ==> |r.tried| > 0
    ensures r.warned <==> !Handled(caps, flag)
    ensures !Handled(caps, flag) ==> r.tried == [] && r.cfg == c
  {
    SetCurlFlagIn(AsWritten, caps, c, flag, setopt)
  }

  /**
   * set_curlflag as evidently intended: the first rejected setopt ends the case
   * with NC_ECURL. VERIFYPEER set to 0 forces VERIFYHOST to 0, once the
   * VERIFYPEER call has succeeded.
   */
  function SetCurlFlag(caps: Caps, c: Config, flag: CurlOpt, setopt: Setopt): (r: FlagResult)
    ensures r.ret == NoErr || r.ret == ECurl
    ensures r.ret == NoErr <==> Accepted(r.tried, setopt)
    ensures r.ret == NoErr ==> r.tried == CaseSettings(caps, c, flag)
    ensures r.ret == ECurl ==> FailsLast(r.tried, setopt)
    ensures |r.tried| <= |CaseSettings(caps, c, flag)| && r.tried == CaseSettings(caps, c, flag)[..|r.tried|]
    ensures flag == SslVerifyPeer && c.auth.ssl.verifyPeer == 0 && r.ret == NoErr ==> r.cfg.auth.ssl.verifyHost == 0
    ensures r.cfg == c || (flag == SslVerifyPeer && r.cfg == WithVerifyHost(c, 0))
  {
    SetCurlFlagIn(Corrected, caps, c, flag, setopt)
  }

  /** The flags NCD4_set_flags_perlink always requests, in its order. */
  const FixedPerLinkFlags: seq<CurlOpt> :=
    [AcceptEncoding, Netrc, Verbose, Timeout, UserAgent, CookieJar, UserPwd, Proxy,
     SslVerifyPeer, SslVerifyHost, SslCert, SslKey, CaInfo, CaPath, UseSsl,
     FollowLocation, MaxRedirs, ErrorBuffer]

  /** All flags of a per-link pass: the fixed ones, then BUFFERSIZE and TCP_KEEPALIVE when configured. */
  function PerLinkFlags(caps: Caps, t: Transport): seq<CurlOpt>
  {
    FixedPerLinkFlags
    + (if caps.bufferSize && t.bufferSize > 0 then [BufferSize] else [])
    + (if caps.keepAlive && t.keepAlive.active != 0 then [TcpKeepAlive] else [])
  }

  /** The per-link pass requests neither alias flag and never CONNECTTIMEOUT. */
  lemma PerLinkExcludes(caps: Caps, t: Transport)
    ensures CookieFile !in PerLinkFlags(caps, t) && NetrcFile !in PerLinkFlags(caps, t)
    ensures ConnectTimeout !in PerLinkFlags(caps, t)
  {
    var fl := PerLinkFlags(caps, t);
    assert fl == FixedPerLinkFlags + fl[18..];
  }

  /** BUFFERSIZE and TCP_KEEPALIVE are requested exactly when compiled in and configured. */
  lemma PerLinkOptional(caps: Caps, t: Transport)
    ensures BufferSize in PerLinkFlags(caps, t) <==> caps.bufferSize && t.bufferSize > 0
    ensures TcpKeepAlive in PerLinkFlags(caps, t) <==> caps.keepAlive && t.keepAlive.active != 0
  {
    var fl := PerLinkFlags(caps, t);
    assert fl == FixedPerLinkFlags + fl[18..];
  }


  datatype PassResult = PassResult(tried: seq<Setting>, cfg: Config, ret: NcErr)

  /** The chain `if(ret == NC_NOERR) ret = set_curlflag(state, flag)` over a list of flags. */
  function RunFlags(mode: Mode, caps: Caps, c: Config, flags: seq<CurlOpt>, setopt: Setopt): (r: PassResult)
    ensures r.cfg.transport == c.transport
    decreases |flags|
  {
    if |flags| == 0 then PassResult([], c, NoErr)
    else
      var f := SetCurlFlagIn(mode, caps, c, flags[0], setopt);
      if f.ret != NoErr then PassResult(f.tried, f.cfg, f.ret)
      else
        var rest := RunFlags(mode, caps, f.cfg, flags[1..], setopt);
        PassResult(f.tried + rest.tried, rest.cfg, rest.ret)
  }

  lemma {:induction false} RunFlagsAsWrittenNoErr(caps: Caps, c: Config, flags: seq<CurlOpt>, setopt: Setopt)
    ensures RunFlags(AsWritten, caps, c, flags, setopt).ret == NoErr
    decreases |flags|
  {
    if |flags| > 0 {
      var f := SetCurlFlagIn(AsWritten, caps, c, flags[0], setopt);
      RunFlagsAsWrittenNoErr(caps, f.cfg, flags[1..], setopt);
    }
  }

  lemma {:induction false} RunFlagsCorrectedStatus(caps: Caps, c: Config, flags: seq<CurlOpt>, setopt: Setopt)
    ensures var r := RunFlags(Corrected, caps, c, flags, setopt);
      && (r.ret == NoErr || r.ret == ECurl)
      && (r.ret == NoErr <==> Accepted(r.tried, setopt))
      && (r.ret == ECurl ==> FailsLast(r.tried, setopt))
    decreases |flags|
  {
    if |flags| > 0 {
      var f := SetCurlFlag(caps, c, flags[0], setopt);
      if f.ret == NoErr {
        RunFlagsCorrectedStatus(caps, f.cfg, flags[1..], setopt);
        var rest := RunFlags(Corrected, caps, f.cfg, flags[1..], setopt);
        AcceptedConcat(f.tried, rest.tried, setopt);
      }
    }
  }

  /**
   * NCD4_set_flags_perlink as written. Because SETCURLOPT swallows every
   * failure, each case of the pass runs and the pass always reports NC_NOERR.
   */
  function SetFlagsPerLinkAsWritten(caps: Caps, c: Config, setopt: Setopt): (r: PassResult)
    ensures r.ret == NoErr
    ensures r.cfg.transport == c.transport
  {
    RunFlagsAsWrittenNoErr(caps, c, PerLinkFlags(caps, c.transport), setopt);
    RunFlags(AsWritten, caps, c, PerLinkFlags(caps, c.transport), setopt)
  }

  /**
   * NCD4_set_flags_perlink as evidently intended: the pass stops at the first
   * rejected setopt and reports NC_ECURL; earlier settings are not rolled back.
   */
  function SetFlagsPerLink(caps: Caps, c: Config, setopt: Setopt): (r: PassResult)
    ensures r.ret == NoErr || r.ret == ECurl
    ensures r.ret == NoErr <==> Accepted(r.tried, setopt)
    ensures r.ret == ECurl ==> FailsLast(r.tried, setopt)
    ensures r.cfg.transport == c.transport
  {
    RunFlagsCorrectedStatus(caps, c, PerLinkFlags(caps, c.transport), setopt);
    RunFlags(Corrected, caps, c, PerLinkFlags(caps, c.transport), setopt)
  }

  /** NCD4_set_flags_perfetch: currently requests nothing. */
  function SetFlagsPerFetch(c: Config): (r: PassResult)
    ensures r.tried == [] && r.ret == NoErr && r.cfg == c
  {
    PassResult([], c, NoErr)
  }

  datatype DebugResult = DebugResult(tried: seq<Setting>, cfg: Config)

  /**
   * NCD4_curl_debug: turns verbose on and re-applies VERBOSE and ERRORBUFFER,
   * ignoring the status of both calls.
   */
  function CurlDebug(caps: Caps, c: Config, setopt: Setopt): (r: DebugResult)
    ensures r.cfg.auth.curlFlags.verbose
    ensures r.cfg.transport == c.transport
    ensures r.tried == [Setting(Verbose, Long(1)), Setting(ErrorBuffer, ErrorBuf)]
  {
    var c1 := c.(auth := c.auth.(curlFlags := c.auth.curlFlags.(verbose := true)));
    var v := SetCurlFlag(caps, c1, Verbose, setopt);
    var e := SetCurlFlag(caps, v.cfg, ErrorBuffer, setopt);
    DebugResult(v.tried + e.tried, e.cfg)
  }

  // ---------------------------------------------------------------------------
  // NCD4_get_rcproperties

  /** sscanf("%lu"): the %ld conversion read back as a 64-bit unsigned long. */
  function ScanUnsigned(s: string): Option<Scan>
  {
    match ScanInteger(s)
    case None => None
    case Some(sc) => Some(Scan(ToSize(sc.value), sc.end))
  }

  /** sscanf(option, "%lu/%lu", &idle, &interval): the two fields (0 where unconverted) and the count. */
  datatype Pair = Pair(idle: int, interval: int, count: nat)

  function ScanPair(s: string): (r: Pair)
    ensures r.count <= 2
  {
    match ScanUnsigned(s)
    case None => Pair(0, 0, 0)
    case Some(first) =>
      if first.end < |s| && s[first.end] == '/' then
        match ScanUnsigned(s[first.end + 1..])
        case None => Pair(first.value, 0, 1)
        case Some(second) => Pair(first.value, second.value, 2)
      else Pair(first.value, 0, 1)
  }

  datatype RcResult = RcResult(transport: Transport, warnings: nat)

  /**
   * The "Illegal HTTP.READ.BUFFERSIZE size" warning: a non-empty setting
   * other than "max" that does not scan as a long, or scans to zero or less.
   */
  predicate BadBufferSize(caps: Caps, bufferOpt: Option<string>)
  {
    && caps.bufferSize && bufferOpt.Some? && |bufferOpt.value| != 0
    && !EqualsIgnoreCase(bufferOpt.value, "max")
    && (ScanInteger(bufferOpt.value).None? || ScanInteger(bufferOpt.value).value.value <= 0)
  }

  /**
   * The "Illegal KEEPALIVE VALUE" warning: a non-empty setting other than
   * "on" from which "%lu/%lu" does not convert both numbers.
   */
  predicate BadKeepAlive(caps: Caps, keepAliveOpt: Option<string>)
  {
    && caps.keepAlive && keepAliveOpt.Some? && |keepAliveOpt.value| != 0
    && !EqualsIgnoreCase(keepAliveOpt.value, "on")
    && ScanPair(keepAliveOpt.value).count != 2
  }

  /**
   * NCD4_get_rcproperties: HTTP.READ.BUFFERSIZE and HTTP.KEEPALIVE, as looked up
   * in the rc file (None when absent). `unscanned` is the value the
   * uninitialised `bufsize` happens to hold when its scan fails. The two
   * unsigned longs of "%lu/%lu" land in the keep-alive fields, which are
   * declared `long` in ncd4types.h (not part of this model), so a value above
   * LONG_MAX becomes negative there.
   */
  function GetRcProperties(caps: Caps, t: Transport, bufferOpt: Option<string>, keepAliveOpt: Option<string>,
                           unscanned: int): (r: RcResult)
    ensures !caps.bufferSize || bufferOpt.None? || bufferOpt == Some("") ==>
      r.transport.bufferSize == t.bufferSize
    ensures caps.bufferSize && bufferOpt.Some? && EqualsIgnoreCase(bufferOpt.value, "max") ==>
      r.transport.bufferSize == CURL_MAX_READ_SIZE
    ensures caps.bufferSize && bufferOpt.Some? && !EqualsIgnoreCase(bufferOpt.value, "max")
            && ScanInteger(bufferOpt.value).Some? ==>
      r.transport.bufferSize == ScanInteger(bufferOpt.value).value.value
    ensures !caps.keepAlive || keepAliveOpt.None? || keepAliveOpt == Some("") ==>
      r.transport.keepAlive == t.keepAlive
    ensures caps.keepAlive && keepAliveOpt.Some? && keepAliveOpt != Some("") ==>
      r.transport.keepAlive.active == 1
    ensures caps.keepAlive && keepAliveOpt.Some? && EqualsIgnoreCase(keepAliveOpt.value, "on") ==>
      r.transport.keepAlive.idle == t.keepAlive.idle && r.transport.keepAlive.interval == t.keepAlive.interval
    ensures caps.keepAlive && keepAliveOpt.Some? && keepAliveOpt != Some("")
            && !EqualsIgnoreCase(keepAliveOpt.value, "on") ==>
      r.transport.keepAlive.idle == ToLong(ScanPair(keepAliveOpt.value).idle)
      && r.transport.keepAlive.interval == ToLong(ScanPair(keepAliveOpt.value).interval)
    ensures caps.bufferSize && bufferOpt.Some? && |bufferOpt.value| != 0 && !EqualsIgnoreCase(bufferOpt.value, "max")
            && ScanInteger(bufferOpt.value).None? ==>
      r.transport.bufferSize == unscanned
    ensures r.warnings == (if BadBufferSize(caps, bufferOpt) then 1 else 0) + (if BadKeepAlive(caps, keepAliveOpt) then 1 else 0)
    ensures r.warnings == 0 <==> !BadBufferSize(caps, bufferOpt) && !BadKeepAlive(caps, keepAliveOpt)
  {
    var (buf, w1) :=
      if caps.bufferSize && bufferOpt.Some? && |bufferOpt.value| != 0 then
        var o := bufferOpt.value;
        if EqualsIgnoreCase(o, "max") then (CURL_MAX_READ_SIZE, 0)
        else
          match ScanInteger(o)
          case None => (unscanned, 1)
          case Some(sc) => (sc.value, if sc.value <= 0 then 1 else 0)
      else (t.bufferSize, 0);
    var (ka, w2) :=
      if caps.keepAlive && keepAliveOpt.Some? && |keepAliveOpt.value| != 0 then
        var o := keepAliveOpt.value;
        if EqualsIgnoreCase(o, "on") then (t.keepAlive.(active := 1), 0)
        else
          var p := ScanPair(o);
          (KeepAlive(1, ToLong(p.idle), ToLong(p.interval)), if p.count != 2 then 1 else 0)
      else (t.keepAlive, 0);
    RcResult(Transport(buf, ka), w1 + w2)
  }

  /** A positive decimal buffer size within the range of `%ld` is stored as given, without a warning. */
  lemma RcBufferSizeRoundTrip(caps: Caps, t: Transport, n: nat, unscanned: int)
    requires caps.bufferSize && 0 < n <= LONG_MAX
    ensures var r := GetRcProperties(caps, t, Some(IntToDecimal(n)), None, unscanned);
      r.transport.bufferSize == n && r.warnings == 0
  {
    ScanDecimalRoundTrip(n, "");
    assert IntToDecimal(n) + "" == IntToDecimal(n);
    var d := IntToDecimal(n);
    assert IsDigit(d[0]);
    assert !EqualsIgnoreCase(d, "max") by {
      if |d| == 3 {
        assert Lower(d[0]) != Lower('m');
      }
    }
  }

  /** Scanning of sscanf is unaffected by what follows a non-digit stop character. */
  lemma ScanDecimalPrefix(n: nat, rest: string)
    requires |rest| == 0 || !IsDigit(rest[0])
    ensures ScanUnsigned(NatToDecimal(n) + rest) == Some(Scan(ToSize(n), |NatToDecimal(n)|))
  {
    assert IntToDecimal(n) == NatToDecimal(n);
    ScanDecimalRoundTrip(n, rest);
  }

  lemma ScanPairRoundTrip(idle: nat, interval: nat)
    ensures ScanPair(NatToDecimal(idle) + "/" + NatToDecimal(interval)) == Pair(ToSize(idle), ToSize(interval), 2)
  {
    var a := NatToDecimal(idle);
    var b := NatToDecimal(interval);
    var s := a + "/" + b;
    ScanDecimalPrefix(idle, "/" + b);
    assert s == a + ("/" + b);
    assert s[|a|] == '/';
    assert s[|a| + 1..] == b;
    ScanDecimalPrefix(interval, "");
    assert b + "" == b;
  }

  lemma PairNotOn(idle: nat, interval: nat)
    ensures !EqualsIgnoreCase(NatToDecimal(idle) + "/" + NatToDecimal(interval), "on")
  {
    var s := NatToDecimal(idle) + "/" + NatToDecimal(interval);
    assert IsDigit(s[0]);
    assert |s| >= 3;
  }

  /**
   * "idle/interval" written in decimal is read into the two keep-alive fields
   * without a warning: unchanged up to LONG_MAX, and 2^64 lower above it,
   * where the long fields turn the unsigned values negative.
   */
  lemma RcKeepAliveRoundTrip(caps: Caps, t: Transport, idle: nat, interval: nat, unscanned: int)
    requires caps.keepAlive
    requires idle < 0x1_0000_0000_0000_0000 && interval < 0x1_0000_0000_0000_0000
    ensures var r := GetRcProperties(caps, t, None, Some(NatToDecimal(idle) + "/" + NatToDecimal(interval)), unscanned);
      r.transport.keepAlive == KeepAlive(1, ToLong(idle), ToLong(interval)) && r.warnings == 0
    ensures idle <= LONG_MAX && interval <= LONG_MAX ==>
      GetRcProperties(caps, t, None, Some(NatToDecimal(idle) + "/" + NatToDecimal(interval)), unscanned).transport.keepAlive
      == KeepAlive(1, idle, interval)
    ensures LONG_MAX < idle ==>
      GetRcProperties(caps, t, None, Some(NatToDecimal(idle) + "/" + NatToDecimal(interval)), unscanned).transport.keepAlive.idle < 0
  {
    ScanPairRoundTrip(idle, interval);
    PairNotOn(idle, interval);
  }

  /**
   * An idle time above LONG_MAX reads back negative in the long field, so
   * the keep-alive case sets TCP_KEEPALIVE and the interval but no KEEPIDLE.
   */
  lemma RcKeepAliveHugeIdleSkipped(caps: Caps, t: Transport, idle: nat, interval: nat, unscanned: int)
    requires caps.keepAlive
    requires LONG_MAX < idle < 0x1_0000_0000_0000_0000 && 0 < interval <= LONG_MAX
    ensures var k := GetRcProperties(caps, t, None, Some(NatToDecimal(idle) + "/" + NatToDecimal(interval)), unscanned).transport.keepAlive;
      && k.idle == idle - 0x1_0000_0000_0000_0000
      && Emits(KeepAliveSettings(k), TcpKeepAlive)
      && !Emits(KeepAliveSettings(k), TcpKeepIdle)
      && Emits(KeepAliveSettings(k), TcpKeepIntvl)
  {
    RcKeepAliveRoundTrip(caps, t, idle, interval, unscanned);
    KeepAliveEmits(KeepAlive(1, ToLong(idle), ToLong(interval)));
  }
}

=== FILE: d4resolve.dfy ===
/**
 * What a per-link pass of libdap4/d4curlfunctions.c resolves to: the list of
 * curl options the pass emits when every setopt succeeds, defined case by case
 * and independently of the pass, and the properties of that list (which values
 * go out, in which order, and how VERIFYPEER and VERIFYHOST are coupled).
 */
module D4Resolve {
  import opened Basics
  import opened D4Curl

  /** VERIFYPEER == 0 forces VERIFYHOST to 0. */
  function Couple(c: Config): (r: Config)
    ensures r.auth.ssl.verifyPeer == 0 ==> r.auth.ssl.verifyHost == 0
  {
    if c.auth.ssl.verifyPeer == 0 then WithVerifyHost(c, 0) else c
  }

  lemma CoupleIgnored(caps: Caps, c: Config, f: CurlOpt)
    requires f != SslVerifyHost
    ensures CaseSettings(caps, Couple(c), f) == CaseSettings(caps, c, f)
  {
    CaseIgnoresHost(caps, c, 0, f);
  }

  /** Concatenation of the case lists of `flags`, all read from the same configuration. */
  function Flat(caps: Caps, c: Config, flags: seq<CurlOpt>): seq<Setting>
    decreases |flags|
  {
    if |flags| == 0 then [] else CaseSettings(caps, c, flags[0]) + Flat(caps, c, flags[1..])
  }

  /** The transport configuration a per-link pass resolves from `c`. */
  function Resolve(caps: Caps, c: Config): seq<Setting>
  {
    Flat(caps, Couple(c), PerLinkFlags(caps, c.transport))
  }

  /** VERIFYHOST is requested only after VERIFYPEER. */
  predicate HostAfterPeer(flags: seq<CurlOpt>)
  {
    forall i :: 0 <= i < |flags| && flags[i] == SslVerifyHost ==> SslVerifyPeer in flags[..i]
  }

  lemma HostAfterPeerTail(flags: seq<CurlOpt>)
    requires 0 < |flags| && HostAfterPeer(flags) && flags[0] != SslVerifyPeer
    ensures flags[0] != SslVerifyHost && HostAfterPeer(flags[1..])
  {
    assert flags[..0] == [];
    forall i | 0 <= i < |flags[1..]| && flags[1..][i] == SslVerifyHost
      ensures SslVerifyPeer in flags[1..][..i]
    {
      assert flags[i + 1] == SslVerifyHost;
      assert SslVerifyPeer in flags[..i + 1];
      assert flags[..i + 1] == [flags[0]] + flags[1..][..i];
    }
  }

  lemma {:induction false} RunFlagsCoupled(caps: Caps, c: Config, flags: seq<CurlOpt>)
    requires Couple(c) == c
    ensures RunFlags(Corrected, caps, c, flags, AcceptAll()) == PassResult(Flat(caps, c, flags), c, NoErr)
    decreases |flags|
  {
    if |flags| > 0 {
      var f := SetCurlFlagIn(Corrected, caps, c, flags[0], AcceptAll());
      assert Attempt(CaseSettings(caps, c, flags[0]), AcceptAll()).ok;
      assert f.cfg == c;
      RunFlagsCoupled(caps, c, flags[1..]);
    }
  }

  lemma {:induction false} RunFlagsResolves(caps: Caps, c: Config, flags: seq<CurlOpt>)
    requires HostAfterPeer(flags)
    ensures RunFlags(Corrected, caps, c, flags, AcceptAll()).tried == Flat(caps, Couple(c), flags)
    ensures RunFlags(Corrected, caps, c, flags, AcceptAll()).ret == NoErr
    decreases |flags|
  {
    if |flags| > 0 {
      var f := SetCurlFlagIn(Corrected, caps, c, flags[0], AcceptAll());
      assert Attempt(CaseSettings(caps, c, flags[0]), AcceptAll()).ok;
      if flags[0] == SslVerifyPeer {
        assert f.cfg == Couple(c);
        CoupleIgnored(caps, c, SslVerifyPeer);
        RunFlagsCoupled(caps, Couple(c), flags[1..]);
      } else {
        HostAfterPeerTail(flags);
        assert f.cfg == c;
        CoupleIgnored(caps, c, flags[0]);
        RunFlagsResolves(caps, c, flags[1..]);
      }
    }
  }

  lemma PerLinkHostAfterPeer(caps: Caps, t: Transport)
    ensures HostAfterPeer(PerLinkFlags(caps, t))
  {
    var fl := PerLinkFlags(caps, t);
    forall i | 0 <= i < |fl| && fl[i] == SslVerifyHost
      ensures SslVerifyPeer in fl[..i]
    {
      assert i == 9;
      assert fl[8] == SslVerifyPeer;
    }
  }

  /** With every setopt accepted, the per-link pass emits exactly the resolved configuration. */
  lemma PerLinkEmitsResolved(caps: Caps, c: Config)
    ensures SetFlagsPerLink(caps, c, AcceptAll()).tried == Resolve(caps, c)
    ensures SetFlagsPerLink(caps, c, AcceptAll()).ret == NoErr
  {
    PerLinkHostAfterPeer(caps, c.transport);
    RunFlagsResolves(caps, c, PerLinkFlags(caps, c.transport));
  }

  lemma {:induction false} CorrectedPrefixOfAcceptAll(caps: Caps, c: Config, flags: seq<CurlOpt>, setopt: Setopt)
    ensures var r := RunFlags(Corrected, caps, c, flags, setopt);
      var all := RunFlags(Corrected, caps, c, flags, AcceptAll());
      |r.tried| <= |all.tried| && r.tried == all.tried[..|r.tried|]
    decreases |flags|
  {
    if |flags| > 0 {
      var req := CaseSettings(caps, c, flags[0]);
      var f := SetCurlFlagIn(Corrected, caps, c, flags[0], setopt);
      var g := SetCurlFlagIn(Corrected, caps, c, flags[0], AcceptAll());
      assert Attempt(req, AcceptAll()).ok;
      if f.ret == NoErr {
        assert f.cfg == g.cfg && f.tried == g.tried;
        CorrectedPrefixOfAcceptAll(caps, f.cfg, flags[1..], setopt);
      }
    }
  }

  /**
   * Whatever curl accepts or rejects, the corrected per-link pass applies a
   * prefix of the resolved configuration: options are never skipped or
   * reordered, a failure only cuts the list short.
   */
  lemma PerLinkAppliesPrefixOfResolved(caps: Caps, c: Config, setopt: Setopt)
    ensures var r := SetFlagsPerLink(caps, c, setopt);
      |r.tried| <= |Resolve(caps, c)| && r.tried == Resolve(caps, c)[..|r.tried|]
  {
    PerLinkEmitsResolved(caps, c);
    CorrectedPrefixOfAcceptAll(caps, c, PerLinkFlags(caps, c.transport), setopt);
  }

  predicate NoAliases(flags: seq<CurlOpt>)
  {
    forall i :: 0 <= i < |flags| ==> CaseOf(flags[i]) == flags[i]
  }

  lemma {:induction false} FlatMember(caps: Caps, c: Config, flags: seq<CurlOpt>, s: Setting)
    requires NoAliases(flags)
    ensures s in Flat(caps, c, flags) <==> Producer(s.opt) in flags && s in CaseSettings(caps, c, Producer(s.opt))
    decreases |flags|
  {
    if |flags| > 0 {
      assert NoAliases(flags[1..]) by {
        forall i | 0 <= i < |flags[1..]| ensures CaseOf(flags[1..][i]) == flags[1..][i] {
          assert flags[1..][i] == flags[i + 1];
        }
      }
      FlatMember(caps, c, flags[1..], s);
      assert CaseOf(flags[0]) == flags[0];
      var head := CaseSettings(caps, c, flags[0]);
      if s in head {
        var i :| 0 <= i < |head| && head[i] == s;
        CaseWellFormed(caps, c, flags[0]);
      }
      assert flags == [flags[0]] + flags[1..];
    }
  }

  /** A setting is resolved iff its case is in the pass and that case emits it. */
  lemma ResolvedMember(caps: Caps, c: Config, s: Setting)
    ensures s in Resolve(caps, c) <==>
      Producer(s.opt) in PerLinkFlags(caps, c.transport) && s in CaseSettings(caps, Couple(c), Producer(s.opt))
  {
    var fl := PerLinkFlags(caps, c.transport);
    PerLinkExcludes(caps, c.transport);
    assert NoAliases(fl) by {
      forall i | 0 <= i < |fl| ensures CaseOf(fl[i]) == fl[i] {
        assert fl[i] in fl;
      }
    }
    FlatMember(caps, Couple(c), fl, s);
  }

  lemma ResolvedEmits(caps: Caps, c: Config, o: CurlOpt)
    ensures Emits(Resolve(caps, c), o) <==>
      Producer(o) in PerLinkFlags(caps, c.transport) && Emits(CaseSettings(caps, Couple(c), Producer(o)), o)
  {
    var r := Resolve(caps, c);
    var cs := CaseSettings(caps, Couple(c), Producer(o));
    if Emits(r, o) {
      var i :| 0 <= i < |r| && OptAt(r, i) == o;
      ResolvedMember(caps, c, r[i]);
      var j :| 0 <= j < |cs| && cs[j] == r[i];
      assert OptAt(cs, j) == o;
    }
    if Producer(o) in PerLinkFlags(caps, c.transport) && Emits(cs, o) {
      var j :| 0 <= j < |cs| && OptAt(cs, j) == o;
      ResolvedMember(caps, c, cs[j]);
      var i :| 0 <= i < |r| && r[i] == cs[j];
      assert OptAt(r, i) == o;
    }
  }

  lemma EmitsAt(ss: seq<Setting>, i: nat)
    requires i < |ss|
    ensures Emits(ss, ss[i].opt)
  {
    assert OptAt(ss, i) == ss[i].opt;
  }

  /** An option of a case in the pass is resolved exactly when the case emits it. */
  lemma ResolvedOpt(caps: Caps, c: Config, f: CurlOpt, o: CurlOpt, present: bool)
    requires f in PerLinkFlags(caps, c.transport) && f != SslVerifyHost && Producer(o) == f
    requires Emits(CaseSettings(caps, c, f), o) <==> present
    ensures Emits(Resolve(caps, c), o) <==> present
  {
    CoupleIgnored(caps, c, f);
    ResolvedEmits(caps, c, o);
  }

  /** A setting of a case in the pass is resolved exactly when the case produces it. */
  lemma ResolvedSetting(caps: Caps, c: Config, f: CurlOpt, s: Setting, present: bool)
    requires f in PerLinkFlags(caps, c.transport) && f != SslVerifyHost && Producer(s.opt) == f
    requires s in CaseSettings(caps, c, f) <==> present
    ensures s in Resolve(caps, c) <==> present
  {
    CoupleIgnored(caps, c, f);
    ResolvedMember(caps, c, s);
  }

  /** An option whose case is not in the pass is never resolved. */
  lemma ResolvedAbsent(caps: Caps, c: Config, o: CurlOpt)
    requires Producer(o) !in PerLinkFlags(caps, c.transport)
    ensures !Emits(Resolve(caps, c), o)
  {
    ResolvedEmits(caps, c, o);
  }

  /** A case with at most one call: its option is resolved exactly when the call is made, with its value. */
  lemma ResolvedSingle(caps: Caps, c: Config, f: CurlOpt, s: Setting, on: bool)
    requires f in PerLinkFlags(caps, c.transport) && f != SslVerifyHost && Producer(f) == f && s.opt == f
    requires CaseSettings(caps, c, f) == if on then [s] else []
    ensures Emits(Resolve(caps, c), f) <==> on
    ensures s in Resolve(caps, c) <==> on
  {
    if on {
      EmitsAt([s], 0);
    }
    ResolvedOpt(caps, c, f, f, on);
    ResolvedSetting(caps, c, f, s, on);
  }

  /** An optional string option of the pass is resolved exactly when it is set, with its value. */
  lemma ResolvedIfSome(caps: Caps, c: Config, f: CurlOpt, x: Option<string>)
    requires f in PerLinkFlags(caps, c.transport) && f != SslVerifyHost && Producer(f) == f
    requires CaseSettings(caps, c, f) == IfSome(x, f)
    ensures Emits(Resolve(caps, c), f) <==> x.Some?
    ensures x.Some? ==> Setting(f, Text(x.value)) in Resolve(caps, c)
  {
    if x.Some? {
      ResolvedSingle(caps, c, f, Setting(f, Text(x.value)), true);
    } else {
      ResolvedOpt(caps, c, f, f, false);
    }
  }

  /** Within the pass, a case contributes exactly its own list to the resolved configuration. */
  lemma ResolvedCase(caps: Caps, c: Config, f: CurlOpt)
    requires f in PerLinkFlags(caps, c.transport) && f != SslVerifyHost
    ensures forall s: Setting :: Producer(s.opt) == f ==> (s in Resolve(caps, c) <==> s in CaseSettings(caps, c, f))
    ensures forall o :: Producer(o) == f ==> (Emits(Resolve(caps, c), o) <==> Emits(CaseSettings(caps, c, f), o))
  {
    CoupleIgnored(caps, c, f);
    forall s: Setting | Producer(s.opt) == f ensures s in Resolve(caps, c) <==> s in CaseSettings(caps, c, f) {
      ResolvedMember(caps, c, s);
    }
    forall o | Producer(o) == f
      ensures Emits(Resolve(caps, c), o) <==> Emits(CaseSettings(caps, c, f), o)
    {
      ResolvedEmits(caps, c, o);
    }
  }

  // Each case below is handled in three steps: the case is in the pass and
  // reads its part of the configuration (a `...Case` lemma), its own list has
  // the property (a `...Facts` lemma), and the property carries over to the
  // resolved configuration (ResolvedOpt, ResolvedSetting).

  lemma CredCase(caps: Caps, c: Config)
    ensures UserPwd in PerLinkFlags(caps, c.transport)
    ensures CaseSettings(caps, c, UserPwd) == CredSettings(c.auth.creds)
  {
  }

  lemma CredFacts(cr: Creds)
    ensures var r := CredSettings(cr); var both := cr.user.Some? && cr.pwd.Some?;
      && (Emits(r, UserName) <==> both) && (Emits(r, Password) <==> both) && (Emits(r, HttpAuth) <==> both)
  {
    var r := CredSettings(cr);
    if cr.user.Some? && cr.pwd.Some? {
      EmitsAt(r, 0);
      EmitsAt(r, 1);
      EmitsAt(r, 2);
    }
  }

  /** USERNAME, PASSWORD and HTTPAUTH are emitted together, exactly when both a user and a password are set. */
  lemma ResolvedCredentials(caps: Caps, c: Config)
    ensures var r := Resolve(caps, c); var cr := c.auth.creds;
      && (Emits(r, UserName) <==> cr.user.Some? && cr.pwd.Some?)
      && (Emits(r, Password) <==> cr.user.Some? && cr.pwd.Some?)
      && (Emits(r, HttpAuth) <==> cr.user.Some? && cr.pwd.Some?)
  {
    var both := c.auth.creds.user.Some? && c.auth.creds.pwd.Some?;
    CredCase(caps, c);
    CredFacts(c.auth.creds);
    ResolvedOpt(caps, c, UserPwd, UserName, both);
    ResolvedOpt(caps, c, UserPwd, Password, both);
    ResolvedOpt(caps, c, UserPwd, HttpAuth, both);
  }

  /** With both set, the user name and password go out as given, with HTTPAUTH=ANY. */
  lemma ResolvedCredentialValues(caps: Caps, c: Config)
    requires c.auth.creds.user.Some? && c.auth.creds.pwd.Some?
    ensures var r := Resolve(caps, c); var cr := c.auth.creds;
      && Setting(UserName, Text(cr.user.value)) in r
      && Setting(Password, Text(cr.pwd.value)) in r
      && Setting(HttpAuth, AuthAny) in r
  {
    var cr := c.auth.creds;
    CredCase(caps, c);
    ResolvedSetting(caps, c, UserPwd, Setting(UserName, Text(cr.user.value)), true);
    ResolvedSetting(caps, c, UserPwd, Setting(Password, Text(cr.pwd.value)), true);
    ResolvedSetting(caps, c, UserPwd, Setting(HttpAuth, AuthAny), true);
  }

  lemma CookieCase(caps: Caps, c: Config)
    ensures CookieJar in PerLinkFlags(caps, c.transport)
    ensures CaseSettings(caps, c, CookieJar) == CookieSettings(c.auth.curlFlags.cookieJar)
  {
  }

  lemma CookieFacts(jar: Option<string>, p: string)
    ensures var r := CookieSettings(jar);
      && (Emits(r, CookieJar) <==> jar.Some?) && (Emits(r, CookieFile) <==> jar.Some?)
      && (Setting(CookieJar, Text(p)) in r <==> jar == Some(p))
      && (Setting(CookieFile, Text(p)) in r <==> jar == Some(p))
  {
    var r := CookieSettings(jar);
    if jar.Some? {
      EmitsAt(r, 0);
      EmitsAt(r, 1);
    }
  }

  /** The same path goes to COOKIEJAR and COOKIEFILE; neither goes out without a cookie jar. */
  lemma ResolvedCookies(caps: Caps, c: Config, p: string)
    ensures var r := Resolve(caps, c); var jar := c.auth.curlFlags.cookieJar;
      && (Setting(CookieJar, Text(p)) in r <==> jar == Some(p))
      && (Setting(CookieFile, Text(p)) in r <==> jar == Some(p))
      && (Emits(r, CookieJar) <==> jar.Some?)
      && (Emits(r, CookieFile) <==> jar.Some?)
  {
    var jar := c.auth.curlFlags.cookieJar;
    CookieCase(caps, c);
    CookieFacts(jar, p);
    ResolvedOpt(caps, c, CookieJar, CookieJar, jar.Some?);
    ResolvedOpt(caps, c, CookieJar, CookieFile, jar.Some?);
    ResolvedSetting(caps, c, CookieJar, Setting(CookieJar, Text(p)), jar == Some(p));
    ResolvedSetting(caps, c, CookieJar, Setting(CookieFile, Text(p)), jar == Some(p));
  }

  lemma NetrcCase(caps: Caps, c: Config)
    ensures Netrc in PerLinkFlags(caps, c.transport)
    ensures CaseSettings(caps, c, Netrc) == NetrcSettings(c.auth.curlFlags.netrc)
  {
  }

  lemma NetrcFacts(n: Option<string>)
    ensures var r := NetrcSettings(n);
      && (Emits(r, Netrc) <==> n.Some?) && (Emits(r, NetrcFile) <==> n.Some? && |n.value| > 0)
      && (Setting(Netrc, NetrcOptional) in r <==> n.Some?)
      && (n.Some? && |n.value| > 0 ==> Setting(NetrcFile, Text(n.value)) in r)
  {
    var r := NetrcSettings(n);
    if n.Some? {
      EmitsAt(r, 0);
      if |n.value| > 0 {
        EmitsAt(r, 1);
      }
    }
  }

  /** NETRC=optional whenever a netrc entry exists; NETRC_FILE only for a non-empty path. */
  lemma ResolvedNetrc(caps: Caps, c: Config)
    ensures var r := Resolve(caps, c); var n := c.auth.curlFlags.netrc;
      && (Setting(Netrc, NetrcOptional) in r <==> n.Some?)
      && (Emits(r, Netrc) <==> n.Some?)
      && (Emits(r, NetrcFile) <==> n.Some? && |n.value| > 0)
      && (n.Some? && |n.value| > 0 ==> Setting(NetrcFile, Text(n.value)) in r)
  {
    var n := c.auth.curlFlags.netrc;
    var file := n.Some? && |n.value| > 0;
    NetrcCase(caps, c);
    NetrcFacts(n);
    ResolvedOpt(caps, c, Netrc, Netrc, n.Some?);
    ResolvedOpt(caps, c, Netrc, NetrcFile, file);
    ResolvedSetting(caps, c, Netrc, Setting(Netrc, NetrcOptional), n.Some?);
    if file {
      ResolvedSetting(caps, c, Netrc, Setting(NetrcFile, Text(n.value)), true);
    }
  }

  lemma ProxyCase(caps: Caps, c: Config)
    ensures Proxy in PerLinkFlags(caps, c.transport)
    ensures CaseSettings(caps, c, Proxy) == ProxySettings(caps, c.auth.proxy)
  {
  }

  lemma ProxyHostFacts(caps: Caps, p: ProxyInfo)
    ensures var r := ProxySettings(caps, p);
      && (Emits(r, Proxy) <==> p.host.Some?)
      && (Emits(r, ProxyPort) <==> p.host.Some?)
      && (p.host.Some? ==> Setting(Proxy, Text(p.host.value)) in r && Setting(ProxyPort, Long(p.port)) in r)
  {
    var r := ProxySettings(caps, p);
    if p.host.Some? {
      EmitsAt(r, 0);
      EmitsAt(r, 1);
    }
  }

  lemma ProxyCredFacts(caps: Caps, p: ProxyInfo)
    ensures var r := ProxySettings(caps, p); var creds := p.host.Some? && p.user.Some? && p.pwd.Some?;
      (Emits(r, ProxyUserName) <==> creds) && (Emits(r, ProxyPassword) <==> creds)
  {
    var r := ProxySettings(caps, p);
    if p.host.Some? && p.user.Some? && p.pwd.Some? {
      EmitsAt(r, 2);
      EmitsAt(r, 3);
    }
  }

  lemma ProxyAuthFacts(caps: Caps, p: ProxyInfo)
    ensures Emits(ProxySettings(caps, p), ProxyAuth) <==> caps.proxyAuth && p.host.Some? && p.user.Some? && p.pwd.Some?
  {
    if caps.proxyAuth && p.host.Some? && p.user.Some? && p.pwd.Some? {
      EmitsAt(ProxySettings(caps, p), 4);
    }
  }

  /** PROXY and PROXYPORT exactly when a proxy host is configured, with the host and port. */
  lemma ResolvedProxyHost(caps: Caps, c: Config)
    ensures var r := Resolve(caps, c); var p := c.auth.proxy;
      && (Emits(r, Proxy) <==> p.host.Some?)
      && (Emits(r, ProxyPort) <==> p.host.Some?)
      && (p.host.Some? ==> Setting(Proxy, Text(p.host.value)) in r && Setting(ProxyPort, Long(p.port)) in r)
  {
    var p := c.auth.proxy;
    ProxyCase(caps, c);
    ProxyHostFacts(caps, p);
    ResolvedOpt(caps, c, Proxy, Proxy, p.host.Some?);
    ResolvedOpt(caps, c, Proxy, ProxyPort, p.host.Some?);
    if p.host.Some? {
      ResolvedSetting(caps, c, Proxy, Setting(Proxy, Text(p.host.value)), true);
      ResolvedSetting(caps, c, Proxy, Setting(ProxyPort, Long(p.port)), true);
    }
  }

  /** The proxy user name and password only with a proxy host and both of them set. */
  lemma ResolvedProxyCreds(caps: Caps, c: Config)
    ensures var r := Resolve(caps, c); var p := c.auth.proxy;
      && (Emits(r, ProxyUserName) <==> p.host.Some? && p.user.Some? && p.pwd.Some?)
      && (Emits(r, ProxyPassword) <==> p.host.Some? && p.user.Some? && p.pwd.Some?)
  {
    var p := c.auth.proxy;
    var creds := p.host.Some? && p.user.Some? && p.pwd.Some?;
    ProxyCase(caps, c);
    ProxyCredFacts(caps, p);
    ResolvedOpt(caps, c, Proxy, ProxyUserName, creds);
    ResolvedOpt(caps, c, Proxy, ProxyPassword, creds);
  }

  /** PROXYAUTH=ANY only where compiled in, and only with the full proxy credentials. */
  lemma ResolvedProxyAuth(caps: Caps, c: Config)
    ensures var p := c.auth.proxy;
      Emits(Resolve(caps, c), ProxyAuth) <==> caps.proxyAuth && p.host.Some? && p.user.Some? && p.pwd.Some?
  {
    var p := c.auth.proxy;
    ProxyCase(caps, c);
    ProxyAuthFacts(caps, p);
    ResolvedOpt(caps, c, Proxy, ProxyAuth, caps.proxyAuth && p.host.Some? && p.user.Some? && p.pwd.Some?);
  }

  /** VERIFYPEER only when it is >= 0, with its value. */
  lemma ResolvedVerifyPeer(caps: Caps, c: Config, v: int)
    ensures var r := Resolve(caps, c); var s := c.auth.ssl;
      && (Emits(r, SslVerifyPeer) <==> s.verifyPeer >= 0)
      && (Setting(SslVerifyPeer, Long(v)) in r <==> s.verifyPeer >= 0 && v == s.verifyPeer)
  {
    var p := c.auth.ssl.verifyPeer;
    assert SslVerifyPeer in PerLinkFlags(caps, c.transport);
    ResolvedSingle(caps, c, SslVerifyPeer, Setting(SslVerifyPeer, Long(p)), p >= 0);
    if v != p {
      ResolvedSetting(caps, c, SslVerifyPeer, Setting(SslVerifyPeer, Long(v)), false);
    }
  }

  /**
   * VERIFYHOST only when compiled in and the coupled value is >= 0, with that
   * value; so with VERIFYPEER == 0 any VERIFYHOST emitted is 0.
   */
  lemma ResolvedVerifyHost(caps: Caps, c: Config, v: int)
    ensures var r := Resolve(caps, c); var h := Couple(c).auth.ssl.verifyHost;
      && (Emits(r, SslVerifyHost) <==> caps.verifyHost && h >= 0)
      && (Setting(SslVerifyHost, Long(v)) in r <==> caps.verifyHost && h >= 0 && v == h)
      && (c.auth.ssl.verifyPeer == 0 && Setting(SslVerifyHost, Long(v)) in r ==> v == 0)
  {
    assert SslVerifyHost in PerLinkFlags(caps, c.transport);
    var hs := CaseSettings(caps, Couple(c), SslVerifyHost);
    if caps.verifyHost && Couple(c).auth.ssl.verifyHost >= 0 {
      EmitsAt(hs, 0);
    }
    ResolvedEmits(caps, c, SslVerifyHost);
    ResolvedMember(caps, c, Setting(SslVerifyHost, Long(v)));
  }

  /** FOLLOWLOCATION=1 and MAXREDIRS=20 are always emitted. */
  lemma ResolvedRedirects(caps: Caps, c: Config)
    ensures Setting(FollowLocation, Long(1)) in Resolve(caps, c)
    ensures Setting(MaxRedirs, Long(MAX_REDIRECTS)) in Resolve(caps, c)
  {
    var fl := PerLinkFlags(caps, c.transport);
    assert FollowLocation in fl && MaxRedirs in fl;
    ResolvedSingle(caps, c, FollowLocation, Setting(FollowLocation, Long(1)), true);
    ResolvedSingle(caps, c, MaxRedirs, Setting(MaxRedirs, Long(MAX_REDIRECTS)), true);
  }

  /** ERRORBUFFER is always emitted. */
  lemma ResolvedErrorBuffer(caps: Caps, c: Config)
    ensures Setting(ErrorBuffer, ErrorBuf) in Resolve(caps, c)
  {
    assert ErrorBuffer in PerLinkFlags(caps, c.transport);
    ResolvedSingle(caps, c, ErrorBuffer, Setting(ErrorBuffer, ErrorBuf), true);
  }

  /** ACCEPT_ENCODING is "" (every encoding curl knows) when encoding is on, and NULL otherwise. */
  lemma ResolvedEncoding(caps: Caps, c: Config)
    ensures Setting(AcceptEncoding, Text("")) in Resolve(caps, c) <==> c.auth.curlFlags.encode
    ensures Setting(AcceptEncoding, NullPtr) in Resolve(caps, c) <==> !c.auth.curlFlags.encode
  {
    var e := c.auth.curlFlags.encode;
    assert AcceptEncoding in PerLinkFlags(caps, c.transport);
    ResolvedSetting(caps, c, AcceptEncoding, Setting(AcceptEncoding, Text("")), e);
    ResolvedSetting(caps, c, AcceptEncoding, Setting(AcceptEncoding, NullPtr), !e);
  }

  /** USE_SSL is requested but emits nothing. */
  lemma ResolvedNoUseSsl(caps: Caps, c: Config)
    ensures !Emits(Resolve(caps, c), UseSsl)
  {
    assert UseSsl in PerLinkFlags(caps, c.transport);
    ResolvedOpt(caps, c, UseSsl, UseSsl, false);
  }

  /** CONNECTTIMEOUT is never part of a per-link pass. */
  lemma ResolvedNoConnectTimeout(caps: Caps, c: Config)
    ensures !Emits(Resolve(caps, c), ConnectTimeout)
  {
    PerLinkExcludes(caps, c.transport);
    ResolvedAbsent(caps, c, ConnectTimeout);
  }

  /** VERBOSE=1 exactly when verbose is set. */
  lemma ResolvedVerbose(caps: Caps, c: Config)
    ensures Emits(Resolve(caps, c), Verbose) <==> c.auth.curlFlags.verbose
    ensures c.auth.curlFlags.verbose ==> Setting(Verbose, Long(1)) in Resolve(caps, c)
  {
    assert Verbose in PerLinkFlags(caps, c.transport);
    ResolvedSingle(caps, c, Verbose, Setting(Verbose, Long(1)), c.auth.curlFlags.verbose);
  }

  /** TIMEOUT exactly when the timeout is non-zero, with its value. */
  lemma ResolvedTimeout(caps: Caps, c: Config)
    ensures Emits(Resolve(caps, c), Timeout) <==> c.auth.curlFlags.timeout != 0
    ensures c.auth.curlFlags.timeout != 0 ==> Setting(Timeout, Long(c.auth.curlFlags.timeout)) in Resolve(caps, c)
  {
    var t := c.auth.curlFlags.timeout;
    assert Timeout in PerLinkFlags(caps, c.transport);
    ResolvedSingle(caps, c, Timeout, Setting(Timeout, Long(t)), t != 0);
  }

  /** USERAGENT exactly when a user agent is set, with its text. */
  lemma ResolvedUserAgent(caps: Caps, c: Config)
    ensures Emits(Resolve(caps, c), UserAgent) <==> c.auth.curlFlags.userAgent.Some?
    ensures c.auth.curlFlags.userAgent.Some? ==> Setting(UserAgent, Text(c.auth.curlFlags.userAgent.value)) in Resolve(caps, c)
  {
    assert UserAgent in PerLinkFlags(caps, c.transport);
    ResolvedIfSome(caps, c, UserAgent, c.auth.curlFlags.userAgent);
  }

  /** SSLCERT exactly when a certificate is set, with its path. */
  lemma ResolvedSslCert(caps: Caps, c: Config)
    ensures Emits(Resolve(caps, c), SslCert) <==> c.auth.ssl.certificate.Some?
    ensures c.auth.ssl.certificate.Some? ==> Setting(SslCert, Text(c.auth.ssl.certificate.value)) in Resolve(caps, c)
  {
    assert SslCert in PerLinkFlags(caps, c.transport);
    ResolvedIfSome(caps, c, SslCert, c.auth.ssl.certificate);
  }

  /** CAINFO exactly when a CA bundle is set, with its path. */
  lemma ResolvedCaInfo(caps: Caps, c: Config)
    ensures Emits(Resolve(caps, c), CaInfo) <==> c.auth.ssl.caInfo.Some?
    ensures c.auth.ssl.caInfo.Some? ==> Setting(CaInfo, Text(c.auth.ssl.caInfo.value)) in Resolve(caps, c)
  {
    assert CaInfo in PerLinkFlags(caps, c.transport);
    ResolvedIfSome(caps, c, CaInfo, c.auth.ssl.caInfo);
  }

  /** CAPATH exactly when a CA directory is set, with its path. */
  lemma ResolvedCaPath(caps: Caps, c: Config)
    ensures Emits(Resolve(caps, c), CaPath) <==> c.auth.ssl.caPath.Some?
    ensures c.auth.ssl.caPath.Some? ==> Setting(CaPath, Text(c.auth.ssl.caPath.value)) in Resolve(caps, c)
  {
    assert CaPath in PerLinkFlags(caps, c.transport);
    ResolvedIfSome(caps, c, CaPath, c.auth.ssl.caPath);
  }

  lemma KeyCase(caps: Caps, c: Config)
    ensures SslKey in PerLinkFlags(caps, c.transport)
    ensures CaseSettings(caps, c, SslKey) == KeySettings(c.auth.ssl)
  {
  }

  lemma KeyFacts(s: SslInfo)
    ensures var r := KeySettings(s);
      && (Emits(r, SslKey) <==> s.key.Some?) && (Emits(r, SslKeyPasswd) <==> s.keyPasswd.Some?)
      && (s.key.Some? ==> Setting(SslKey, Text(s.key.value)) in r)
      && (s.keyPasswd.Some? ==> Setting(SslKeyPasswd, Text(s.keyPasswd.value)) in r)
  {
    var r := KeySettings(s);
    if s.key.Some? {
      EmitsAt(r, 0);
    }
    if s.keyPasswd.Some? {
      EmitsAt(r, |r| - 1);
    }
  }

  /** SSLKEY and KEYPASSWD are set independently of each other, each with its value. */
  lemma ResolvedKey(caps: Caps, c: Config)
    ensures var r := Resolve(caps, c); var s := c.auth.ssl;
      && (Emits(r, SslKey) <==> s.key.Some?)
      && (s.key.Some? ==> Setting(SslKey, Text(s.key.value)) in r)
      && (Emits(r, SslKeyPasswd) <==> s.keyPasswd.Some?)
      && (s.keyPasswd.Some? ==> Setting(SslKeyPasswd, Text(s.keyPasswd.value)) in r)
  {
    var k := c.auth.ssl;
    KeyCase(caps, c);
    KeyFacts(k);
    ResolvedOpt(caps, c, SslKey, SslKey, k.key.Some?);
    ResolvedOpt(caps, c, SslKey, SslKeyPasswd, k.keyPasswd.Some?);
    if k.key.Some? {
      ResolvedSetting(caps, c, SslKey, Setting(SslKey, Text(k.key.value)), true);
    }
    if k.keyPasswd.Some? {
      ResolvedSetting(caps, c, SslKey, Setting(SslKeyPasswd, Text(k.keyPasswd.value)), true);
    }
  }

  lemma BufferSizeFacts(caps: Caps, c: Config)
    ensures BufferSize in PerLinkFlags(caps, c.transport) <==> caps.bufferSize && c.transport.bufferSize > 0
    ensures caps.bufferSize ==> CaseSettings(caps, c, BufferSize) == [Setting(BufferSize, Long(c.transport.bufferSize))]
  {
    PerLinkOptional(caps, c.transport);
  }

  /** BUFFERSIZE only when compiled in and positive, with its value. */
  lemma ResolvedBufferSize(caps: Caps, c: Config)
    ensures var r := Resolve(caps, c); var t := c.transport;
      && (Emits(r, BufferSize) <==> caps.bufferSize && t.bufferSize > 0)
      && (caps.bufferSize && t.bufferSize > 0 ==> Setting(BufferSize, Long(t.bufferSize)) in r)
  {
    var t := c.transport;
    BufferSizeFacts(caps, c);
    if caps.bufferSize && t.bufferSize > 0 {
      ResolvedSingle(caps, c, BufferSize, Setting(BufferSize, Long(t.bufferSize)), true);
    } else {
      ResolvedAbsent(caps, c, BufferSize);
    }
  }

  lemma KeepAliveFacts(caps: Caps, c: Config)
    ensures var k := c.transport.keepAlive;
      TcpKeepAlive in PerLinkFlags(caps, c.transport) <==> caps.keepAlive && k.active != 0
    ensures var k := c.transport.keepAlive; var r := CaseSettings(caps, c, TcpKeepAlive);
      caps.keepAlive ==>
        && (Emits(r, TcpKeepAlive) <==> k.active != 0)
        && (Emits(r, TcpKeepIdle) <==> k.idle > 0)
        && (Emits(r, TcpKeepIntvl) <==> k.interval > 0)
  {
    PerLinkOptional(caps, c.transport);
    if caps.keepAlive {
      assert CaseSettings(caps, c, TcpKeepAlive) == KeepAliveSettings(c.transport.keepAlive);
      KeepAliveEmits(c.transport.keepAlive);
    }
  }

  /** TCP_KEEPALIVE only when compiled in and active. */
  lemma ResolvedKeepAlive(caps: Caps, c: Config)
    ensures Emits(Resolve(caps, c), TcpKeepAlive) <==> caps.keepAlive && c.transport.keepAlive.active != 0
  {
    KeepAliveFacts(caps, c);
    if caps.keepAlive && c.transport.keepAlive.active != 0 {
      ResolvedOpt(caps, c, TcpKeepAlive, TcpKeepAlive, true);
    } else {
      ResolvedAbsent(caps, c, TcpKeepAlive);
    }
  }

  /** TCP_KEEPIDLE only with TCP_KEEPALIVE and a positive idle time. */
  lemma ResolvedKeepIdle(caps: Caps, c: Config)
    ensures var k := c.transport.keepAlive;
      Emits(Resolve(caps, c), TcpKeepIdle) <==> caps.keepAlive && k.active != 0 && k.idle > 0
  {
    var k := c.transport.keepAlive;
    KeepAliveFacts(caps, c);
    if caps.keepAlive && k.active != 0 {
      ResolvedOpt(caps, c, TcpKeepAlive, TcpKeepIdle, k.idle > 0);
    } else {
      ResolvedAbsent(caps, c, TcpKeepIdle);
    }
  }

  /** TCP_KEEPINTVL only with TCP_KEEPALIVE and a positive interval. */
  lemma ResolvedKeepInterval(caps: Caps, c: Config)
    ensures var k := c.transport.keepAlive;
      Emits(Resolve(caps, c), TcpKeepIntvl) <==> caps.keepAlive && k.active != 0 && k.interval > 0
  {
    var k := c.transport.keepAlive;
    KeepAliveFacts(caps, c);
    if caps.keepAlive && k.active != 0 {
      ResolvedOpt(caps, c, TcpKeepAlive, TcpKeepIntvl, k.interval > 0);
    } else {
      ResolvedAbsent(caps, c, TcpKeepIntvl);
    }
  }

  predicate BandSorted(flags: seq<CurlOpt>)
  {
    forall i :: 0 <= i < |flags| - 1 ==> Hi(flags[i]) < Lo(flags[i + 1])
  }

  lemma BandSortedTail(flags: seq<CurlOpt>)
    requires 0 < |flags| && BandSorted(flags)
    ensures BandSorted(flags[1..])
  {
    forall i | 0 <= i < |flags[1..]| - 1 ensures Hi(flags[1..][i]) < Lo(flags[1..][i + 1]) {
      assert flags[1..][i] == flags[i + 1] && flags[1..][i + 1] == flags[i + 2];
    }
  }

  /** Two increasing lists whose rank ranges do not overlap join into an increasing list. */
  lemma IncreasingConcat(a: seq<Setting>, b: seq<Setting>, lo: nat, m: nat, n: nat)
    requires Increasing(a) && Increasing(b)
    requires Within(a, lo, m) && Within(b, n, 32) && lo <= m < n
    ensures Increasing(a + b) && Within(a + b, lo, 32)
  {
    var all := a + b;
    forall i, j | 0 <= i < j < |all| ensures Rank(all[i].opt) < Rank(all[j].opt) {
      if j < |a| {
        assert all[i] == a[i] && all[j] == a[j];
      } else if i >= |a| {
        assert all[i] == b[i - |a|] && all[j] == b[j - |a|];
      } else {
        assert all[i] == a[i] && all[j] == b[j - |a|];
      }
    }
    forall i | 0 <= i < |all| ensures lo <= Rank(all[i].opt) <= 32 {
      if i < |a| {
        assert all[i] == a[i];
      } else {
        assert all[i] == b[i - |a|];
      }
    }
  }

  lemma {:induction false} FlatIncreasing(caps: Caps, c: Config, flags: seq<CurlOpt>)
    requires BandSorted(flags)
    ensures Increasing(Flat(caps, c, flags))
    ensures 0 < |flags| ==> Within(Flat(caps, c, flags), Lo(flags[0]), 32)
    decreases |flags|
  {
    if |flags| > 0 {
      var head := CaseSettings(caps, c, flags[0]);
      var tail := Flat(caps, c, flags[1..]);
      CaseWellFormed(caps, c, flags[0]);
      ChainIncreasing(head);
      BandSortedTail(flags);
      FlatIncreasing(caps, c, flags[1..]);
      assert Lo(flags[0]) <= Hi(flags[0]);
      if |flags| > 1 {
        assert Hi(flags[0]) < Lo(flags[1]);
        IncreasingConcat(head, tail, Lo(flags[0]), Hi(flags[0]), Lo(flags[1]));
      } else {
        assert tail == [];
        IncreasingConcat(head, tail, Lo(flags[0]), Hi(flags[0]), Hi(flags[0]) + 1);
      }
    }
  }


  /** FixedPerLinkFlags in three pieces, so that each piece's order is checked on its own. */
  const FixedHead: seq<CurlOpt> := [AcceptEncoding, Netrc, Verbose, Timeout, UserAgent, CookieJar]
  const FixedMiddle: seq<CurlOpt> := [UserPwd, Proxy, SslVerifyPeer, SslVerifyHost, SslCert, SslKey]
  const FixedTail: seq<CurlOpt> := [CaInfo, CaPath, UseSsl, FollowLocation, MaxRedirs, ErrorBuffer]

  lemma FixedPieces()
    ensures FixedPerLinkFlags == FixedHead + FixedMiddle + FixedTail
  {
  }

  lemma FixedHeadSorted()
    ensures BandSorted(FixedHead)
  {
    var a := FixedHead;
    assert Hi(a[0]) < Lo(a[1]) && Hi(a[1]) < Lo(a[2]) && Hi(a[2]) < Lo(a[3]) && Hi(a[3]) < Lo(a[4]) && Hi(a[4]) < Lo(a[5]);
  }

  lemma FixedMiddleSorted()
    ensures BandSorted(FixedMiddle)
  {
    var b := FixedMiddle;
    assert Hi(b[0]) < Lo(b[1]) && Hi(b[1]) < Lo(b[2]) && Hi(b[2]) < Lo(b[3]) && Hi(b[3]) < Lo(b[4]) && Hi(b[4]) < Lo(b[5]);
  }

  lemma FixedTailSorted()
    ensures BandSorted(FixedTail)
  {
    var t := FixedTail;
    assert Hi(t[0]) < Lo(t[1]) && Hi(t[1]) < Lo(t[2]) && Hi(t[2]) < Lo(t[3]) && Hi(t[3]) < Lo(t[4]) && Hi(t[4]) < Lo(t[5]);
  }

  lemma BandSortedConcat(a: seq<CurlOpt>, b: seq<CurlOpt>)
    requires BandSorted(a) && BandSorted(b)
    requires 0 < |a| && 0 < |b| ==> Hi(a[|a| - 1]) < Lo(b[0])
    ensures BandSorted(a + b)
  {
    forall i | 0 <= i < |a + b| - 1 ensures Hi((a + b)[i]) < Lo((a + b)[i + 1]) {
      if i + 1 < |a| {
        assert (a + b)[i] == a[i] && (a + b)[i + 1] == a[i + 1];
      } else if i + 1 == |a| {
        assert (a + b)[i] == a[|a| - 1] && (a + b)[i + 1] == b[0];
      } else {
        assert (a + b)[i] == b[i - |a|] && (a + b)[i + 1] == b[i + 1 - |a|];
      }
    }
  }

  lemma FixedBandSorted()
    ensures BandSorted(FixedPerLinkFlags)
  {
    FixedHeadSorted();
    FixedMiddleSorted();
    FixedTailSorted();
    BandSortedConcat(FixedHead, FixedMiddle);
    BandSortedConcat(FixedHead + FixedMiddle, FixedTail);
    FixedPieces();
  }

  lemma PerLinkBandSorted(caps: Caps, t: Transport)
    ensures BandSorted(PerLinkFlags(caps, t))
  {
    FixedBandSorted();
    var buf: seq<CurlOpt> := if caps.bufferSize && t.bufferSize > 0 then [BufferSize] else [];
    var ka: seq<CurlOpt> := if caps.keepAlive && t.keepAlive.active != 0 then [TcpKeepAlive] else [];
    assert FixedPerLinkFlags[|FixedPerLinkFlags| - 1] == ErrorBuffer;
    BandSortedConcat(FixedPerLinkFlags, buf);
    BandSortedConcat(FixedPerLinkFlags + buf, ka);
  }

  /**
   * Per-link order: the resolved options come out in the fixed order
   * ACCEPT_ENCODING, NETRC, VERBOSE, TIMEOUT, USERAGENT, COOKIEJAR, USERPWD,
   * PROXY, VERIFYPEER, VERIFYHOST, SSLCERT, SSLKEY, CAINFO, CAPATH, USE_SSL,
   * FOLLOWLOCATION, MAXREDIRS, ERRORBUFFER, BUFFERSIZE, TCP_KEEPALIVE;
   * in particular each option at most once.
   */
  lemma ResolvedOrder(caps: Caps, c: Config)
    ensures Increasing(Resolve(caps, c))
  {
    PerLinkBandSorted(caps, c.transport);
    FlatIncreasing(caps, Couple(c), PerLinkFlags(caps, c.transport));
  }

  /**
   * The corrected per-link pass never emits a non-zero VERIFYHOST when
   * VERIFYPEER is 0, whatever curl accepts: either the VERIFYPEER call
   * succeeded and forced VERIFYHOST to 0, or the pass stopped there.
   */
  lemma PerLinkPeerOffForcesHostOff(caps: Caps, c: Config, setopt: Setopt, v: int)
    requires c.auth.ssl.verifyPeer == 0
    ensures Setting(SslVerifyHost, Long(v)) in SetFlagsPerLink(caps, c, setopt).tried ==> v == 0
  {
    var r := SetFlagsPerLink(caps, c, setopt);
    PerLinkAppliesPrefixOfResolved(caps, c, setopt);
    ResolvedVerifyHost(caps, c, v);
    if Setting(SslVerifyHost, Long(v)) in r.tried {
      var i :| 0 <= i < |r.tried| && r.tried[i] == Setting(SslVerifyHost, Long(v));
      assert Resolve(caps, c)[i] == r.tried[i];
    }
  }

  /** The VERIFYPEER case cannot change the configuration. */
  predicate Stable(c: Config, setopt: Setopt)
  {
    c.auth.ssl.verifyPeer != 0 || c.auth.ssl.verifyHost == 0 || !setopt(Setting(SslVerifyPeer, Long(0)))
  }

  /**
   * As written every case of a pass runs, whatever curl rejects before it: the
   * first call of each case is attempted. (VERIFYHOST reads the configuration
   * the VERIFYPEER case may have changed, hence the `Stable` proviso for it.)
   */
  lemma AsWrittenHead(caps: Caps, c: Config, flags: seq<CurlOpt>, setopt: Setopt)
    requires 0 < |flags|
    ensures var f := SetCurlFlagAsWritten(caps, c, flags[0], setopt);
      RunFlags(AsWritten, caps, c, flags, setopt).tried == f.tried + RunFlags(AsWritten, caps, f.cfg, flags[1..], setopt).tried
  {
  }

  lemma AsWrittenConfig(caps: Caps, c: Config, flag: CurlOpt, setopt: Setopt)
    ensures var f := SetCurlFlagAsWritten(caps, c, flag, setopt);
      && (f.cfg == c || f.cfg == WithVerifyHost(c, 0))
      && (Stable(c, setopt) ==> f.cfg == c)
  {
  }

  lemma {:induction false} AsWrittenCaseRuns(caps: Caps, c: Config, flags: seq<CurlOpt>, setopt: Setopt, k: nat)
    requires k < |flags| && 0 < |CaseSettings(caps, c, flags[k])|
    requires flags[k] != SslVerifyHost || Stable(c, setopt)
    ensures CaseSettings(caps, c, flags[k])[0] in RunFlags(AsWritten, caps, c, flags, setopt).tried
    decreases k
  {
    var f := SetCurlFlagAsWritten(caps, c, flags[0], setopt);
    AsWrittenHead(caps, c, flags, setopt);
    if k == 0 {
      assert f.tried[0] == CaseSettings(caps, c, flags[0])[0];
    } else {
      AsWrittenConfig(caps, c, flags[0], setopt);
      assert flags[1..][k - 1] == flags[k];
      if flags[k] != SslVerifyHost {
        CaseIgnoresHost(caps, c, 0, flags[k]);
      }
      AsWrittenCaseRuns(caps, f.cfg, flags[1..], setopt, k - 1);
    }
  }

  /**
   * As written, a failure never stops the per-link pass: every case other
   * than VERIFYHOST gets its first call attempted, whatever curl rejects.
   */
  lemma AsWrittenRunsEveryCase(caps: Caps, c: Config, setopt: Setopt, f: CurlOpt)
    requires f in PerLinkFlags(caps, c.transport) && f != SslVerifyHost
    requires 0 < |CaseSettings(caps, c, f)|
    ensures CaseSettings(caps, c, f)[0] in SetFlagsPerLinkAsWritten(caps, c, setopt).tried
  {
    var fl := PerLinkFlags(caps, c.transport);
    var k :| 0 <= k < |fl| && fl[k] == f;
    AsWrittenCaseRuns(caps, c, fl, setopt, k);
  }

  /**
   * As written, a rejected VERIFYPEER=0 call leaves VERIFYHOST at its configured
   * value and the pass carries on, so VERIFYHOST=2 goes out with VERIFYPEER=0.
   */
  lemma AsWrittenPeerFailureLeaksHost()
    ensures var c := Config(
        Auth(Creds(None, None), CurlFlags(false, false, 0, 0, None, None, false, None),
             ProxyInfo(None, 0, None, None), SslInfo(0, 2, None, None, None, None, None)),
        Transport(0, KeepAlive(0, 0, 0)));
      var r := SetFlagsPerLinkAsWritten(Caps(true, false, false, false), c, (s: Setting) => s.opt != SslVerifyPeer);
      && r.ret == NoErr
      && Setting(SslVerifyHost, Long(2)) in r.tried
  {
    var c := Config(
        Auth(Creds(None, None), CurlFlags(false, false, 0, 0, None, None, false, None),
             ProxyInfo(None, 0, None, None), SslInfo(0, 2, None, None, None, None, None)),
        Transport(0, KeepAlive(0, 0, 0)));
    var caps := Caps(true, false, false, false);
    var setopt := (s: Setting) => s.opt != SslVerifyPeer;
    var fl := PerLinkFlags(caps, c.transport);
    assert fl[9] == SslVerifyHost;
    assert CaseSettings(caps, c, SslVerifyHost) == [Setting(SslVerifyHost, Long(2))];
    AsWrittenCaseRuns(caps, c, fl, setopt, 9);
  }
}

=== FILE: d4session.dfy ===
/**
 * The lifecycle of a DAP4 session (libdap4/d4file.c): NCD4_open as a run of
 * fallible steps, the teardown freeInfo performs after a failure, and
 * NCD4_close/NCD4_abort. The collaborators d4file.c only calls (NC_check_id,
 * ncuriparse, NC_authsetup, the curl setup, nc_create, NCD4_readDMR,
 * NCD4_infermode, NCD4_dechunk, NCD4_parse, NCD4_metabuild, NCD4_debugcopy,
 * nc_close, nc_abort) are oracles: each is a status the caller supplies.
 *
 * What is tracked is which allocations are live and which file names are
 * unlinked. The hidden netCDF-4 store that makesubstrate creates is a live
 * resource too; freeInfo does not release it, only nc_close or nc_abort does.
 */
module D4Session {
  import opened Basics
  import opened D4Curl
  import opened D4Controls

  /** The steps of NCD4_open that can fail, numbered in the order it runs them. */
  const STEP_COUNT: nat := 18
  type Step = k: nat | k < STEP_COUNT

  const CheckId: Step := 0          // NC_check_id
  const AllocInfo: Step := 1        // calloc of the NCD4INFO
  const ParseUrl: Step := 2         // ncuriparse
  const AuthSetup: Step := 3        // NC_authsetup
  const ConstraintCheck: Step := 4  // an unconstrainable source with a dap4.ce query
  const CopyName: Step := 5         // strdup of the substrate file name
  const AllocCurl: Step := 6        // calloc of the NCD4curl
  const CurlOpen: Step := 7         // NCD4_curlopen
  const CurlProperties: Step := 8   // set_curl_properties
  const FlagsPerLink: Step := 9     // NCD4_set_flags_perlink
  const FlagsPerFetch: Step := 10   // NCD4_set_flags_perfetch
  const CreateSubstrate: Step := 11 // makesubstrate
  const NewMeta: Step := 12         // NCD4_newmeta
  const ReadDmr: Step := 13         // NCD4_readDMR
  const InferMode: Step := 14       // NCD4_infermode
  const Dechunk: Step := 15         // NCD4_dechunk
  const ParseDmr: Step := 16        // NCD4_parse
  const MetaBuild: Step := 17       // NCD4_metabuild

  /** What an open session holds. */
  datatype Resource =
    | InfoRecord    // the NCD4INFO itself
    | Uri           // the parsed URL
    | AuthInfo      // the rc-file authorisation record
    | FileName      // substrate.filename
    | CurlRecord    // the NCD4curl record
    | CurlHandle    // the curl easy handle
    | Store         // the netCDF-4 substrate store
    | Metadata      // substrate.metadata

  /** The step that allocates each resource. */
  function Allocator(x: Resource): Step
  {
    match x
    case InfoRecord => AllocInfo
    case Uri => ParseUrl
    case AuthInfo => AuthSetup
    case FileName => CopyName
    case CurlRecord => AllocCurl
    case CurlHandle => CurlOpen
    case Store => CreateSubstrate
    case Metadata => NewMeta
  }

  /** Everything an open session holds. */
  const ALL_RESOURCES: set<Resource> :=
    {InfoRecord, Uri, AuthInfo, FileName, CurlRecord, CurlHandle, Store, Metadata}

  /** The resources freeInfo releases: every one the NCD4INFO owns, which is all but the store. */
  predicate OwnedByInfo(x: Resource) { x != Store }

  /** An open DAP4 session: its live resources, its controls and its substrate file. */
  datatype Session = Session(
    live: set<Resource>,
    controls: Controls,
    filename: Option<string>,
    realFile: bool)

  /** The substrate file is a real file that teardown must delete. */
  predicate MustUnlink(s: Session)
  {
    s.realFile && DebugCopy !in s.controls.debugFlags && s.filename.Some?
  }

  /** What a teardown leaves: the resources still live and the file it unlinked. */
  datatype Teardown = Teardown(live: set<Resource>, unlinked: Option<string>)

  /**
   * freeInfo: releases everything the NCD4INFO owns, and unlinks the substrate
   * file when it is a real file and debug=copy is off. The store stays live.
   */
  function FreeInfo(s: Session): (r: Teardown)
    ensures forall x :: x in r.live <==> x in s.live && !OwnedByInfo(x)
    ensures r.unlinked.Some? <==> MustUnlink(s)
    ensures r.unlinked.Some? ==> s.filename == r.unlinked
  {
    Teardown(s.live * {Store}, if MustUnlink(s) then s.filename else None)
  }

  /**
   * resetInfoforRead: the same unlink rule as freeInfo, then the metadata is
   * reclaimed; nothing else about the session changes.
   */
  function ResetInfoForRead(s: Session): (r: (Session, Option<string>))
    ensures forall x :: x in r.0.live <==> x in s.live && x != Metadata
    ensures r.0 == s.(live := r.0.live)
    ensures r.1.Some? <==> MustUnlink(s)
    ensures r.1.Some? ==> s.filename == r.1
  {
    (s.(live := s.live - {Metadata}), if MustUnlink(s) then s.filename else None)
  }

  /** Resetting twice reclaims nothing more and unlinks the same name again. */
  lemma ResetInfoForReadTwice(s: Session)
    ensures ResetInfoForRead(ResetInfoForRead(s).0) == (ResetInfoForRead(s).0, ResetInfoForRead(s).1)
  {
    assert s.live - {Metadata} - {Metadata} == s.live - {Metadata};
  }

  /**
   * Inside NCD4_open, resetInfoforRead runs before any metadata exists and on
   * a substrate that is never a real file, so it changes nothing.
   */
  lemma ResetInOpenChangesNothing(s: Session)
    requires Metadata !in s.live && !s.realFile
    ensures ResetInfoForRead(s) == (s, None)
  {
    assert s.live - {Metadata} == s.live;
  }

  /** The steps that fail only when an allocation (calloc, strdup, NCD4_newmeta) comes back NULL. */
  predicate IsAllocation(s: Step)
  {
    s == AllocInfo || s == CopyName || s == AllocCurl || s == NewMeta
  }

  /**
   * The status a step reports. A failed allocation reports NC_ENOMEM and a
   * URL ncuriparse rejects reports NC_EDAPURL, whatever the oracle's failure
   * was. The constraint check fails exactly on a conflict. The per-fetch
   * pass makes no call and cannot fail, and the
   * per-link pass as written reports NC_NOERR whatever libcurl does (see
   * D4Curl.SetFlagsPerFetch and D4Curl.SetFlagsPerLinkAsWritten); corrected,
   * it reports what libcurl decides. Under `Corrected`, NC_EVARSIZE from
   * metabuild counts as success, as the guard in front of the teardown label
   * intends.
   */
  function StepStatus(mode: Mode, conflict: bool, status: Step -> NcErr, s: Step): (r: NcErr)
    ensures s == FlagsPerFetch ==> r == NoErr
    ensures s == FlagsPerLink && mode == AsWritten ==> r == NoErr
    ensures s == ConstraintCheck ==> (r == NoErr <==> !conflict)
    ensures s == MetaBuild && mode == Corrected ==> (r == NoErr <==> status(s) in {NoErr, EVarSize})
    ensures s == ParseUrl ==> (r == NoErr <==> status(s) == NoErr) && (r != NoErr ==> r == EDapUrl)
    ensures IsAllocation(s) ==> (r == NoErr <==> status(s) == NoErr) && (r != NoErr ==> r == ENoMem)
  {
    if s == ConstraintCheck then (if conflict then EDapConstraint else NoErr)
    else if s == ParseUrl then (if status(s) != NoErr then EDapUrl else NoErr)
    else if IsAllocation(s) then (if status(s) != NoErr then ENoMem else NoErr)
    else if s == FlagsPerFetch || (s == FlagsPerLink && mode == AsWritten) then NoErr
    else if s == MetaBuild && mode == Corrected && status(s) == EVarSize then NoErr
    else status(s)
  }

  /**
   * The first step from `k` on that fails, if any: the steps of NCD4_open run
   * in order and each failure jumps to the teardown.
   */
  function FirstFailure(mode: Mode, conflict: bool, status: Step -> NcErr, k: nat): (r: Option<Step>)
    requires k <= STEP_COUNT
    ensures r.None? <==> forall s: Step :: k <= s ==> StepStatus(mode, conflict, status, s) == NoErr
    ensures r.Some? ==>
      && k <= r.value
      && StepStatus(mode, conflict, status, r.value) != NoErr
      && forall s: Step :: k <= s < r.value ==> StepStatus(mode, conflict, status, s) == NoErr
    decreases STEP_COUNT - k
  {
    if k == STEP_COUNT then None
    else if StepStatus(mode, conflict, status, k) != NoErr then Some(k)
    else FirstFailure(mode, conflict, status, k + 1)
  }

  /** The first failure is the step that fails with every earlier step succeeding. */
  lemma FirstFailureIs(mode: Mode, conflict: bool, status: Step -> NcErr, f: Step)
    requires StepStatus(mode, conflict, status, f) != NoErr
    requires forall s: Step :: s < f ==> StepStatus(mode, conflict, status, s) == NoErr
    ensures FirstFailure(mode, conflict, status, 0) == Some(f)
  {
  }

  /** What the steps before `f` allocate. */
  function AllocatedBefore(f: Step): (r: set<Resource>)
    ensures forall x :: x in r <==> Allocator(x) < f
  {
    set x | x in ALL_RESOURCES && Allocator(x) < f
  }

  datatype OpenResult = OpenResult(ret: NcErr, session: Option<Session>, leaked: set<Resource>, failed: Option<Step>)

  /**
   * NCD4_open. `frag` and `query` are the URL's fragment and query, `protocol`
   * its scheme; `intNcid` is the pseudo file descriptor the session gets.
   * A NULL path fails before anything is allocated. Otherwise the first
   * failing step decides the status; the half-built session is torn down
   * with freeInfo and detached, and what freeInfo does not release is
   * reported in `leaked`.
   */
  function Open(mode: Mode, env: Env, path: Option<string>, protocol: string, frag: Params, query: Params,
                intNcid: int, status: Step -> NcErr): (r: OpenResult)
    requires -0x8000_0000 <= intNcid < 0x8000_0000
    ensures path.None? ==> r == OpenResult(EDapUrl, None, {}, None)
    ensures r.session.Some? <==> r.ret == NoErr
    ensures path.Some? ==>
      (r.failed.None? <==> forall s: Step :: StepStatus(mode, ConstraintConflict(protocol, query), status, s) == NoErr)
    ensures path.Some? && r.failed.Some? ==>
      && r.ret == StepStatus(mode, ConstraintConflict(protocol, query), status, r.failed.value)
      && forall s: Step :: s < r.failed.value ==> StepStatus(mode, ConstraintConflict(protocol, query), status, s) == NoErr
    ensures r.session.Some? ==> r.session.value.live == ALL_RESOURCES && !r.session.value.realFile
    ensures r.session.Some? ==> r.session.value.filename == Some(SubstrateName(r.session.value.controls.substrateName, intNcid))
    ensures r.session.Some? ==> r.leaked == {}
    ensures path.Some? && r.failed.Some? ==>
      (r.leaked == if CreateSubstrate < r.failed.value then {Store} else {})
    ensures path.Some? && r.failed == Some(ParseUrl) ==> r.ret == EDapUrl && r.leaked == {}
    ensures path.Some? && r.failed.Some? && IsAllocation(r.failed.value) ==> r.ret == ENoMem
  {
    if path.None? then OpenResult(EDapUrl, None, {}, None)
    else
      var controls := OpenControls(env, protocol, frag, query);
      OpenRun(mode, ConstraintConflict(protocol, query), status, controls, SubstrateName(controls.substrateName, intNcid))
  }

  /** The steps of NCD4_open after the path check, for a session with the given controls and file name. */
  function OpenRun(mode: Mode, conflict: bool, status: Step -> NcErr, controls: Controls, name: string): (r: OpenResult)
    ensures r.failed == FirstFailure(mode, conflict, status, 0)
    ensures r.failed.None? ==> r == OpenResult(NoErr, Some(Session(ALL_RESOURCES, controls, Some(name), false)), {}, None)
    ensures r.failed.Some? ==>
      && r.ret == StepStatus(mode, conflict, status, r.failed.value) && r.session.None?
      && (r.leaked == if CreateSubstrate < r.failed.value then {Store} else {})
  {
    var failed := FirstFailure(mode, conflict, status, 0);
    match failed
    case None => OpenResult(NoErr, Some(Session(ALL_RESOURCES, controls, Some(name), false)), {}, None)
    case Some(f) =>
      var td := FreeInfo(Session(AllocatedBefore(f), controls, Some(name), false));
      TeardownAfter(f, controls, name);
      OpenResult(StepStatus(mode, conflict, status, f), None, td.live, failed)
  }

  /** freeInfo after a failure at `f` leaves only the store, and only once makesubstrate has run. */
  lemma TeardownAfter(f: Step, controls: Controls, name: string)
    ensures FreeInfo(Session(AllocatedBefore(f), controls, Some(name), false)).live
            == if CreateSubstrate < f then {Store} else {}
  {
    var live := FreeInfo(Session(AllocatedBefore(f), controls, Some(name), false)).live;
    assert Store in AllocatedBefore(f) <==> CreateSubstrate < f;
    assert forall x :: x in live ==> x == Store;
  }

  /**
   * The controls of a session NCD4_open builds: NCF_UNCONSTRAINABLE for a
   * protocol off the allow-list, then the fragment controls, then the query
   * controls.
   */
  function OpenControls(env: Env, protocol: string, frag: Params, query: Params): (c: Controls)
    ensures c.flags == FragmentFlags(env, frag)
  {
    var c0 := Controls(if IsConstrainable(protocol) then {} else {Unconstrainable}, {}, TransNone, "",
                       env.defaultOpaqueSize, false, env.defaultChecksum);
    ApplyQueryControls(env, query, ApplyFragmentControls(env, frag, c0)).controls
  }

  /**
   * A constraint on an unconstrainable source is refused before the curl
   * connection is opened, and nothing allocated until then outlives the
   * teardown.
   */
  lemma OpenRefusesConflict(mode: Mode, env: Env, path: string, protocol: string, frag: Params, query: Params,
                            intNcid: int, status: Step -> NcErr)
    requires -0x8000_0000 <= intNcid < 0x8000_0000
    requires ConstraintConflict(protocol, query)
    requires status(CheckId) == NoErr && status(AllocInfo) == NoErr && status(ParseUrl) == NoErr && status(AuthSetup) == NoErr
    ensures var r := Open(mode, env, Some(path), protocol, frag, query, intNcid, status);
      && r.ret == EDapConstraint && r.session.None? && r.leaked == {}
      && r.failed == Some(ConstraintCheck) && ConstraintCheck < CurlOpen
  {
    FirstFailureIs(mode, true, status, ConstraintCheck);
  }

  /**
   * A URL ncuriparse rejects fails the open with NC_EDAPURL, whatever the
   * parser's own complaint, and the info record allocated before it is
   * released.
   */
  lemma OpenRejectsUrl(mode: Mode, env: Env, path: string, protocol: string, frag: Params, query: Params,
                       intNcid: int, status: Step -> NcErr)
    requires -0x8000_0000 <= intNcid < 0x8000_0000
    requires status(CheckId) == NoErr && status(AllocInfo) == NoErr && status(ParseUrl) != NoErr
    ensures var r := Open(mode, env, Some(path), protocol, frag, query, intNcid, status);
      r.ret == EDapUrl && r.session.None? && r.leaked == {} && r.failed == Some(ParseUrl)
  {
    FirstFailureIs(mode, ConstraintConflict(protocol, query), status, ParseUrl);
  }

  /** A status where only metabuild reports NC_EVARSIZE. */
  predicate OnlyVarSize(status: Step -> NcErr)
  {
    forall s: Step :: status(s) == if s == MetaBuild then EVarSize else NoErr
  }

  /**
   * As written, NC_EVARSIZE from metabuild skips the `goto done`, but the very
   * next statement is the teardown label, which tests the status again: the
   * session is torn down and the open fails with NC_EVARSIZE.
   */
  lemma OpenVarSizeAsWritten(env: Env, path: string, protocol: string, frag: Params, query: Params,
                             intNcid: int, status: Step -> NcErr)
    requires -0x8000_0000 <= intNcid < 0x8000_0000
    requires OnlyVarSize(status) && !ConstraintConflict(protocol, query)
    ensures var r := Open(AsWritten, env, Some(path), protocol, frag, query, intNcid, status);
      r.ret == EVarSize && r.session.None? && r.leaked == {Store}
  {
    FirstFailureIs(AsWritten, false, status, MetaBuild);
  }

  /** Corrected, the same open succeeds and keeps the session. */
  lemma OpenVarSizeCorrected(env: Env, path: string, protocol: string, frag: Params, query: Params,
                             intNcid: int, status: Step -> NcErr)
    requires -0x8000_0000 <= intNcid < 0x8000_0000
    requires OnlyVarSize(status) && !ConstraintConflict(protocol, query)
    ensures Open(Corrected, env, Some(path), protocol, frag, query, intNcid, status).session.Some?
  {
  }

  /** A failure after makesubstrate leaves the store live: freeInfo does not abort it. */
  lemma OpenFailureAfterSubstrateLeaksStore(mode: Mode, env: Env, path: string, protocol: string, frag: Params,
                                            query: Params, intNcid: int, status: Step -> NcErr, f: Step)
    requires -0x8000_0000 <= intNcid < 0x8000_0000
    requires CreateSubstrate < f
    requires StepStatus(mode, ConstraintConflict(protocol, query), status, f) != NoErr
    requires forall s: Step :: s < f ==> StepStatus(mode, ConstraintConflict(protocol, query), status, s) == NoErr
    ensures Open(mode, env, Some(path), protocol, frag, query, intNcid, status).leaked == {Store}
  {
    FirstFailureIs(mode, ConstraintConflict(protocol, query), status, f);
  }

  /** What NCD4_close asks of the substrate store. */
  datatype StoreAction = NoAction | Closed | Aborted

  datatype CloseResult = CloseResult(ret: NcErr, teardown: Teardown, action: StoreAction)

  /**
   * NCD4_close (and NCD4_abort, which calls it). `session` is None when
   * NC_check_id fails with `idStatus`. Under debug=copy the data is copied
   * into the store (`copyStatus`) and the store closed; otherwise it is
   * aborted (`storeStatus` is what nc_close or nc_abort returns). A failed copy
   * returns at once, without closing the store or running freeInfo.
   */
  function Close(session: Option<Session>, idStatus: NcErr, copyStatus: NcErr, storeStatus: NcErr): (r: CloseResult)
    requires session.None? ==> idStatus != NoErr
    ensures session.None? ==> r == CloseResult(idStatus, Teardown({}, None), NoAction)
    ensures session.Some? && DebugCopy in session.value.controls.debugFlags && copyStatus != NoErr ==>
      r == CloseResult(copyStatus, Teardown(session.value.live, None), NoAction)
    ensures session.Some? && (DebugCopy !in session.value.controls.debugFlags || copyStatus == NoErr) ==>
      && r.ret == storeStatus
      && (r.action == Closed <==> DebugCopy in session.value.controls.debugFlags)
      && r.action != NoAction
      && r.teardown.live == {}
      && (r.teardown.unlinked.Some? <==> MustUnlink(session.value))
  {
    match session
    case None => CloseResult(idStatus, Teardown({}, None), NoAction)
    case Some(s) =>
      if DebugCopy in s.controls.debugFlags then
        if copyStatus != NoErr then CloseResult(copyStatus, Teardown(s.live, None), NoAction)
        else CloseResult(storeStatus, FreeInfo(s.(live := s.live - {Store})), Closed)
      else CloseResult(storeStatus, FreeInfo(s.(live := s.live - {Store})), Aborted)
  }

  /** A session NCD4_open returns is never unlinked by close: realfile is never set. */
  lemma OpenCloseNeverUnlinks(mode: Mode, env: Env, path: string, protocol: string, frag: Params, query: Params,
                              intNcid: int, status: Step -> NcErr, copyStatus: NcErr, storeStatus: NcErr)
    requires -0x8000_0000 <= intNcid < 0x8000_0000
    ensures var r := Open(mode, env, Some(path), protocol, frag, query, intNcid, status);
      r.session.Some? ==> Close(r.session, NoErr, copyStatus, storeStatus).teardown.unlinked.None?
  {
  }

  /** Closing an opened session releases everything it holds unless the debug copy fails. */
  lemma OpenCloseReleasesAll(mode: Mode, env: Env, path: string, protocol: string, frag: Params, query: Params,
                             intNcid: int, status: Step -> NcErr, copyStatus: NcErr, storeStatus: NcErr)
    requires -0x8000_0000 <= intNcid < 0x8000_0000
    ensures var r := Open(mode, env, Some(path), protocol, frag, query, intNcid, status);
      r.session.Some? ==>
        var c := Close(r.session, NoErr, copyStatus, storeStatus);
        (c.teardown.live == {} <==> DebugCopy !in r.session.value.controls.debugFlags || copyStatus == NoErr)
  {
  }
}

=== FILE: ncdump_escape.dfy ===
/**
 * How ncdump quotes a text attribute: CDL string literals (pr_att_string)
 * and NcML attribute values (pr_attx_string). Both drop trailing NUL bytes,
 * then escape byte by byte. Each printer is paired with a decoder that
 * reads its output the way ncgen reads a CDL string, or an XML 1.0 parser
 * reads an attribute value (predefined entities, section 4.6; character
 * references, section 4.1), and the round trip is proved.
 */
module NcEscape {
  import opened Basics
  import opened CText
  import opened NcTypes

  const BACKSPACE: char := 8 as char
  const FORMFEED: char := 12 as char
  const VTAB: char := 11 as char

  /** The attribute length with its trailing NUL bytes dropped. */
  function TrimNuls(s: string): (r: string)
    ensures |r| <= |s| && r == s[..|r|]
    ensures |r| > 0 ==> r[|r| - 1] != '\0'
    ensures forall i :: |r| <= i < |s| ==> s[i] == '\0'
    decreases |s|
  {
    if |s| > 0 && s[|s| - 1] == '\0' then TrimNuls(s[..|s| - 1]) else s
  }

  // ---------------------------------------------------------------- CDL

  /** What follows `\n` in the classic formats: close the string and continue on a new line. */
  const CONTINUATION: string := "\",\n\t\t\t\""

  function OctalDigit(d: nat): (c: char)
    requires d < 8
  {
    DigitChar(d)
  }

  /** printf("%03o") of a byte. */
  function Octal3(c: char): (r: string)
    requires (c as int) < 256
    ensures |r| == 3
  {
    var v := c as int;
    [OctalDigit(v / 64), OctalDigit(v / 8 % 8), OctalDigit(v % 8)]
  }

  /** The CDL text for one byte of a string attribute in a file of format `kind`. */
  function CdlChar(kind: Format, c: char): (r: string)
    ensures |r| > 0
  {
    if c == BACKSPACE then "\\b"
    else if c == FORMFEED then "\\f"
    else if c == '\n' then (if kind != Netcdf4 then "\\n" + CONTINUATION else "\\n")
    else if c == '\r' then "\\r"
    else if c == '\t' then "\\t"
    else if c == VTAB then "\\v"
    else if c == '\\' then "\\\\"
    else if c == '\'' then "\\'"
    else if c == '"' then "\\\""
    else if IsCntrl(c) then "\\" + Octal3(c)
    else [c]
  }

  function CdlBody(kind: Format, s: string): string
    decreases |s|
  {
    if |s| == 0 then "" else CdlChar(kind, s[0]) + CdlBody(kind, s[1..])
  }

  lemma {:induction false} CdlBodyConcat(kind: Format, a: string, b: string)
    ensures CdlBody(kind, a + b) == CdlBody(kind, a) + CdlBody(kind, b)
    decreases |a|
  {
    if |a| > 0 {
      assert (a + b)[1..] == a[1..] + b;
      CdlBodyConcat(kind, a[1..], b);
    } else {
      assert a + b == b;
    }
  }

  /**
   * pr_att_string: the attribute's bytes, trailing NULs dropped, escaped
   * and wrapped in double quotes. The loop mirrors the printing loop.
   */
  method PrAttString(kind: Format, s: string) returns (r: string)
    ensures r == "\"" + CdlBody(kind, TrimNuls(s)) + "\""
  {
    var t := TrimNuls(s);
    var out := "";
    var i := 0;
    while i < |t|
      invariant 0 <= i <= |t|
      invariant out == CdlBody(kind, t[..i])
    {
      CdlBodyConcat(kind, t[..i], [t[i]]);
      assert t[..i + 1] == t[..i] + [t[i]];
      assert CdlBody(kind, [t[i]]) == CdlChar(kind, t[i]) + CdlBody(kind, [t[i]][1..]);
      out := out + CdlChar(kind, t[i]);
      i := i + 1;
    }
    assert t[..|t|] == t;
    r := "\"" + out + "\"";
  }

  function Cons(c: char, r: Option<string>): Option<string>
  {
    if r.Some? then Some([c] + r.value) else None
  }

  predicate IsOctal(c: char) { '0' <= c <= '7' }

  /** The byte a simple (non-octal) backslash escape stands for. */
  function SimpleEscape(e: char): Option<char>
  {
    if e == 'b' then Some(BACKSPACE)
    else if e == 'f' then Some(FORMFEED)
    else if e == 'n' then Some('\n')
    else if e == 'r' then Some('\r')
    else if e == 't' then Some('\t')
    else if e == 'v' then Some(VTAB)
    else if e == '\\' then Some('\\')
    else if e == '\'' then Some('\'')
    else if e == '"' then Some('"')
    else None
  }

  /**
   * Reading the inside of a CDL string back: backslash escapes, three-digit
   * octal escapes, and the `",<newline><tabs>"` that joins two string
   * pieces of one attribute. None for text the printer never writes.
   */
  function CdlDecode(t: string): (r: Option<string>)
    decreases |t|
  {
    if |t| == 0 then Some("")
    else if t[0] == '\\' then
      if |t| >= 4 && IsOctal(t[1]) && IsOctal(t[2]) && IsOctal(t[3]) then
        var v := DigitValue(t[1]) * 64 + DigitValue(t[2]) * 8 + DigitValue(t[3]);
        Cons(v as char, CdlDecode(t[4..]))
      else if |t| >= 2 && SimpleEscape(t[1]).Some? then
        Cons(SimpleEscape(t[1]).value, CdlDecode(t[2..]))
      else None
    else if t[0] == '"' then
      if |t| >= |CONTINUATION| && t[..|CONTINUATION|] == CONTINUATION then CdlDecode(t[|CONTINUATION|..])
      else None
    else Cons(t[0], CdlDecode(t[1..]))
  }

  /** Decoding the text of one byte gives that byte, whatever follows. */
  lemma CdlCharDecode(kind: Format, c: char, rest: string)
    ensures CdlDecode(CdlChar(kind, c) + rest) == Cons(c, CdlDecode(rest))
  {
    var u := CdlChar(kind, c) + rest;
    if c == '\n' && kind != Netcdf4 {
      var w := CONTINUATION + rest;
      assert u == "\\n" + w;
      assert u[2..] == w;
      assert w[..|CONTINUATION|] == CONTINUATION && w[|CONTINUATION|..] == rest;
    } else if c == BACKSPACE || c == FORMFEED || c == '\n' || c == '\r' || c == '\t' || c == VTAB
      || c == '\\' || c == '\'' || c == '"' {
      assert u[2..] == rest;
    } else if IsCntrl(c) {
      OctalControl(c, rest);
    } else {
      assert u[1..] == rest;
    }
  }

  lemma OctalControl(c: char, rest: string)
    requires IsCntrl(c)
    ensures CdlDecode("\\" + Octal3(c) + rest) == Cons(c, CdlDecode(rest))
  {
    var u := "\\" + Octal3(c) + rest;
    var v := c as int;
    assert u[1] == OctalDigit(v / 64) && u[2] == OctalDigit(v / 8 % 8) && u[3] == OctalDigit(v % 8);
    assert (v / 64) * 64 + (v / 8 % 8) * 8 + v % 8 == v;
    assert u[4..] == rest;
  }

  /** The decoder reads the printer's body back exactly. */
  lemma {:induction false} CdlRoundTrip(kind: Format, s: string)
    ensures CdlDecode(CdlBody(kind, s)) == Some(s)
    decreases |s|
  {
    if |s| > 0 {
      CdlCharDecode(kind, s[0], CdlBody(kind, s[1..]));
      CdlRoundTrip(kind, s[1..]);
      assert [s[0]] + s[1..] == s;
    }
  }

  /** ncgen recovers the attribute, trailing NULs dropped, from what pr_att_string prints. */
  lemma PrAttStringRoundTrip(kind: Format, s: string, printed: string)
    requires printed == "\"" + CdlBody(kind, TrimNuls(s)) + "\""
    ensures |printed| >= 2 && printed[0] == '"' && printed[|printed| - 1] == '"'
    ensures CdlDecode(printed[1..|printed| - 1]) == Some(TrimNuls(s))
  {
    assert printed[1..|printed| - 1] == CdlBody(kind, TrimNuls(s));
    CdlRoundTrip(kind, TrimNuls(s));
  }

  // ---------------------------------------------------------------- NcML

  /** The NcML text for one byte of a string attribute. */
  function XmlChar(c: char): (r: string)
    ensures |r| > 0
  {
    if c == '"' then "&quot;"
    else if c == '<' then "&lt;"
    else if c == '>' then "&gt;"
    else if c == '&' then "&amp;"
    else if c == '\n' then "&#xA;"
    else if c == '\r' then "&#xD;"
    else if c == '\t' then "&#x9;"
    else if c == '\0' then "&#0;"
    else if IsCntrl(c) then "&#" + NatToDecimal(c as int) + ";"
    else [c]
  }

  function XmlBody(s: string): string
    decreases |s|
  {
    if |s| == 0 then "" else XmlChar(s[0]) + XmlBody(s[1..])
  }

  lemma {:induction false} XmlBodyConcat(a: string, b: string)
    ensures XmlBody(a + b) == XmlBody(a) + XmlBody(b)
    decreases |a|
  {
    if |a| > 0 {
      assert (a + b)[1..] == a[1..] + b;
      XmlBodyConcat(a[1..], b);
    } else {
      assert a + b == b;
    }
  }

  /** The quoted value and the number of "producing illegal xml" warnings written to stderr. */
  datatype XmlText = XmlText(text: string, warnings: nat)

  predicate HasNul(s: string)
  {
    exists i :: 0 <= i < |s| && s[i] == '\0'
  }

  /**
   * pr_attx_string: trailing NULs dropped, the rest escaped and quoted; an
   * interior NUL is written as `&#0;` and reported once however many there
   * are. The other control bytes below 0x20 apart from tab, line feed and
   * carriage return become `&#1;` to `&#31;` without a warning, although
   * XML 1.0 (section 2.2) allows none of these references either.
   */
  method PrAttxString(s: string) returns (r: XmlText)
    ensures r.text == "\"" + XmlBody(TrimNuls(s)) + "\""
    ensures r.warnings <= 1
    ensures r.warnings == 1 <==> HasNul(TrimNuls(s))
  {
    var t := TrimNuls(s);
    var out := "";
    var nulcount := 0;
    var warnings := 0;
    var i := 0;
    while i < |t|
      invariant 0 <= i <= |t|
      invariant out == XmlBody(t[..i])
      invariant nulcount > 0 <==> HasNul(t[..i])
      invariant warnings == (if nulcount > 0 then 1 else 0)
    {
      XmlBodyConcat(t[..i], [t[i]]);
      assert t[..i + 1] == t[..i] + [t[i]];
      assert XmlBody([t[i]]) == XmlChar(t[i]) + XmlBody([t[i]][1..]);
      HasNulSnoc(t, i);
      if t[i] == '\0' {
        if nulcount == 0 {
          warnings := warnings + 1;
        }
        nulcount := nulcount + 1;
      }
      out := out + XmlChar(t[i]);
      i := i + 1;
    }
    assert t[..|t|] == t;
    r := XmlText("\"" + out + "\"", warnings);
  }

  lemma HasNulSnoc(t: string, i: nat)
    requires i < |t|
    ensures HasNul(t[..i + 1]) <==> HasNul(t[..i]) || t[i] == '\0'
  {
    if HasNul(t[..i]) {
      var k :| 0 <= k < i && t[..i][k] == '\0';
      assert t[..i + 1][k] == '\0';
    }
    if t[i] == '\0' {
      assert t[..i + 1][i] == '\0';
    }
    if HasNul(t[..i + 1]) && t[i] != '\0' {
      var k :| 0 <= k < i + 1 && t[..i + 1][k] == '\0';
      assert t[..i][k] == '\0';
    }
  }

  predicate StartsWith(t: string, p: string)
  {
    |p| <= |t| && t[..|p|] == p
  }

  /** A reference that opens a text: the character it stands for and its length. */
  datatype Ref = Ref(c: char, len: nat)

  /** The five references the printer writes by name or in hexadecimal, then decimal character references. */
  function Reference(t: string): (r: Option<Ref>)
    ensures r.Some? ==> 0 < r.value.len <= |t|
  {
    if StartsWith(t, "&quot;") then Some(Ref('"', 6))
    else if StartsWith(t, "&lt;") then Some(Ref('<', 4))
    else if StartsWith(t, "&gt;") then Some(Ref('>', 4))
    else if StartsWith(t, "&amp;") then Some(Ref('&', 5))
    else if StartsWith(t, "&#xA;") then Some(Ref('\n', 5))
    else if StartsWith(t, "&#xD;") then Some(Ref('\r', 5))
    else if StartsWith(t, "&#x9;") then Some(Ref('\t', 5))
    else if StartsWith(t, "&#") then DecimalReference(t)
    else None
  }

  /** `&#<digits>;` naming a code below the surrogates. */
  function DecimalReference(t: string): (r: Option<Ref>)
    requires StartsWith(t, "&#")
    ensures r.Some? ==> 0 < r.value.len <= |t|
  {
    var k := DigitRun(t, 2);
    if k > 0 && 2 + k < |t| && t[2 + k] == ';' && RunValue(t, 2) < 0xD800 then
      Some(Ref(RunValue(t, 2) as char, 3 + k))
    else None
  }

  /** Reading an NcML attribute value back; None for a bare `<` or `"` or an unknown reference. */
  function XmlDecode(t: string): (r: Option<string>)
    decreases |t|
  {
    if |t| == 0 then Some("")
    else if t[0] == '&' then
      match Reference(t)
      case None => None
      case Some(ref) => Cons(ref.c, XmlDecode(t[ref.len..]))
    else if t[0] == '<' || t[0] == '"' then None
    else Cons(t[0], XmlDecode(t[1..]))
  }

  /** A decimal character reference reads as the code it names. */
  lemma DecimalReferenceOf(v: nat, rest: string)
    requires v < 0xD800
    ensures Reference("&#" + NatToDecimal(v) + ";" + rest) == Some(Ref(v as char, 3 + |NatToDecimal(v)|))
  {
    var d := NatToDecimal(v);
    var t := "&#" + d + ";" + rest;
    var u := d + (";" + rest);
    assert t == "&#" + u;
    RunOfDecimal(d, ";" + rest);
    DecimalRoundTrip(v);
    ShiftRun(u);
    assert t[2 + |d|] == ';';
    assert t[..2] == "&#";
    assert t[1] == '#' && IsDigit(t[2]);
    NotNamed(t);
    assert DecimalReference(t) == Some(Ref(v as char, 3 + |d|));
  }

  /** A text whose second character is '#' and third is a digit opens none of the named references. */
  lemma NotNamed(t: string)
    requires |t| >= 3 && t[1] == '#' && IsDigit(t[2])
    ensures !StartsWith(t, "&quot;") && !StartsWith(t, "&lt;") && !StartsWith(t, "&gt;") && !StartsWith(t, "&amp;")
    ensures !StartsWith(t, "&#xA;") && !StartsWith(t, "&#xD;") && !StartsWith(t, "&#x9;")
  {
    assert |t| >= 4 ==> t[..4][1] == '#';
    assert |t| >= 5 ==> t[..5][1] == '#' && IsDigit(t[..5][2]);
    assert |t| >= 6 ==> t[..6][1] == '#';
  }

  /** Behind "&#" a digit run and its value are those of the text after it. */
  lemma ShiftRun(u: string)
    ensures DigitRun("&#" + u, 2) == DigitRun(u, 0)
    ensures RunValue("&#" + u, 2) == RunValue(u, 0)
  {
    ShiftRunFrom(u, 0);
    var k := DigitRun(u, 0);
    assert ("&#" + u)[2..2 + k] == u[0..k];
  }

  lemma {:induction false} ShiftRunFrom(u: string, i: nat)
    ensures DigitRun("&#" + u, i + 2) == DigitRun(u, i)
    decreases |u| - i
  {
    if i < |u| {
      assert ("&#" + u)[i + 2] == u[i];
      if IsDigit(u[i]) {
        ShiftRunFrom(u, i + 1);
      }
    }
  }

  /** Every escaped character opens with a reference of exactly its own length. */
  lemma XmlCharReference(c: char, rest: string)
    requires c == '"' || c == '<' || c == '>' || c == '&' || c == '\n' || c == '\r' || c == '\t' || IsCntrl(c)
    ensures Reference(XmlChar(c) + rest) == Some(Ref(c, |XmlChar(c)|))
  {
    var u := XmlChar(c) + rest;
    assert u[..|XmlChar(c)|] == XmlChar(c);
    if c == '"' {
    } else if c == '<' {
      assert !StartsWith(u, "&quot;") by { assert u[1] == 'l'; }
    } else if c == '>' {
      assert !StartsWith(u, "&quot;") && !StartsWith(u, "&lt;") by { assert u[1] == 'g'; }
    } else if c == '&' {
      assert !StartsWith(u, "&quot;") && !StartsWith(u, "&lt;") && !StartsWith(u, "&gt;") by { assert u[1] == 'a'; }
    } else if c == '\n' || c == '\r' || c == '\t' {
      assert u[1] == '#' && u[2] == 'x' && u[3] == XmlChar(c)[3];
      assert !StartsWith(u, "&quot;") && !StartsWith(u, "&lt;") && !StartsWith(u, "&gt;") && !StartsWith(u, "&amp;");
    } else if c == '\0' {
      assert XmlChar(c) + rest == "&#" + NatToDecimal(0) + ";" + rest;
      DecimalReferenceOf(0, rest);
    } else {
      assert XmlChar(c) + rest == "&#" + NatToDecimal(c as int) + ";" + rest;
      DecimalReferenceOf(c as int, rest);
    }
  }

  lemma XmlCharDecode(c: char, rest: string)
    ensures XmlDecode(XmlChar(c) + rest) == Cons(c, XmlDecode(rest))
  {
    var u := XmlChar(c) + rest;
    if c == '"' || c == '<' || c == '>' || c == '&' || c == '\n' || c == '\r' || c == '\t' || IsCntrl(c) {
      XmlCharReference(c, rest);
      assert u[0] == '&';
      assert u[|XmlChar(c)|..] == rest;
    } else {
      assert u[1..] == rest;
    }
  }

  lemma {:induction false} XmlRoundTrip(s: string)
    ensures XmlDecode(XmlBody(s)) == Some(s)
    decreases |s|
  {
    if |s| > 0 {
      XmlCharDecode(s[0], XmlBody(s[1..]));
      XmlRoundTrip(s[1..]);
      assert [s[0]] + s[1..] == s;
    }
  }

  /** An XML reader recovers the attribute, trailing NULs dropped, from what pr_attx_string prints. */
  lemma PrAttxStringRoundTrip(s: string, printed: XmlText)
    requires printed.text == "\"" + XmlBody(TrimNuls(s)) + "\""
    ensures XmlDecode(printed.text[1..|printed.text| - 1]) == Some(TrimNuls(s))
  {
    assert printed.text[1..|printed.text| - 1] == XmlBody(TrimNuls(s));
    XmlRoundTrip(TrimNuls(s));
  }

  /**
   * The body holds no `<` and no `"`, so it cannot end the attribute or
   * open an element. It is not always well-formed XML 1.0: the references
   * to control bytes below 0x20 other than tab, line feed and carriage
   * return name characters that section 2.2 excludes.
   */
  lemma {:induction false} XmlBodyNoMarkup(s: string, i: nat)
    requires i < |XmlBody(s)|
    ensures XmlBody(s)[i] != '<' && XmlBody(s)[i] != '"'
    decreases |s|
  {
    var head := XmlChar(s[0]);
    assert XmlBody(s) == head + XmlBody(s[1..]);
    if i < |head| {
      XmlCharNoMarkup(s[0], i);
    } else {
      XmlBodyNoMarkup(s[1..], i - |head|);
    }
  }

  lemma XmlCharNoMarkup(c: char, i: nat)
    requires i < |XmlChar(c)|
    ensures XmlChar(c)[i] != '<' && XmlChar(c)[i] != '"'
  {
    if IsCntrl(c) && !(c == '\n' || c == '\r' || c == '\t' || c == '\0') {
      var d := NatToDecimal(c as int);
      if 2 <= i < 2 + |d| {
        assert XmlChar(c)[i] == d[i - 2];
        assert IsDigit(d[i - 2]);
      }
    }
  }
}

=== FILE: ncdump_groups.dfy ===
/**
 * How ncdump finds the group that holds a dimension: the per-group check
 * (searchgroupdim), the breadth-first search of a group tree
 * (searchgrouptreedim), and the walk up the ancestors that decides whether
 * a variable's dimension is printed by its simple or its group-qualified
 * name.
 */
module NcGroups {
  import opened Basics
  import opened CText

  /**
   * A group as the netCDF inquiry calls see it: its id, the dimension ids
   * nc_inq_dimids reports (or the status it fails with), and the subgroups
   * nc_inq_grps reports (or the status it fails with).
   */
  datatype Group = Group(id: int, dims: seq<int>, dimsStatus: NcErr, children: seq<Group>, grpsStatus: NcErr)

  /** The outcome of a tree search: the enclosing group, NC_EBADDIM, or another failure. */
  datatype TreeResult = Found(gid: int) | NotFound | Failed(err: NcErr)

  // ------------------------------------------------------- searchgroupdim

  /**
   * searchgroupdim as written: the loop that finds the id jumps to the exit
   * with the status still NC_NOERR, and so does the loop that runs out, so
   * any group with at least one dimension reports a match.
   */
  function SearchGroupDimAsWritten(g: Group, dimid: int): (r: NcErr)
    ensures g.dimsStatus != NoErr ==> r == g.dimsStatus
    ensures g.dimsStatus == NoErr ==> (r == NoErr <==> |g.dims| > 0)
  {
    if g.dimsStatus != NoErr then g.dimsStatus
    else if |g.dims| > 0 then NoErr
    else EBadDim
  }

  /** searchgroupdim as intended: NC_NOERR exactly when the group lists the id. */
  function SearchGroupDim(g: Group, dimid: int): (r: NcErr)
    ensures g.dimsStatus != NoErr ==> r == g.dimsStatus
    ensures g.dimsStatus == NoErr ==> (r == NoErr <==> dimid in g.dims)
    ensures g.dimsStatus == NoErr ==> (r == EBadDim <==> dimid !in g.dims)
  {
    if g.dimsStatus != NoErr then g.dimsStatus
    else if dimid in g.dims then NoErr
    else EBadDim
  }

  // -------------------------------------------------- searchgrouptreedim

  function Size(g: Group): nat
    decreases g
  {
    1 + SizeAll(g.children)
  }

  function SizeAll(gs: seq<Group>): nat
    decreases gs
  {
    if |gs| == 0 then 0 else Size(gs[0]) + SizeAll(gs[1..])
  }

  lemma {:induction false} SizeAllAppend(a: seq<Group>, b: seq<Group>)
    ensures SizeAll(a + b) == SizeAll(a) + SizeAll(b)
    decreases |a|
  {
    if |a| > 0 {
      assert (a + b)[0] == a[0];
      assert (a + b)[1..] == a[1..] + b;
      SizeAllAppend(a[1..], b);
    } else {
      assert a + b == b;
    }
  }

  /** Replacing the front group by its subgroups shrinks the queue by one group. */
  lemma QueueStep(q: seq<Group>)
    requires |q| > 0
    ensures SizeAll(q[1..] + q[0].children) == SizeAll(q) - 1
  {
    SizeAllAppend(q[1..], q[0].children);
    assert Size(q[0]) == 1 + SizeAll(q[0].children);
  }

  /**
   * The queue loop of searchgrouptreedim: take the front group, check it,
   * and on NC_EBADDIM append its subgroups to the back. `asWritten`
   * selects the per-group check.
   */
  function Search(q: seq<Group>, dimid: int, asWritten: bool): (r: TreeResult)
    ensures r.Failed? ==> r.err != NoErr
    ensures |q| == 0 ==> r == NotFound
    decreases SizeAll(q)
  {
    if |q| == 0 then NotFound
    else
      var g := q[0];
      var st := if asWritten then SearchGroupDimAsWritten(g, dimid) else SearchGroupDim(g, dimid);
      if st == NoErr then Found(g.id)
      else if st != EBadDim then Failed(st)
      else if g.grpsStatus != NoErr then Failed(g.grpsStatus)
      else
        QueueStep(q);
        Search(q[1..] + g.children, dimid, asWritten)
  }

  /** Every inquiry on every group of the tree succeeds. */
  ghost predicate Healthy(g: Group)
    decreases g
  {
    g.dimsStatus == NoErr && g.grpsStatus == NoErr
    && forall i :: 0 <= i < |g.children| ==> Healthy(g.children[i])
  }

  /**
   * What the per-group check accepts in a healthy group: as intended, a
   * group that lists the id; as written, a group with any dimension at all.
   */
  predicate Accepts(g: Group, dimid: int, asWritten: bool)
  {
    if asWritten then |g.dims| > 0 else dimid in g.dims
  }

  /** Some group of the tree is accepted by the check. */
  ghost predicate TreeHas(g: Group, dimid: int, asWritten: bool)
    decreases g
  {
    Accepts(g, dimid, asWritten) || exists i :: 0 <= i < |g.children| && TreeHas(g.children[i], dimid, asWritten)
  }

  /** The group with id `gid`, somewhere in the tree, is accepted by the check. */
  ghost predicate HasGroupWith(g: Group, gid: int, dimid: int, asWritten: bool)
    decreases g
  {
    (g.id == gid && Accepts(g, dimid, asWritten))
    || exists i :: 0 <= i < |g.children| && HasGroupWith(g.children[i], gid, dimid, asWritten)
  }

  ghost predicate QueueHas(q: seq<Group>, dimid: int, asWritten: bool)
  {
    exists i :: 0 <= i < |q| && TreeHas(q[i], dimid, asWritten)
  }

  ghost predicate QueueHasGroupWith(q: seq<Group>, gid: int, dimid: int, asWritten: bool)
  {
    exists i :: 0 <= i < |q| && HasGroupWith(q[i], gid, dimid, asWritten)
  }

  /** A queue step keeps the set of trees searched when the front group is not accepted. */
  lemma QueueHasStep(q: seq<Group>, dimid: int, asWritten: bool)
    requires |q| > 0 && !Accepts(q[0], dimid, asWritten)
    ensures QueueHas(q, dimid, asWritten) <==> QueueHas(q[1..] + q[0].children, dimid, asWritten)
  {
    var g := q[0];
    var q' := q[1..] + g.children;
    if QueueHas(q', dimid, asWritten) {
      var i :| 0 <= i < |q'| && TreeHas(q'[i], dimid, asWritten);
      if i < |q| - 1 {
        assert q'[i] == q[i + 1];
      } else {
        assert q'[i] == g.children[i - |q| + 1];
        assert TreeHas(q[0], dimid, asWritten);
      }
    }
    if QueueHas(q, dimid, asWritten) {
      var i :| 0 <= i < |q| && TreeHas(q[i], dimid, asWritten);
      if i > 0 {
        assert q'[i - 1] == q[i];
      } else {
        var c :| 0 <= c < |g.children| && TreeHas(g.children[c], dimid, asWritten);
        assert q'[|q| - 1 + c] == g.children[c];
      }
    }
  }

  /** A group found in the queue after a step was already in the queued trees before it. */
  lemma QueueHasGroupWithStep(q: seq<Group>, gid: int, dimid: int, asWritten: bool)
    requires |q| > 0 && QueueHasGroupWith(q[1..] + q[0].children, gid, dimid, asWritten)
    ensures QueueHasGroupWith(q, gid, dimid, asWritten)
  {
    var q' := q[1..] + q[0].children;
    var i :| 0 <= i < |q'| && HasGroupWith(q'[i], gid, dimid, asWritten);
    if i < |q| - 1 {
      assert q'[i] == q[i + 1];
    } else {
      assert q'[i] == q[0].children[i - |q| + 1];
      assert HasGroupWith(q[0], gid, dimid, asWritten);
    }
  }

  /**
   * With every inquiry succeeding, the search fails only when no group in
   * the queued trees is accepted by the per-group check, and what it finds
   * is a group that is accepted. As intended, that is a group listing the id.
   */
  lemma {:induction false} SearchFindsIff(q: seq<Group>, dimid: int, asWritten: bool)
    requires forall i :: 0 <= i < |q| ==> Healthy(q[i])
    ensures !Search(q, dimid, asWritten).Failed?
    ensures Search(q, dimid, asWritten).NotFound? <==> !QueueHas(q, dimid, asWritten)
    ensures Search(q, dimid, asWritten).Found? ==> QueueHasGroupWith(q, Search(q, dimid, asWritten).gid, dimid, asWritten)
    decreases SizeAll(q)
  {
    if |q| > 0 {
      var g := q[0];
      if Accepts(g, dimid, asWritten) {
        assert HasGroupWith(q[0], g.id, dimid, asWritten);
        assert TreeHas(q[0], dimid, asWritten);
      } else {
        var q' := q[1..] + g.children;
        QueueStep(q);
        forall i | 0 <= i < |q'| ensures Healthy(q'[i]) {
          if i < |q| - 1 { assert q'[i] == q[i + 1]; } else { assert q'[i] == g.children[i - |q| + 1]; }
        }
        SearchFindsIff(q', dimid, asWritten);
        assert Search(q, dimid, asWritten) == Search(q', dimid, asWritten);
        QueueHasStep(q, dimid, asWritten);
        var r := Search(q', dimid, asWritten);
        if r.Found? {
          QueueHasGroupWithStep(q, r.gid, dimid, asWritten);
        }
      }
    }
  }

  /**
   * Breadth-first order: a group queued ahead of the others wins over any
   * group queued behind it and over all their subgroups.
   */
  lemma {:induction false} FirstQueuedWins(q: seq<Group>, dimid: int, k: nat)
    requires k < |q| && q[k].dimsStatus == NoErr && dimid in q[k].dims
    requires forall j :: 0 <= j < k ==> q[j].dimsStatus == NoErr && q[j].grpsStatus == NoErr && dimid !in q[j].dims
    ensures Search(q, dimid, false) == Found(q[k].id)
    decreases k
  {
    if k > 0 {
      var q' := q[1..] + q[0].children;
      assert Search(q, dimid, false) == Search(q', dimid, false);
      forall j | 0 <= j < k - 1
        ensures q'[j].dimsStatus == NoErr && q'[j].grpsStatus == NoErr && dimid !in q'[j].dims
      {
        assert q'[j] == q[j + 1];
      }
      assert q'[k - 1] == q[k];
      FirstQueuedWins(q', dimid, k - 1);
    }
  }

  lemma SearchFromRoot(root: Group, dimid: int, asWritten: bool)
    requires Healthy(root)
    ensures var r := Search([root], dimid, asWritten);
      !r.Failed? && (r.NotFound? <==> !TreeHas(root, dimid, asWritten))
      && (r.Found? ==> HasGroupWith(root, r.gid, dimid, asWritten))
  {
    SearchFindsIff([root], dimid, asWritten);
    if QueueHas([root], dimid, asWritten) {
      var i :| 0 <= i < 1 && TreeHas([root][i], dimid, asWritten);
    }
    var r := Search([root], dimid, asWritten);
    if r.Found? {
      var i :| 0 <= i < 1 && HasGroupWith([root][i], r.gid, dimid, asWritten);
    }
  }

  /** searchgrouptreedim: the search primed with the root alone. */
  function SearchGroupTreeDim(root: Group, dimid: int): (r: TreeResult)
    ensures Healthy(root) ==> !r.Failed?
    ensures Healthy(root) ==> (r.NotFound? <==> !TreeHas(root, dimid, false))
    ensures Healthy(root) && r.Found? ==> HasGroupWith(root, r.gid, dimid, false)
  {
    var r := Search([root], dimid, false);
    assert Healthy(root) ==>
      !r.Failed? && (r.NotFound? <==> !TreeHas(root, dimid, false)) && (r.Found? ==> HasGroupWith(root, r.gid, dimid, false)) by {
      if Healthy(root) { SearchFromRoot(root, dimid, false); }
    }
    r
  }

  /**
   * The same search with the per-group check as written: on a healthy tree
   * it finds nothing only when no group has any dimension, and otherwise
   * names a group with some dimension, whichever id was asked for.
   */
  function SearchGroupTreeDimAsWritten(root: Group, dimid: int): (r: TreeResult)
    ensures root.dimsStatus == NoErr && |root.dims| > 0 ==> r == Found(root.id)
    ensures Healthy(root) ==> !r.Failed?
    ensures Healthy(root) ==> (r.NotFound? <==> !TreeHas(root, dimid, true))
    ensures Healthy(root) && r.Found? ==> HasGroupWith(root, r.gid, dimid, true)
  {
    var r := Search([root], dimid, true);
    assert Healthy(root) ==>
      !r.Failed? && (r.NotFound? <==> !TreeHas(root, dimid, true)) && (r.Found? ==> HasGroupWith(root, r.gid, dimid, true)) by {
      if Healthy(root) { SearchFromRoot(root, dimid, true); }
    }
    r
  }

  /**
   * The check as written answers for the root whenever the root has any
   * dimension: here it names group 0, which does not hold dimension 7,
   * where the intended search names subgroup 1, which does.
   */
  lemma SearchAsWrittenNamesWrongGroup()
    ensures var root := Group(0, [1], NoErr, [Group(1, [7], NoErr, [], NoErr)], NoErr);
      7 !in root.dims
      && SearchGroupTreeDimAsWritten(root, 7) == Found(0)
      && SearchGroupTreeDim(root, 7) == Found(1)
  {
    var child := Group(1, [7], NoErr, [], NoErr);
    var root := Group(0, [1], NoErr, [child], NoErr);
    assert [root][1..] + root.children == [child];
    FirstQueuedWins([child], 7, 0);
  }

  // ------------------------------------------- qualified dimension names

  /** What nc_inq_dimid answers for the dimension's simple name in one group. */
  datatype DimLookup = Match(localId: int) | NoMatch | LookupError(err: NcErr)

  /** One group on the way from the variable's group up to the root. */
  datatype WalkGroup = WalkGroup(gid: int, lookup: DimLookup)

  /** How the walk ends if it never stops: at the root, or at a failing nc_inq_grp_parent. */
  datatype ChainEnd = AtRoot | ParentFailed(err: NcErr)

  /**
   * How the dimension is printed: by its simple name, prefixed with the
   * full name of group `gid`, or not at all because error() exits.
   */
  datatype DimQualifier = Simple | Qualified(gid: int) | Fatal(err: NcErr)

  /** The group's lookup neither stops the walk nor fails it. */
  predicate Passes(w: WalkGroup, target: int)
  {
    w.lookup.NoMatch? || (w.lookup.Match? && w.lookup.localId != target)
  }

  /** The walk stops at step i because the name there is the target's. */
  predicate FoundAt(chain: seq<WalkGroup>, target: int, i: int)
  {
    0 <= i < |chain| && chain[i].lookup == Match(target)
    && forall j :: 0 <= j < i ==> Passes(chain[j], target)
  }

  /**
   * The ancestor walk for one dimension of a variable. The simple name is
   * enough when the first group whose name lookup matches holds the target
   * id and no nearer group has a different dimension of that name; a nearer
   * namesake forces the qualified name of the group found; when no ancestor
   * holds the id, the whole tree under the root is searched and the group
   * found qualifies the name. `asWritten` selects the tree search: as
   * written, it names the root whenever the root has any dimension.
   */
  method QualifyDim(chain: seq<WalkGroup>, end: ChainEnd, target: int, root: Group, asWritten: bool)
    returns (r: DimQualifier)
    ensures r == Simple <==> exists i :: FoundAt(chain, target, i) && forall j :: 0 <= j < i ==> chain[j].lookup.NoMatch?
    ensures forall i :: FoundAt(chain, target, i) ==> r == Simple || r == Qualified(chain[i].gid)
    ensures forall i :: FoundAt(chain, target, i) && (exists j :: 0 <= j < i && chain[j].lookup.Match?) ==> r == Qualified(chain[i].gid)
    ensures (forall j :: 0 <= j < |chain| ==> Passes(chain[j], target)) ==>
      r == (if end.ParentFailed? then Fatal(end.err)
            else match Search([root], target, asWritten)
                 case Found(g) => Qualified(g)
                 case NotFound => Fatal(EBadDim)
                 case Failed(e) => Fatal(e))
    ensures (forall j :: 0 <= j < |chain| ==> Passes(chain[j], target)) && end.AtRoot? && Healthy(root) ==>
      (r.Fatal? <==> !TreeHas(root, target, asWritten))
    ensures (forall j :: 0 <= j < |chain| ==> Passes(chain[j], target)) && end.AtRoot? && Healthy(root) && r.Qualified? ==>
      HasGroupWith(root, r.gid, target, asWritten)
    ensures asWritten && end.AtRoot? && root.dimsStatus == NoErr && |root.dims| > 0
            && (forall j :: 0 <= j < |chain| ==> Passes(chain[j], target)) ==>
      r == Qualified(root.id)
  {
    var i := 0;
    var duplicate := false;
    while i < |chain|
      invariant 0 <= i <= |chain|
      invariant forall j :: 0 <= j < i ==> Passes(chain[j], target)
      invariant duplicate <==> exists j :: 0 <= j < i && chain[j].lookup.Match?
    {
      match chain[i].lookup {
        case Match(d) =>
          if d == target {
            assert FoundAt(chain, target, i);
            if duplicate {
              return Qualified(chain[i].gid);
            }
            return Simple;
          }
          duplicate := true;
        case NoMatch =>
        case LookupError(e) =>
          return Fatal(e);
      }
      i := i + 1;
    }
    if end.ParentFailed? {
      return Fatal(end.err);
    }
    var found := if asWritten then SearchGroupTreeDimAsWritten(root, target) else SearchGroupTreeDim(root, target);
    match found {
      case Found(g) => r := Qualified(g);
      case NotFound => r := Fatal(EBadDim);
      case Failed(e) => r := Fatal(e);
    }
  }

  /**
   * The printed prefix: the group's full name, then a '/' unless the group
   * is the root (whose full name is "/"), then the dimension's name.
   */
  function QualifiedDimName(grpFullName: string, dimName: string): string
  {
    if grpFullName == "/" then grpFullName + dimName else grpFullName + "/" + dimName
  }

  /** A full group name starts with '/' and, unless it is the root, does not end with one. */
  predicate IsGroupFullName(f: string)
  {
    |f| > 0 && f[0] == '/' && (f == "/" || f[|f| - 1] != '/')
  }

  /** The last '/' of a qualified name separates the group's full name from the dimension's. */
  lemma QualifiedDimNameSplit(grpFullName: string, dimName: string)
    requires IsGroupFullName(grpFullName)
    requires forall k :: 0 <= k < |dimName| ==> dimName[k] != '/'
    ensures var q := QualifiedDimName(grpFullName, dimName);
      LastIndexOf(q, '/').Some?
      && var k := LastIndexOf(q, '/').value;
         q[k + 1..] == dimName && (if k == 0 then "/" else q[..k]) == grpFullName
  {
    var q := QualifiedDimName(grpFullName, dimName);
    var k := if grpFullName == "/" then 0 else |grpFullName|;
    assert q[k] == '/';
    assert q[k + 1..] == dimName;
    assert forall j :: k < j < |q| ==> q[j] == dimName[j - k - 1];
    var m := LastIndexOf(q, '/');
    assert m == Some(k);
    if k > 0 {
      assert q[..k] == grpFullName;
    }
  }
}

=== FILE: ncdump_text.dfy ===
/**
 * ncdump's text helpers: trimming trailing zeros from a printed number
 * (tztrim), deriving the CDL unit name from a path (name_path), and the
 * -p / -d precision arguments (set_precision, set_sigdigs).
 */
module NcText {
  import opened Basics
  import opened CText

  // ------------------------------------------------------------- tztrim

  predicate IsNumberChar(c: char) { IsDigit(c) || c == '.' }

  /** Where the leading run of digits and points starts: after a leading '-'. */
  function RunStart(ss: string): (i: nat)
    ensures i <= |ss|
  {
    if |ss| > 0 && ss[0] == '-' then 1 else 0
  }

  /** The end of the run of digits and points that starts at `i`. */
  function RunEnd(ss: string, i: nat): (e: nat)
    requires i <= |ss|
    ensures i <= e <= |ss|
    ensures forall j :: i <= j < e ==> IsNumberChar(ss[j])
    ensures e < |ss| ==> !IsNumberChar(ss[e])
    decreases |ss| - i
  {
    if i < |ss| && IsNumberChar(ss[i]) then RunEnd(ss, i + 1) else i
  }

  /** A run end is determined by the characters: any index with the two properties is it. */
  lemma {:induction false} RunEndAt(ss: string, i: nat, e: nat)
    requires i <= e <= |ss|
    requires forall j :: i <= j < e ==> IsNumberChar(ss[j])
    requires e < |ss| ==> !IsNumberChar(ss[e])
    ensures RunEnd(ss, i) == e
    decreases e - i
  {
    if i < e {
      RunEndAt(ss, i + 1, e);
    }
  }

  /** The leading number run holds a decimal point, which bounds tztrim's backward walk. */
  ghost predicate HasPoint(ss: string)
  {
    exists j :: RunStart(ss) <= j < RunEnd(ss, RunStart(ss)) && ss[j] == '.'
  }

  /** The start of the block of '0's that ends just before `e`. */
  function ZeroStart(ss: string, e: nat): (k: nat)
    requires e <= |ss|
    ensures k <= e
    ensures forall j :: k <= j < e ==> ss[j] == '0'
    ensures k == 0 || ss[k - 1] != '0'
    decreases e
  {
    if e > 0 && ss[e - 1] == '0' then ZeroStart(ss, e - 1) else e
  }

  /**
   * The number with the zeros that end its leading run removed. Only '0's
   * are removed, all of them after the run's decimal point, which stays;
   * whatever follows the run (an exponent) is kept.
   */
  function Trimmed(ss: string): (r: string)
    requires HasPoint(ss)
    ensures var s0 := RunStart(ss); var e := RunEnd(ss, s0);
      exists k :: s0 < k <= e && r == ss[..k] + ss[e..]
        && (forall j :: k <= j < e ==> ss[j] == '0') && ss[k - 1] != '0'
  {
    var s0 := RunStart(ss);
    var e := RunEnd(ss, s0);
    var d :| s0 <= d < e && ss[d] == '.';
    var k := ZeroStart(ss, e);
    assert d < k;
    ss[..k] + ss[e..]
  }

  /** The forward walk over the run of digits and points. */
  method ScanRun(ss: string, i: nat) returns (e: nat)
    requires i <= |ss|
    ensures e == RunEnd(ss, i)
  {
    e := i;
    while e < |ss| && IsNumberChar(ss[e])
      invariant i <= e <= |ss|
      invariant RunEnd(ss, e) == RunEnd(ss, i)
      decreases |ss| - e
    {
      e := e + 1;
    }
  }

  /** The backward walk over zeros, which a non-zero at `d` stops. */
  method ScanZeros(ss: string, e: nat, ghost d: nat) returns (k: nat)
    requires d < e <= |ss| && ss[d] != '0'
    ensures k == ZeroStart(ss, e)
  {
    k := e;
    while ss[k - 1] == '0'
      invariant d < k <= e
      invariant ZeroStart(ss, k) == ZeroStart(ss, e)
      decreases k
    {
      k := k - 1;
    }
  }

  /**
   * tztrim: the pointer walk of the source. Forward over the sign and the
   * run; back one; stop if that is the point; else back over the zeros and
   * close the gap.
   */
  method TzTrim(ss: string) returns (r: string)
    requires HasPoint(ss)
    ensures r == Trimmed(ss)
  {
    var s0 := RunStart(ss);
    var e := ScanRun(ss, s0);
    ghost var d :| s0 <= d < e && ss[d] == '.';
    if ss[e - 1] == '.' {
      assert ZeroStart(ss, e) == e;
      assert ss[..e] + ss[e..] == ss;
      return ss;
    }
    var k := ScanZeros(ss, e, d);
    if k == e {
      assert ss[..e] + ss[e..] == ss;
      return ss;
    }
    r := ss[..k] + ss[e..];
  }

  /** A number whose run already ends in a non-zero is left as it is. */
  lemma TrimmedUnchanged(r: string)
    requires HasPoint(r)
    requires var e := RunEnd(r, RunStart(r)); 0 < e && r[e - 1] != '0'
    ensures Trimmed(r) == r
  {
    var e := RunEnd(r, RunStart(r));
    assert ZeroStart(r, e) == e;
    assert r[..e] + r[e..] == r;
  }

  /** Trimming a trimmed number changes nothing. */
  lemma TrimmedIdempotent(ss: string)
    requires HasPoint(ss)
    ensures HasPoint(Trimmed(ss))
    ensures Trimmed(Trimmed(ss)) == Trimmed(ss)
  {
    var s0 := RunStart(ss);
    var e := RunEnd(ss, s0);
    var k := ZeroStart(ss, e);
    var d :| s0 <= d < e && ss[d] == '.';
    assert d < k;
    var r := ss[..k] + ss[e..];
    assert Trimmed(ss) == r;
    assert RunStart(r) == s0 by {
      assert r[0] == ss[0];
    }
    forall j | s0 <= j < k ensures IsNumberChar(r[j]) {
      assert r[j] == ss[j];
    }
    if k < |r| {
      assert r[k] == ss[e];
    }
    RunEndAt(r, s0, k);
    assert r[d] == ss[d];
    assert r[k - 1] == ss[k - 1];
    TrimmedUnchanged(r);
  }

  /** A value ending in zeros after the point loses them; the exponent stays. */
  lemma TrimmedKeepsExponent()
    ensures HasPoint("1.500e+01") && Trimmed("1.500e+01") == "1.5e+01"
  {
    var a := "1.500e+01";
    assert RunStart(a) == 0;
    RunEndAt(a, 0, 5);
    assert a[1] == '.';
    assert ZeroStart(a, 5) == 3 by {
      assert a[4] == '0' && a[3] == '0' && a[2] == '5';
    }
    assert a[..3] + a[5..] == "1.5e+01";
  }

  /** When only zeros follow the point, the point stays. */
  lemma TrimmedKeepsPoint()
    ensures HasPoint("-3.000") && Trimmed("-3.000") == "-3."
  {
    var b := "-3.000";
    assert b[0] == '-';
    assert RunStart(b) == 1;
    RunEndAt(b, 1, 6);
    assert b[2] == '.';
    assert ZeroStart(b, 6) == 3 by {
      assert b[5] == '0' && b[4] == '0' && b[3] == '0' && b[2] == '.';
    }
    assert b[..3] + b[6..] == "-3.";
  }

  // ---------------------------------------------------------- name_path

  predicate NoCharFrom(p: string, c: char, i: nat)
  {
    forall k :: i <= k < |p| ==> p[k] != c
  }

  /**
   * `r` is p[i..j]: i is just after the last '/', and j is the last '.'
   * after i, or the end when there is none.
   */
  predicate StemAt(p: string, r: string, i: nat, j: nat)
  {
    i <= j <= |p| && r == p[i..j]
    && (i == 0 || p[i - 1] == '/') && NoCharFrom(p, '/', i)
    && (if j == |p| then (forall k :: i <= k < j ==> p[k] != '.') else p[j] == '.' && NoCharFrom(p, '.', j + 1))
  }

  ghost predicate StemOf(p: string, r: string)
  {
    exists i: nat, j: nat :: StemAt(p, r, i, j)
  }

  /** A path has at most one stem. */
  lemma StemUnique(p: string, r1: string, r2: string)
    requires StemOf(p, r1) && StemOf(p, r2)
    ensures r1 == r2
  {
    var i1: nat, j1: nat :| StemAt(p, r1, i1, j1);
    var i2: nat, j2: nat :| StemAt(p, r2, i2, j2);
    assert i1 > 0 ==> p[i1 - 1] == '/';
    assert i2 > 0 ==> p[i2 - 1] == '/';
    assert i1 == i2;
    assert j1 < |p| ==> p[j1] == '.';
    assert j2 < |p| ==> p[j2] == '.';
    assert j1 == j2;
  }

  /** The stem as the source computes it: strrchr for '/', then strrchr for '.' in what follows. */
  function FileStem(p: string): (r: string)
    ensures StemOf(p, r)
  {
    var i := match LastIndexOf(p, '/') case None => 0 case Some(s) => s + 1;
    var comp := p[i..];
    match LastIndexOf(comp, '.')
    case None =>
      assert StemAt(p, comp, i, |p|) by {
        forall k | i <= k < |p| ensures p[k] != '.' { assert p[k] == comp[k - i]; }
      }
      comp
    case Some(d) =>
      assert StemAt(p, comp[..d], i, i + d) by {
        assert p[i + d] == comp[d];
        forall k | i + d + 1 <= k < |p| ensures p[k] != '.' { assert p[k] == comp[k - i]; }
      }
      comp[..d]
  }

  /**
   * name_path: None when canonicalisation fails; for a URL, the base the
   * URL parser derives; otherwise the stem of the canonical path.
   */
  function NamePath(canonical: Option<string>, urlBase: Option<string>): (r: Option<string>)
    ensures canonical.None? ==> r.None?
    ensures canonical.Some? && urlBase.Some? ==> r == urlBase
    ensures canonical.Some? && urlBase.None? ==> r.Some? && StemOf(canonical.value, r.value)
  {
    if canonical.None? then None
    else if urlBase.Some? then urlBase
    else Some(FileStem(canonical.value))
  }

  /** Only the last extension goes, with everything up to the last '/'. */
  lemma NamePathDropsLastExtension()
    ensures NamePath(Some("a/b.c.nc"), None) == Some("b.c")
  {
    var p := "a/b.c.nc";
    assert StemAt(p, "b.c", 2, 5) by { assert p[2..5] == "b.c"; }
    StemUnique(p, "b.c", FileStem(p));
  }

  /** A name that is all extension has an empty stem. */
  lemma NamePathLeadingDot()
    ensures NamePath(Some(".x"), None) == Some("")
  {
    var q := ".x";
    assert StemAt(q, "", 0, 0) by { assert q[0..0] == ""; }
    StemUnique(q, "", FileStem(q));
  }

  // -------------------------------------------------- -p and -d arguments

  /** The default significant digits for float and double data (FLT_DIGITS, DBL_DIGITS). */
  const FLT_DIGITS: int := 7
  const DBL_DIGITS: int := 15

  datatype Digits = Digits(floatDigits: int, doubleDigits: int, floatGiven: bool, doubleGiven: bool)

  /** Which value error() reports as unreasonable. */
  datatype DigitsError = FloatDigitsError(value: int) | DoubleDigitsError(value: int)

  datatype DigitsOutcome = Accepted(digits: Digits) | Unreasonable(err: DigitsError)

  predicate InRange(v: int) { 1 <= v <= 20 }

  /**
   * set_precision (set_sigdigs parses the same way and only leaves the
   * "given" flags alone): float digits are read from a non-empty argument
   * not starting with ','; double digits only when the float number is
   * directly followed by ','. Each strtol result is cast to int.
   */
  function SetPrecision(arg: Option<string>): (r: DigitsOutcome)
    ensures r.Accepted? ==> InRange(r.digits.floatDigits) && InRange(r.digits.doubleDigits)
    ensures r.Accepted? && r.digits.doubleGiven ==> r.digits.floatGiven
    ensures r.Accepted? && !r.digits.floatGiven ==> r.digits.floatDigits == FLT_DIGITS
    ensures r.Accepted? && !r.digits.doubleGiven ==> r.digits.doubleDigits == DBL_DIGITS
    ensures (arg.None? || |arg.value| == 0 || arg.value[0] == ',') ==> r == Accepted(Digits(FLT_DIGITS, DBL_DIGITS, false, false))
    ensures r.Unreasonable? ==> !InRange(r.err.value)
    ensures arg.Some? && |arg.value| > 0 && arg.value[0] != ',' ==>
      var flt := ToInt32(Strtol(arg.value).value);
      && (r == Unreasonable(FloatDigitsError(flt)) <==> !InRange(flt))
      && (r.Accepted? ==> r.digits.floatGiven && r.digits.floatDigits == flt)
  {
    if arg.None? || |arg.value| == 0 || arg.value[0] == ',' then
      Accepted(Digits(FLT_DIGITS, DBL_DIGITS, false, false))
    else
      var s := arg.value;
      var first := Strtol(s);
      var flt := ToInt32(first.value);
      if !InRange(flt) then Unreasonable(FloatDigitsError(flt))
      else DoubleCount(flt, s[first.end..])
  }

  /**
   * The second half of set_precision, once the float count `flt` is
   * accepted: `tail` is what strtol left after it. A ',' there makes the
   * rest the double count, which must be a number in 1..20.
   */
  function DoubleCount(flt: int, tail: string): (r: DigitsOutcome)
    requires InRange(flt)
    ensures r.Accepted? ==> r.digits.floatDigits == flt && r.digits.floatGiven && InRange(r.digits.doubleDigits)
    ensures r.Accepted? && !r.digits.doubleGiven ==> r.digits.doubleDigits == DBL_DIGITS
    ensures r.Unreasonable? ==> r.err.DoubleDigitsError? && !InRange(r.err.value)
    ensures (|tail| == 0 || tail[0] != ',') ==> r == Accepted(Digits(flt, DBL_DIGITS, true, false))
  {
    if |tail| > 0 && tail[0] == ',' then
      var second := Strtol(tail[1..]);
      var dbl := ToInt32(second.value);
      if second.end == 0 || !InRange(dbl) then Unreasonable(DoubleDigitsError(dbl))
      else Accepted(Digits(flt, dbl, true, true))
    else Accepted(Digits(flt, DBL_DIGITS, true, false))
  }

  /** strtol reads back a printed natural that fits in a long. */
  lemma StrtolNatural(n: nat, rest: string)
    requires n <= LONG_MAX
    requires |rest| == 0 || !IsDigit(rest[0])
    ensures Strtol(NatToDecimal(n) + rest) == Scan(n, |NatToDecimal(n)|)
  {
    ScanNaturalRoundTrip(n, rest);
  }

  /** strtol reads back a printed integer that fits in a long. */
  lemma StrtolDecimal(n: int, rest: string)
    requires LONG_MIN <= n <= LONG_MAX
    requires |rest| == 0 || !IsDigit(rest[0])
    ensures Strtol(IntToDecimal(n) + rest) == Scan(n, |IntToDecimal(n)|)
  {
    ScanDecimalRoundTrip(n, rest);
  }

  /** The printed text of an integer starts with a digit or a minus sign, never with ','. */
  lemma DecimalLead(n: int)
    ensures |IntToDecimal(n)| > 0 && IntToDecimal(n)[0] != ','
  {
    if n >= 0 {
      assert IsDigit(NatToDecimal(n)[0]);
    }
  }

  /** A float count outside 1..20 after the int cast is rejected, whatever follows it. */
  lemma SetPrecisionRejectsFloat(n: int, rest: string)
    requires LONG_MIN <= n <= LONG_MAX && !InRange(ToInt32(n))
    requires |rest| == 0 || !IsDigit(rest[0])
    ensures SetPrecision(Some(IntToDecimal(n) + rest)) == Unreasonable(FloatDigitsError(ToInt32(n)))
  {
    var s := IntToDecimal(n) + rest;
    DecimalLead(n);
    assert s[0] == IntToDecimal(n)[0];
    StrtolDecimal(n, rest);
  }

  /** Once an accepted float count is read, the rest of the argument decides alone. */
  lemma SetPrecisionAfterFloat(f: nat, tail: string)
    requires InRange(f)
    requires |tail| == 0 || !IsDigit(tail[0])
    ensures SetPrecision(Some(NatToDecimal(f) + tail)) == DoubleCount(f, tail)
  {
    var df := NatToDecimal(f);
    var s := df + tail;
    assert s[0] == df[0] && IsDigit(df[0]);
    StrtolNatural(f, tail);
    assert s[|df|..] == tail;
  }

  /** A double count outside 1..20 after the int cast is rejected, whatever follows it. */
  lemma DoubleCountRejects(f: nat, n: int, rest: string)
    requires InRange(f)
    requires LONG_MIN <= n <= LONG_MAX && !InRange(ToInt32(n))
    requires |rest| == 0 || !IsDigit(rest[0])
    ensures DoubleCount(f, "," + IntToDecimal(n) + rest) == Unreasonable(DoubleDigitsError(ToInt32(n)))
  {
    var tail := "," + IntToDecimal(n) + rest;
    assert tail[1..] == IntToDecimal(n) + rest;
    StrtolDecimal(n, rest);
  }

  /** With an accepted float count, a double count outside 1..20 after ',' is rejected. */
  lemma SetPrecisionRejectsDouble(f: nat, n: int, rest: string)
    requires InRange(f)
    requires LONG_MIN <= n <= LONG_MAX && !InRange(ToInt32(n))
    requires |rest| == 0 || !IsDigit(rest[0])
    ensures SetPrecision(Some(NatToDecimal(f) + "," + IntToDecimal(n) + rest)) == Unreasonable(DoubleDigitsError(ToInt32(n)))
  {
    var tail := "," + IntToDecimal(n) + rest;
    assert NatToDecimal(f) + "," + IntToDecimal(n) + rest == NatToDecimal(f) + tail;
    SetPrecisionAfterFloat(f, tail);
    DoubleCountRejects(f, n, rest);
  }

  /** With an accepted float count, a ',' followed by no number is rejected with the value 0. */
  lemma SetPrecisionRejectsMissingDouble(f: nat, rest: string)
    requires InRange(f)
    requires ScanInteger(rest).None?
    ensures SetPrecision(Some(NatToDecimal(f) + "," + rest)) == Unreasonable(DoubleDigitsError(0))
  {
    assert NatToDecimal(f) + "," + rest == NatToDecimal(f) + ("," + rest);
    SetPrecisionAfterFloat(f, "," + rest);
    DoubleCountMissing(f, rest);
  }

  /** A ',' with no number after it gives strtol's 0 and no progress, which is rejected. */
  lemma DoubleCountMissing(f: nat, rest: string)
    requires InRange(f)
    requires ScanInteger(rest).None?
    ensures DoubleCount(f, "," + rest) == Unreasonable(DoubleDigitsError(0))
  {
    assert ("," + rest)[1..] == rest;
  }

  /** "f,d" printed from two in-range values is read back as those values. */
  lemma SetPrecisionRoundTrip(f: nat, d: nat)
    requires InRange(f) && InRange(d)
    ensures SetPrecision(Some(NatToDecimal(f) + "," + NatToDecimal(d))) == Accepted(Digits(f, d, true, true))
  {
    var df, dd := NatToDecimal(f), NatToDecimal(d);
    var s := df + "," + dd;
    assert s == df + ("," + dd);
    assert s[0] == df[0] && IsDigit(df[0]);
    StrtolNatural(f, "," + dd);
    var first := Strtol(s);
    assert first == Scan(f, |df|);
    assert ToInt32(first.value) == f;
    assert first.end < |s| && s[first.end] == ',';
    assert s[first.end + 1..] == dd;
    assert dd + "" == dd;
    StrtolNatural(d, "");
    var second := Strtol(s[first.end + 1..]);
    assert second == Scan(d, |dd|) && second.end != 0;
    assert ToInt32(second.value) == d;
  }

  /** "f" alone sets the float digits and keeps the double default. */
  lemma SetPrecisionFloatOnly(f: nat)
    requires InRange(f)
    ensures SetPrecision(Some(NatToDecimal(f))) == Accepted(Digits(f, DBL_DIGITS, true, false))
  {
    var df := NatToDecimal(f);
    assert df + "" == df;
    StrtolNatural(f, "");
  }

  /** The (int) cast lets a value 2^32 above an accepted one through as that one. */
  lemma SetPrecisionWraps(f: nat)
    requires InRange(f)
    ensures SetPrecision(Some(NatToDecimal(f + 0x1_0000_0000))) == Accepted(Digits(f, DBL_DIGITS, true, false))
  {
    var n := f + 0x1_0000_0000;
    var dn := NatToDecimal(n);
    assert dn + "" == dn;
    StrtolNatural(n, "");
    assert ToInt32(n) == f;
  }
}

=== FILE: ncdump_types.dfy ===
/**
 * The small lookup tables of ncdump: type and format names, the reserved
 * CDL keywords, the NcML shape attribute, the default-fill decision and the
 * -s/-Xp decision about printing _NCProperties.
 *
 * A call to ncdump's error() is recorded as `reported := true`; whether the
 * program then stops is decided in utils.c, which is not part of this model.
 */
module NcTypes {
  import opened Basics
  import opened CText

  /** The netCDF primitive and user-defined type classes (nc_type). */
  datatype NcType =
    | Nat                // NC_NAT
    | Byte | Char | Short | Int | Float | Double
    | UByte | UShort | UInt | Int64 | UInt64 | String
    | Vlen | Opaque | Enum | Compound
    | UserDefined(id: int)

  /** The file formats reported by nc_inq_format (NC_FORMAT_...). */
  datatype Format =
    | Classic | Offset64 | Cdf5 | Netcdf4 | Netcdf4Classic
    | UnknownFormat(code: int)

  /** The dispatch layers reported by nc_inq_format_extended (NC_FORMATX_...). */
  datatype FormatX =
    | NC3 | HDF5 | HDF4 | PNetcdf | DAP2 | DAP4 | Undefined
    | OtherX(code: int)

  /** A name from one of the tables, and whether error() was called on the way. */
  datatype Labelled = Labelled(text: string, reported: bool)

  /** The names `prim_type_name` knows. */
  predicate HasPrimName(t: NcType)
  {
    !(t.Nat? || t.Enum? || t.UserDefined?)
  }

  function PrimTypeName(t: NcType): (r: Labelled)
    ensures r.reported <==> !HasPrimName(t)
    ensures !HasPrimName(t) <==> r.text == "bogus"
  {
    match t
    case Byte => Labelled("byte", false)
    case Char => Labelled("char", false)
    case Short => Labelled("short", false)
    case Int => Labelled("int", false)
    case Float => Labelled("float", false)
    case Double => Labelled("double", false)
    case UByte => Labelled("ubyte", false)
    case UShort => Labelled("ushort", false)
    case UInt => Labelled("uint", false)
    case Int64 => Labelled("int64", false)
    case UInt64 => Labelled("uint64", false)
    case String => Labelled("string", false)
    case Vlen => Labelled("vlen", false)
    case Opaque => Labelled("opaque", false)
    case Compound => Labelled("compound", false)
    case _ => Labelled("bogus", true)
  }

  function KindString(kind: Format): (r: Labelled)
    ensures r.reported <==> kind.UnknownFormat?
    ensures kind.UnknownFormat? ==> r.text == "unrecognized"
  {
    match kind
    case Classic => Labelled("classic", false)
    case Offset64 => Labelled("64-bit offset", false)
    case Cdf5 => Labelled("cdf5", false)
    case Netcdf4 => Labelled("netCDF-4", false)
    case Netcdf4Classic => Labelled("netCDF-4 classic model", false)
    case UnknownFormat(_) => Labelled("unrecognized", true)
  }

  /**
   * Distinct known types get distinct CDL names, so a printed name
   * identifies its type; none of them is the "bogus" of the error branch.
   */
  lemma PrimTypeNamesDistinct(a: NcType, b: NcType)
    requires HasPrimName(a) && HasPrimName(b) && a != b
    ensures PrimTypeName(a).text != PrimTypeName(b).text
    ensures PrimTypeName(a).text != "bogus" && !PrimTypeName(a).reported
  {
  }

  /**
   * Distinct known format kinds get distinct labels, none of them the
   * "unrecognized" of the error branch.
   */
  lemma KindStringsDistinct(a: Format, b: Format)
    requires !a.UnknownFormat? && !b.UnknownFormat? && a != b
    ensures KindString(a).text != KindString(b).text
    ensures KindString(a).text != "unrecognized" && !KindString(a).reported
  {
  }

  /** The mode bits that name a netCDF-3 variant (NC_64BIT_DATA alias NC_CDF5, NC_64BIT_OFFSET). */
  const NC_CDF5: nat := 0x0020
  const NC_64BIT_OFFSET: nat := 0x0200
  const UINT_RANGE: nat := 0x1_0000_0000

  /** `mode & bit` != 0 for a single-bit mask, on the two's-complement 32-bit int `mode`. */
  predicate HasBit(mode: int, bit: nat)
    requires bit > 0
  {
    (mode % UINT_RANGE) / bit % 2 == 1
  }

  function HexDigit(d: nat): (c: char)
    requires d < 16
  {
    if d < 10 then DigitChar(d) else (('a' as int) + d - 10) as char
  }

  function HexValue(c: char): nat
  {
    if '0' <= c <= '9' then (c as int) - ('0' as int)
    else if 'a' <= c <= 'f' then (c as int) - ('a' as int) + 10
    else 0
  }

  predicate IsHexDigit(c: char)
  {
    '0' <= c <= '9' || 'a' <= c <= 'f'
  }

  /** The last `n` hexadecimal digits of `u`, most significant first. */
  function HexDigits(u: nat, n: nat): (r: string)
    ensures |r| == n
    decreases n
  {
    if n == 0 then "" else HexDigits(u / 16, n - 1) + [HexDigit(u % 16)]
  }

  /** The value of a hexadecimal text, most significant digit first. */
  function HexText(s: string): nat
    decreases |s|
  {
    if |s| == 0 then 0 else HexText(s[..|s| - 1]) * 16 + HexValue(s[|s| - 1])
  }

  function Pow16(n: nat): (r: nat)
    ensures r > 0
  {
    if n == 0 then 1 else 16 * Pow16(n - 1)
  }

  /** Reading the digits of a value below 16^n back gives the value, and every digit is a lower-case hex digit. */
  lemma {:induction false} HexDigitsRoundTrip(u: nat, n: nat)
    requires u < Pow16(n)
    ensures HexText(HexDigits(u, n)) == u
    ensures forall i :: 0 <= i < n ==> IsHexDigit(HexDigits(u, n)[i])
    decreases n
  {
    if n > 0 {
      assert u / 16 < Pow16(n - 1);
      HexDigitsRoundTrip(u / 16, n - 1);
      var t := HexDigits(u / 16, n - 1) + [HexDigit(u % 16)];
      assert t[..|t| - 1] == HexDigits(u / 16, n - 1);
    }
  }

  /** printf("%08x") of an int: the unsigned 32-bit value as eight lower-case hex digits. */
  function Hex8(mode: int): (r: string)
    ensures |r| == 8
  {
    HexDigits(mode % UINT_RANGE, 8)
  }

  lemma Hex8RoundTrip(mode: int)
    ensures HexText(Hex8(mode)) == mode % UINT_RANGE
    ensures forall i :: 0 <= i < 8 ==> IsHexDigit(Hex8(mode)[i])
  {
    HexDigitsRoundTrip(mode % UINT_RANGE, 8);
    assert Pow16(8) == UINT_RANGE;
  }

  /** The label that `kind_string_extended` prints before the mode. */
  function ExtendedLabel(kind: FormatX, mode: int): (r: Labelled)
    ensures r.reported <==> kind.OtherX?
    ensures kind.NC3? && HasBit(mode, NC_CDF5) ==> r.text == "64-bit data"
    ensures kind.NC3? && !HasBit(mode, NC_CDF5) && HasBit(mode, NC_64BIT_OFFSET) ==> r.text == "64-bit offset"
    ensures kind.NC3? && !HasBit(mode, NC_CDF5) && !HasBit(mode, NC_64BIT_OFFSET) ==> r.text == "classic"
  {
    match kind
    case NC3 =>
      if HasBit(mode, NC_CDF5) then Labelled("64-bit data", false)
      else if HasBit(mode, NC_64BIT_OFFSET) then Labelled("64-bit offset", false)
      else Labelled("classic", false)
    case HDF5 => Labelled("HDF5", false)
    case HDF4 => Labelled("HDF4", false)
    case PNetcdf => Labelled("PNETCDF", false)
    case DAP2 => Labelled("DAP2", false)
    case DAP4 => Labelled("DAP4", false)
    case Undefined => Labelled("unknown", false)
    case OtherX(_) => Labelled("unrecognized", true)
  }

  /** "<label> mode=<8 hex digits>"; the 1024-byte buffer always holds it. */
  function KindStringExtended(kind: FormatX, mode: int): (r: Labelled)
    ensures r.reported == ExtendedLabel(kind, mode).reported
    ensures |r.text| < 1024
    ensures r.text == ExtendedLabel(kind, mode).text + " mode=" + Hex8(mode)
  {
    var l := ExtendedLabel(kind, mode);
    Labelled(Truncate(l.text + " mode=" + Hex8(mode), 1023), l.reported)
  }

  /** The mode can be read back from the last eight characters of the extended kind. */
  lemma KindStringExtendedMode(kind: FormatX, mode: int)
    ensures var t := KindStringExtended(kind, mode).text;
      |t| >= 8 && HexText(t[|t| - 8..]) == mode % UINT_RANGE
  {
    var t := KindStringExtended(kind, mode).text;
    assert t[|t| - 8..] == Hex8(mode);
    Hex8RoundTrip(mode);
  }

  /** The CDL words a variable name must be kept apart from. */
  const KEYWORDS: seq<string> := ["variables", "dimensions", "data", "group", "types"]

  method IsKeyword(kw: string) returns (r: bool)
    ensures r <==> kw == "variables" || kw == "dimensions" || kw == "data" || kw == "group" || kw == "types"
  {
    var i := 0;
    while i < |KEYWORDS|
      invariant 0 <= i <= |KEYWORDS|
      invariant forall j :: 0 <= j < i ==> KEYWORDS[j] != kw
    {
      if kw == KEYWORDS[i] {
        return true;
      }
      i := i + 1;
    }
    assert KEYWORDS[0] == "variables" && KEYWORDS[1] == "dimensions" && KEYWORDS[2] == "data";
    assert KEYWORDS[3] == "group" && KEYWORDS[4] == "types";
    return false;
  }

  /** `_FillValue` as nc_inq_att describes it, or None when the inquiry fails. */
  datatype AttInfo = AttInfo(attType: NcType, len: nat)

  /** Where a variable's fill value comes from. */
  datatype FillSource =
    | NoFill                   // has_fillval = 0, fillvalp = NULL
    | AttributeFill            // read from the variable's own _FillValue
    | DefaultFill(t: NcType)   // the library default NC_FILL_<type>
    | FillReadFailed(err: NcErr)  // nc_get_att failed inside NC_CHECK

  /** The types that have a library default fill value ncdump is willing to use. */
  predicate HasDefaultFill(t: NcType)
  {
    t.Char? || t.Short? || t.Int? || t.Float? || t.Double? || t.UShort? || t.UInt?
    || t.Int64? || t.UInt64? || t.String?
  }

  predicate HasFillValue(f: FillSource) { !f.NoFill? }

  /**
   * get_fill_info: an attribute of the variable's own type and length 1 is
   * read; otherwise the type's default is used, except for byte, ubyte,
   * NC_NAT and the user-defined types, which get no fill value.
   */
  function GetFillInfo(varType: NcType, att: Option<AttInfo>, readStatus: NcErr): (r: FillSource)
    ensures var usable := att.Some? && att.value.attType == varType && att.value.len == 1;
      (usable ==> r == (if readStatus == NoErr then AttributeFill else FillReadFailed(readStatus)))
      && (!usable ==> (HasFillValue(r) <==> HasDefaultFill(varType)))
      && (!usable && HasDefaultFill(varType) ==> r == DefaultFill(varType))
  {
    if att.Some? && att.value.attType == varType && att.value.len == 1 then
      if readStatus == NoErr then AttributeFill else FillReadFailed(readStatus)
    else
      match varType
      case Byte => NoFill
      case UByte => NoFill
      case Char => DefaultFill(varType)
      case Short => DefaultFill(varType)
      case Int => DefaultFill(varType)
      case Float => DefaultFill(varType)
      case Double => DefaultFill(varType)
      case UShort => DefaultFill(varType)
      case UInt => DefaultFill(varType)
      case Int64 => DefaultFill(varType)
      case UInt64 => DefaultFill(varType)
      case String => DefaultFill(varType)
      case _ => NoFill
  }

  /**
   * xopt_props from -s (special attributes) and -Xp: properties are shown
   * only with -s and without -Xp.
   */
  function XoptProps(specialAtts: bool, xpFlag: bool): (r: bool)
    ensures r <==> specialAtts && !xpFlag
  {
    if specialAtts && xpFlag then false
    else if specialAtts && !xpFlag then true
    else if !specialAtts then false
    else false
  }

  /** Dimension names joined by single spaces. */
  function Join(names: seq<string>): (r: string)
    decreases |names|
  {
    if |names| == 0 then ""
    else if |names| == 1 then names[0]
    else Join(names[..|names| - 1]) + " " + names[|names| - 1]
  }

  function SumLengths(names: seq<string>): nat
    decreases |names|
  {
    if |names| == 0 then 0 else SumLengths(names[..|names| - 1]) + |names[|names| - 1]|
  }

  lemma {:induction false} JoinLength(names: seq<string>)
    requires |names| > 0
    ensures |Join(names)| == SumLengths(names) + |names| - 1
    decreases |names|
  {
    if |names| > 1 {
      JoinLength(names[..|names| - 1]);
      assert names[..|names| - 1][..|names| - 2] == names[..|names| - 2];
    }
  }

  /** The names of the dimensions a variable uses, in order. */
  function DimNames(dimNames: seq<string>, varDims: seq<nat>): (r: seq<string>)
    requires forall k :: 0 <= k < |varDims| ==> varDims[k] < |dimNames|
    ensures |r| == |varDims|
    ensures forall k :: 0 <= k < |varDims| ==> r[k] == dimNames[varDims[k]]
  {
    seq(|varDims|, k requires 0 <= k < |varDims| => dimNames[varDims[k]])
  }

  /**
   * pr_shape: the NcML ` shape="..."` attribute, or nothing for a scalar.
   * The buffer is sized sum(len+1)+1, and each strlcat is bounded by
   * sum(len+1); the joined names need exactly one byte less than that bound,
   * so nothing is cut off.
   */
  method PrShape(dimNames: seq<string>, varDims: seq<nat>) returns (r: string)
    requires forall k :: 0 <= k < |varDims| ==> varDims[k] < |dimNames|
    ensures |varDims| == 0 ==> r == ""
    ensures |varDims| > 0 ==> r == " shape=\"" + Join(DimNames(dimNames, varDims)) + "\""
  {
    if |varDims| == 0 {
      return "";
    }
    var names := DimNames(dimNames, varDims);
    var shapelen := SumLengths(names) + |names|;
    var shape := "";
    var id := 0;
    while id < |names|
      invariant 0 <= id <= |names|
      invariant id == 0 ==> shape == ""
      invariant id > 0 ==> shape == Join(names[..id]) + (if id < |names| then " " else "")
      invariant id > 0 ==> |Join(names[..id])| == SumLengths(names[..id]) + id - 1
      invariant SumLengths(names[..id]) <= SumLengths(names)
    {
      SumPrefix(names, id + 1);
      var next := names[..id + 1];
      assert next[..id] == names[..id];
      JoinLength(next);
      SumPrefix(names, id);
      shape := Strlcat(shape, names[id], shapelen);
      shape := Strlcat(shape, if id < |names| - 1 then " " else "", shapelen);
      assert Join(next) == (if id == 0 then names[0] else Join(names[..id]) + " " + names[id]);
      id := id + 1;
    }
    assert names[..|names|] == names;
    r := " shape=\"" + shape + "\"";
  }

  /**
   * Reading the shape attribute back: splitting the joined names at their
   * spaces gives, in order, the names of the variable's dimensions, when no
   * dimension name holds a space.
   */
  lemma ShapeNamesRoundTrip(dimNames: seq<string>, varDims: seq<nat>)
    requires forall k :: 0 <= k < |varDims| ==> varDims[k] < |dimNames|
    requires |varDims| > 0
    requires forall k :: 0 <= k < |dimNames| ==> PlainName(dimNames[k])
    ensures var back := Split(Join(DimNames(dimNames, varDims)));
      |back| == |varDims| && forall k :: 0 <= k < |varDims| ==> back[k] == dimNames[varDims[k]]
  {
    var names := DimNames(dimNames, varDims);
    forall k | 0 <= k < |names| ensures PlainName(names[k]) {
      assert names[k] == dimNames[varDims[k]];
    }
    SplitJoin(names);
  }

  /** The length sum of a prefix never exceeds the sum of the whole and grows by the next name. */
  lemma {:induction false} SumPrefix(names: seq<string>, k: nat)
    requires k <= |names|
    ensures SumLengths(names[..k]) <= SumLengths(names)
    ensures k < |names| ==> SumLengths(names[..k + 1]) == SumLengths(names[..k]) + |names[k]|
    decreases |names| - k
  {
    if k < |names| {
      SumPrefix(names, k + 1);
      assert names[..k + 1][..k] == names[..k];
    } else {
      assert names[..k] == names;
    }
  }

  /** Splitting a joined text at its spaces gives the names back when no name is empty or holds a space. */
  function Split(s: string): (r: seq<string>)
    decreases |s|
  {
    match LastIndexOf(s, ' ')
    case None => [s]
    case Some(i) => Split(s[..i]) + [s[i + 1..]]
  }

  predicate PlainName(n: string)
  {
    forall i :: 0 <= i < |n| ==> n[i] != ' '
  }

  lemma {:induction false} SplitJoin(names: seq<string>)
    requires |names| > 0
    requires forall k :: 0 <= k < |names| ==> PlainName(names[k])
    ensures Split(Join(names)) == names
    decreases |names|
  {
    if |names| == 1 {
      assert Join(names) == names[0];
      assert LastIndexOf(names[0], ' ') == None;
    } else {
      var front := names[..|names| - 1];
      var last := names[|names| - 1];
      var j := Join(front);
      var s := j + " " + last;
      assert Join(names) == s;
      assert s[|j|] == ' ';
      forall q | |j| < q < |s| ensures s[q] != ' ' {
        assert s[q] == last[q - |j| - 1];
      }
      assert LastIndexOf(s, ' ') == Some(|j|);
      assert s[..|j|] == j && s[|j| + 1..] == last;
      SplitJoin(front);
      assert front + [last] == names;
    }
  }
}
